=== FILE: README.md ===
# Auto Care booking backend, modelled in Dafny

This project models the core of the Auto Care backend, a Django service for
booking vehicle care at the customer's location:

- **Customer sign-in by one-time password.** Mobile numbers are normalised and validated. An OTP is issued with a one-minute cooldown and checked against its lifetime and a three-attempt limit. A user is created on first sign-in.
- **Saved addresses.** The address line is generated on save. At most one default address is kept per user. Coordinates must fall inside a service area. The model also covers the address columns of the admin.
- **Bookings.** The model covers field and location validation, the duplicate-slot rule, the update guard, and cancellation. It also covers the service-availability and free-slot endpoints and the admin bulk status actions.
- **Service providers and assignments.** The model covers registration and the specialization choices. It covers an assignment's status changes (accept, reject, start, complete) and the provider endpoints (assignment actions, en route, completion, location, availability).
- **The two provider-selection rules.**
  - The nearest-provider search is ordered by distance, then by rating. Its assignment and reassignment paths are covered too.
  - The weighted score combines distance, rating and workload.

Modelling choices:

- Coordinates are integers in millionths of a degree (`Geo.Micro`).
- Nullable columns are `Option`. Python's truthiness of a nullable decimal (None and 0 are false) is `Common.Truthy`.
- The great-circle distance is an abstract parameter `DistanceFn`. Each rule calls it with its arguments in the order the source does.
- Times are integer seconds on one clock, passed in as `now`. Dates are day numbers, with `today` passed in.
- Random draws are passed in as parameters.
- Objects that the source changes in place are classes: `Booking`, `ServiceProvider` and `ServiceAssignment`, plus the tables `AddressBook`, `BookingTable` and `OtpService`. Each of their methods states what it writes and which columns it keeps. The two-state predicates `ColumnsKept` and `ProfileKept` name the columns that stay as they were.
- The selection rules read value snapshots (`ProviderRow`, `AssignmentRow`, `BookingRow`).
- Each loop of the source that updates variables is a method proved equal to a specification function. Lemmas about that function state what the source promises. Comprehensions and `sum` over a generator (such as the admin's address count) are functions.

## Model

| member | source | states |
|---|---|---|
| AccountUtils.RemoveSeparators | auto_care_backend/apps/accounts/utils.py:18-19 | the result holds no space, hyphen or parenthesis, is no longer than the input, and text without separators is unchanged |
| AccountUtils.RemoveSeparatorsAppend | auto_care_backend/apps/accounts/utils.py:19 | separator removal distributes over concatenation, so every other character is kept, in order |
| AccountUtils.RemoveSeparatorsChar | auto_care_backend/apps/accounts/utils.py:19 | one character is deleted iff it is a space, hyphen or parenthesis |
| AccountUtils.RemoveSeparatorsBetween | auto_care_backend/apps/accounts/utils.py:19 | a separator between two clean pieces is deleted and the pieces are joined |
| AccountUtils.Normalize | auto_care_backend/apps/accounts/utils.py:10-31 | a normalised number never contains a separator; stripping removes exactly the characters Python's `str.strip()` removes |
| AccountUtils.DropPrefix | auto_care_backend/apps/accounts/utils.py:21-31 | removing a country or trunk prefix never introduces a separator |
| AccountUtils.NormalizeClean | auto_care_backend/apps/accounts/utils.py:10-31 | clean non-empty text is only subject to the prefix rule |
| AccountUtils.DigitsAreClean | auto_care_backend/apps/accounts/utils.py:19 | a digit string has no whitespace and no separator |
| AccountUtils.CleanTextUnchanged | auto_care_backend/apps/accounts/utils.py:18-19 | stripping and separator removal leave clean text as it is |
| AccountUtils.NormalizeKeepsTenDigits | auto_care_backend/apps/accounts/utils.py:10-31 | a ten-digit number not starting with 0 is already normal |
| AccountUtils.PrefixedDigits | auto_care_backend/apps/accounts/utils.py:21-29 | a digit prefix followed by digits is a digit string |
| AccountUtils.PlusPrefixedClean | auto_care_backend/apps/accounts/utils.py:19-23 | "+91" followed by digits contains no whitespace or separator |
| AccountUtils.NormalizeDropsPlus91 | auto_care_backend/apps/accounts/utils.py:21-23 | "+91" + digits normalises to the digits |
| AccountUtils.NormalizeSeparated | auto_care_backend/apps/accounts/utils.py:10-31 | a space, hyphen or parenthesis inside a number changes nothing: the number normalises as its separator-free form |
| AccountUtils.NormalizeDropsSpacedPlus91 | auto_care_backend/apps/accounts/utils.py:18-23 | "+91 " followed by digits normalises to the digits |
| AccountUtils.NormalizeDrops91 | auto_care_backend/apps/accounts/utils.py:24-26 | "91" + ten digits normalises to the ten digits |
| AccountUtils.NormalizeDropsTrunkZero | auto_care_backend/apps/accounts/utils.py:27-29 | "0" + digits normalises to the digits |
| AccountUtils.ValidateOutcomes | auto_care_backend/apps/accounts/utils.py:33-52 | each verdict as an if-and-only-if on the normalised number: valid iff exactly ten digits; required iff empty; non-digit, too short, too long |
| AccountUtils.ValidateRenormalizes | auto_care_backend/apps/accounts/api/views.py:33-36 | "+91" + "0" + ten digits normalises to eleven digits that validation still accepts |
| AccountUtils.GenerateOtp | auto_care_backend/apps/accounts/utils.py:6-8 | six characters, all digits, the i-th being the i-th draw |
| Accounts.CreateUser | auto_care_backend/apps/accounts/models.py:12-19 | fails iff the number is empty; each given extra column (name, type, active, verified, staff, superuser) is stored as given and each other one takes the model default; a password iff one was given |
| Accounts.CreateUserMatchesDefaults | auto_care_backend/apps/accounts/models.py:12-19 | creating without password or extras gives exactly the model-default row |
| Accounts.CreatedUserDefaults | auto_care_backend/apps/accounts/models.py:43-55 | a plain new user is a customer, not staff, not superuser |
| Accounts.SuperuserDefaults | auto_care_backend/apps/accounts/models.py:21-25 | staff, superuser and admin type unless explicitly given, given values kept |
| Accounts.ExactlyOneRole | auto_care_backend/apps/accounts/models.py:72-79 | for a type among the choices exactly one role helper holds, otherwise none |
| Accounts.SaveOtp | auto_care_backend/apps/accounts/models.py:92-95 | saving keeps the code, number, flags and attempts; a later save changes nothing; a given expiry is kept |
| Accounts.FreshOtpValidity | auto_care_backend/apps/accounts/models.py:92-102 | a fresh unused OTP is valid exactly until ten minutes after creation |
| Accounts.VerifiedOtpInvalid | auto_care_backend/apps/accounts/models.py:97-99 | a used OTP is never valid |
| Accounts.FullAddress | auto_care_backend/apps/accounts/models.py:168-178 | the joined address is empty iff every part is empty |
| Accounts.ClearAccountDefaults | auto_care_backend/apps/accounts/models.py:162-165 | none of the user's rows is left a default, other users' rows are untouched, and nothing but the flag changes |
| Accounts.SavedDefaultIsOnlyDefault | auto_care_backend/apps/accounts/models.py:162-166 | after saving a default it is present and its owner's only default; other users' rows survive |
| OtpAuth.Newest | auto_care_backend/apps/accounts/api/views.py:45 | none iff no matching row; otherwise a matching row with the latest creation time |
| OtpAuth.ProviderOtpShape | auto_care_backend/apps/service_providers/api/views.py:93-95 | a draw in 100000..999999 prints as six digits with a non-zero first digit |
| OtpAuth.GetOrCreateUser | auto_care_backend/apps/accounts/api/views.py:60 | afterwards the user exists; an existing user leaves the table unchanged, else the default row is appended |
| OtpAuth.CheckOtp | auto_care_backend/apps/accounts/api/views.py:123-150 | correct iff unexpired, under three attempts and equal; a wrong code reports the attempts left, never negative |
| OtpAuth.LockedAfterThreeWrongCodes | auto_care_backend/apps/accounts/api/views.py:131-138 | after three wrong codes every code, the right one included, is refused |
| OtpAuth.WrongCodesCountDown | auto_care_backend/apps/accounts/api/views.py:141-149 | the k-th wrong code reports 3 - k attempts left |
| OtpAuth.CheckOtpAsWritten | auto_care_backend/apps/accounts/api/views.py:123-141 | as written: expiry and lock are decided as by CheckOtp; every code that passes them fails, since the compared field does not exist |
| OtpAuth.RightCodeFailsAsWritten | auto_care_backend/apps/accounts/api/views.py:141 | a live OTP presented with its own code fails as written and is correct as intended |
| OtpAuth.NoPendingCodeAfterSendAsWritten | auto_care_backend/apps/accounts/api/views.py:57 | once the number's unused codes are deleted and none is stored, the number has no pending OTP |
| OtpAuth.SentCodeIsPending | auto_care_backend/apps/accounts/api/views.py:57-66 | as intended, the stored code is the number's newest pending OTP, the one the next verification checks |
| OtpAuth.OtpService.constructor | auto_care_backend/apps/accounts/models.py:84-91 | empty tables satisfying the id invariant |
| OtpAuth.OtpService.SendOtp | auto_care_backend/apps/accounts/api/views.py:22-75 | invalid number or cooldown: nothing changes and the reason is reported; else the number's unused codes are deleted, the user is got or created, and one fresh code from the draws is stored |
| OtpAuth.OtpService.SendOtpAsWritten | auto_care_backend/apps/accounts/api/views.py:22-66 | as written: invalid number or cooldown as in SendOtp; else the unused codes are deleted, the user is got or created, no code is stored and the send fails |
| OtpAuth.OtpService.ClearPending | auto_care_backend/apps/accounts/api/views.py:57-60 | the number's unused codes are deleted and its user got or created; nothing else changes |
| OtpAuth.OtpService.Issue | auto_care_backend/apps/accounts/api/views.py:57-68 | the three writes of a send, as table updates |
| OtpAuth.OtpService.VerifyOtp | auto_care_backend/apps/accounts/api/views.py:81-175 | per outcome: bad number, bad format, no pending code change nothing; expiry and lock delete the code; a wrong code counts one attempt; a correct one deletes the code and gets or creates the user |
| OtpAuth.OtpService.Discard | auto_care_backend/apps/accounts/api/views.py:124 | removes exactly that row |
| OtpAuth.OtpService.CountWrongCode | auto_care_backend/apps/accounts/api/views.py:142-143 | adds one attempt to exactly that row |
| OtpAuth.OtpService.Admit | auto_care_backend/apps/accounts/api/views.py:156 | reports whether the user was new; users as get-or-create gives them |
| OtpAuth.OtpService.IssueProviderOtp | auto_care_backend/apps/service_providers/api/views.py:93-105 | every OTP of the number is deleted and one stored; afterwards the number's only OTP carries the drawn code |
| Addresses.WithAddressLine | auto_care_backend/apps/locations/models.py:60-71 | only the line changes; a non-empty line is kept; an empty one becomes the ", "-join of the non-empty parts; empty iff every part is |
| Addresses.AddressLineIdempotent | auto_care_backend/apps/locations/models.py:60-71 | generating twice is generating once |
| Addresses.AddressLineNotRefreshed | auto_care_backend/apps/locations/models.py:62 | a generated line is not refreshed when parts change |
| Addresses.AddressLineSinglePart | auto_care_backend/apps/locations/models.py:62-71 | with only line 1 filled the line is exactly line 1 |
| Addresses.ClearDefaults | auto_care_backend/apps/locations/models.py:74-75 | none of the user's rows is left a default, other users' rows are untouched, and nothing but the flag changes |
| Addresses.ClearedRows | auto_care_backend/apps/locations/models.py:74-75 | the user keeps no default; other users' rows are kept; keys stay unique |
| Addresses.SaveRowIdsBelow | auto_care_backend/apps/locations/models.py:60-77 | saving keeps every key below the next free one |
| Addresses.SaveRowInvariant | auto_care_backend/apps/locations/models.py:60-77 | saving keeps unique keys and one default per user; the row is present; every other row survives |
| Addresses.Find | auto_care_backend/apps/accounts/api/views.py:313-319 | none iff no row has that key and owner; otherwise that row |
| Addresses.OwnedBy | auto_care_backend/apps/locations/api/views.py:25-26 | exactly the user's rows |
| Addresses.ListFor | auto_care_backend/apps/locations/api/views.py:10-11 | a permutation of the user's rows; defaults first, then newest first |
| Addresses.CheckCoordinates | auto_care_backend/apps/locations/api/serializers.py:17-42 | incomplete iff exactly one coordinate is given; refused iff both are given, some area is active and none contains the point |
| Addresses.NoActiveAreaAcceptsAll | auto_care_backend/apps/locations/api/serializers.py:32-33 | with no active area any complete pair passes |
| Addresses.Apply | auto_care_backend/apps/locations/api/serializers.py:5-14 | every sent field is written and every omitted one keeps its value; key, owner, address line and creation time are never written |
| Addresses.ApplyNothing | auto_care_backend/apps/locations/api/serializers.py:5-14 | an empty payload changes nothing |
| Addresses.ApplyIdempotent | auto_care_backend/apps/locations/api/serializers.py:5-14 | sending the same payload twice writes nothing new the second time |
| Addresses.OmittedCoordinatesStoredAsZero | auto_care_backend/apps/locations/models.py:51-52 | an address without coordinates passes validation and is stored at (0, 0) |
| Addresses.AddressBook.constructor | auto_care_backend/apps/locations/models.py:28-58 | an empty table |
| Addresses.AddressBook.Save | auto_care_backend/apps/locations/models.py:60-77 | the table is the saved-row function of the old one |
| Addresses.AddressBook.ClearUserDefaults | auto_care_backend/apps/locations/api/views.py:16-17 | the table has the user's defaults cleared |
| Addresses.AddressBook.Create | auto_care_backend/apps/locations/api/views.py:13-18 | a validation failure changes nothing; else the new row is saved, after clearing defaults when it is one |
| Addresses.AddressBook.Update | auto_care_backend/apps/locations/api/views.py:28-32 | another user's row is not found; validation failures change nothing; else the payload is written over the row |
| Addresses.AddressBook.Destroy | auto_care_backend/apps/locations/api/views.py:20-26 | found iff the caller owns the row; then exactly that row is removed |
| Addresses.AddressBook.SetDefault | auto_care_backend/apps/accounts/api/views.py:308-331 | not found changes nothing; else the chosen row is the caller's only default and other users' rows are kept |
| Addresses.AddressShort | auto_care_backend/apps/locations/admin.py:61-65 | the join of line 1, city and state, cut to 50 characters plus "..." exactly when longer |
| Addresses.AddressTypeDisplay | auto_care_backend/apps/locations/admin.py:50-58 | icon and label per type; an unknown type gets the pin and its raw value |
| Addresses.AddressCount | auto_care_backend/apps/locations/admin.py:99-105 | defined iff every address has both coordinates; never more than the number of addresses |
| Addresses.AddressCountIsInside | auto_care_backend/apps/locations/admin.py:104 | the count is the number of addresses the area contains |
| Addresses.AddressCountAppend | auto_care_backend/apps/locations/admin.py:104 | the count adds up over a split table |
| Geo.NewServiceArea | auto_care_backend/apps/locations/models.py:14-18 | a new area has a 30 km radius and is active |
| Geo.ActiveAreas | auto_care_backend/apps/locations/api/serializers.py:32 | exactly the active areas; empty iff none is active |
| Geo.CoveringAreas | auto_care_backend/apps/bookings/api/views.py:145-152 | exactly the active areas containing the point; empty iff none does |
| Geo.ServedIff | auto_care_backend/apps/locations/api/serializers.py:32-37 | served iff no area is active or an active area contains the point |
| Geo.NearestArea | auto_care_backend/apps/bookings/api/serializers.py:98 | an area whose centre is closest, the first such |
| Geo.RoundTenths | auto_care_backend/apps/bookings/api/views.py:171 | a non-negative count of tenths within half a tenth of the distance |
| Geo.RoundTenthsMonotone | auto_care_backend/apps/bookings/api/views.py:171-174 | rounding never reverses the order of two distances |
| Sorting.SortBy | auto_care_backend/apps/bookings/services/assignment_service.py:156-158 | a sorted permutation of the input |
| Sorting.SortByHead | auto_care_backend/apps/bookings/services/assignment_service.py:156-173 | the head of the sorted list is the first element with the least key |
| Sorting.SortByStable | auto_care_backend/apps/bookings/api/views.py:174 | elements with equal keys keep their relative order |
| Bookings.Cancellable | auto_care_backend/apps/bookings/models.py:70-82 | cancellable iff neither completed nor cancelled and the date is after today |
| Bookings.InServiceArea | auto_care_backend/apps/bookings/models.py:92-106 | a booking without both coordinates truthy is accepted; otherwise accepted iff served |
| Bookings.ZeroCoordinateAlwaysServed | auto_care_backend/apps/bookings/models.py:94-95 | a booking on the equator is accepted whatever the areas |
| Bookings.CenterDistance | auto_care_backend/apps/bookings/models.py:108-127 | none iff a coordinate is falsy or no area is active; else the least distance from an active centre |
| Bookings.Summary | auto_care_backend/apps/bookings/models.py:129-143 | coordinates iff both truthy; the address or "Not specified"; the area check; the linked address's id and type |
| Bookings.Booking.constructor | auto_care_backend/apps/bookings/models.py:5-57 | a pending booking with the given columns |
| Bookings.Booking.Cancel | auto_care_backend/apps/bookings/models.py:84-90 | reports cancellability; cancels exactly then; never cancellable afterwards; other columns kept |
| Bookings.OwnRowNeverDuplicate | auto_care_backend/apps/bookings/api/serializers.py:160-170 | an update that keeps its own slot never collides with itself |
| Bookings.CancelledRowsNeverBlock | auto_care_backend/apps/bookings/api/serializers.py:160-170 | cancelling the only clashing booking frees the slot |
| AccountBookings.CleanTimeSlot | auto_care_backend/apps/accounts/api/serializers.py:45-49 | refused iff blank; else the stripped, non-empty slot |
| AccountBookings.CleanFields | auto_care_backend/apps/accounts/api/serializers.py:39-49 | fails iff a past date or a blank slot was sent, reporting both; cleaned slot stripped |
| AccountBookings.CheckSlot | auto_care_backend/apps/accounts/api/serializers.py:51-79 | field errors first; with a request, a pending or confirmed clash of another booking is refused |
| AccountBookings.SameDuplicateRule | auto_care_backend/apps/bookings/api/serializers.py:160-170 | both serializers refuse exactly the same duplicates |
| BookingApi.FieldErrors | auto_care_backend/apps/bookings/api/serializers.py:40-53 | missing required fields, a blank slot, a past date and a foreign saved address, each iff its condition |
| BookingApi.LocatedIsInServiceArea | auto_care_backend/apps/bookings/api/serializers.py:108-176 | a booking the serializer accepts also passes the model's area check |
| BookingApi.Validate | auto_care_backend/apps/bookings/api/serializers.py:108-176 | accepted iff every condition holds; location required iff a coordinate or the address is missing; a refused duplicate is a real one; an outside error names the nearest active area |
| BookingApi.PatchWithoutCoordinatesRefused | auto_care_backend/apps/bookings/api/serializers.py:115-119 | a patch of the notes alone is refused |
| BookingApi.UpdateGuard | auto_care_backend/apps/bookings/api/serializers.py:191-199 | refused iff the booking is completed and a location field is sent |
| BookingApi.Apply | auto_care_backend/apps/bookings/api/serializers.py:201 | sent fields written, others and the status kept |
| BookingApi.FindRow | auto_care_backend/apps/bookings/api/views.py:41-46 | none iff the caller has no booking with that key |
| BookingApi.PatchBooking | auto_care_backend/apps/bookings/api/views.py:60-87 | closed bookings refused; success iff all checks pass, leaving a located, in-area booking with the sent fields; a failure changes nothing |
| BookingApi.Patch | auto_care_backend/apps/bookings/api/views.py:60-87 | not found iff the caller has no such booking; a completed or cancelled booking is refused as not editable; success iff the booking is open, its fields are valid and the payload is acceptable, and then the sent fields are written, the status is kept and the location is in the service area; a refusal changes nothing; every other booking is unchanged |
| BookingApi.Delete | auto_care_backend/apps/bookings/api/views.py:89-108 | not found iff no such booking; otherwise cancelled exactly when cancellable, and no column but the status changes; every other booking is unchanged |
| BookingApi.Create | auto_care_backend/apps/bookings/api/views.py:26-35 | created iff no field error and acceptable; a fresh pending booking of the caller with the sent fields, located, with a non-blank slot and not a duplicate |
| BookingApi.CreateAsWritten | auto_care_backend/apps/bookings/api/serializers.py:178-182 | as written: never a booking; field and validation errors as in Create, and a server error for every payload Create accepts |
| BookingApi.SortedPrefixLeast | auto_care_backend/apps/bookings/api/views.py:174-178 | the first n of a sorted rearrangement of a list are sorted, drawn from the list, and no farther than any entry left behind |
| BookingApi.NearestAreas | auto_care_backend/apps/bookings/api/views.py:174-178 | at most three entries, a sorted prefix of a permutation of the full list, none farther than any left out |
| BookingApi.CheckServiceAvailability | auto_care_backend/apps/bookings/api/views.py:114-192 | required, format and range errors each iff their condition; available everywhere iff no area is active; covered areas named; else the nearest listed |
| BookingApi.CollectCoveredNames | auto_care_backend/apps/bookings/api/views.py:145-152 | the loop collects the names of the active areas containing the point, in table order |
| BookingApi.CollectNearby | auto_care_backend/apps/bookings/api/views.py:163-172 | the loop collects every active area with its distance rounded to a tenth, in table order |
| BookingApi.NearestListedFirst | auto_care_backend/apps/bookings/api/views.py:174-178 | the first listed area has the least rounded distance, the first such in table order |
| BookingApi.BookedSlots | auto_care_backend/apps/bookings/api/views.py:251-255 | exactly the slots held that day by pending or confirmed bookings |
| BookingApi.FreeSlots | auto_care_backend/apps/bookings/api/views.py:244-257 | exactly the standard slots not booked, in their usual order |
| BookingApi.AvailableTimeSlots | auto_care_backend/apps/bookings/api/views.py:226-264 | errors iff the date is missing or malformed; otherwise the booked and free slots and their count |
| BookingApi.FreeDayOffersAll | auto_care_backend/apps/bookings/api/views.py:244-257 | a day without open bookings offers every slot |
| BookingApi.BookingHoldsSlot | auto_care_backend/apps/bookings/api/views.py:251-257 | an open booking removes its slot for every user |
| BookingAdmin.CountMoving | auto_care_backend/apps/bookings/admin.py:36-43 | zero iff no selected row is in the source status |
| BookingAdmin.UpdatedRows | auto_care_backend/apps/bookings/admin.py:36-43 | the moved rows are in the target status, the rest are as they were, and only statuses change |
| BookingAdmin.BulkUpdate | auto_care_backend/apps/bookings/admin.py:36-43 | the selected rows in the source status move to the target status and nothing else changes; the count is how many more selected rows are in the target status afterwards, zero iff none moves |
| BookingAdmin.SecondRunMovesNothing | auto_care_backend/apps/bookings/admin.py:36-43 | repeating an action moves and changes nothing |
| BookingAdmin.CountIsNewlyMoved | auto_care_backend/apps/bookings/admin.py:36-43 | the selected rows in the target status after the update are those there before plus those moved |
| BookingAdmin.ConfirmThenComplete | auto_care_backend/apps/bookings/admin.py:36-43 | confirming then completing completes every selected open booking |
| BookingAdmin.BookingTable.constructor | auto_care_backend/apps/bookings/admin.py:5 | a table holding the given rows |
| BookingAdmin.BookingTable.MarkConfirmedAction | auto_care_backend/apps/bookings/admin.py:36-39 | table and count as the bulk update gives them; no selected pending row remains |
| BookingAdmin.BookingTable.MarkCompletedAction | auto_care_backend/apps/bookings/admin.py:41-43 | table and count as the bulk update gives them; no selected confirmed row remains |
| Providers.ParseSpecialization | auto_care_backend/apps/service_providers/models.py:10-16 | a parsed code round-trips; none iff no specialization has that code |
| Providers.SpecializationRoundTrip | auto_care_backend/apps/service_providers/models.py:10-16 | every specialization reads back as itself |
| Providers.ServiceProvider.constructor | auto_care_backend/apps/service_providers/models.py:66-92 | given columns, available, pending verification, rating 0, no jobs, no location |
| Providers.ServiceProvider.UpdateLocation | auto_care_backend/apps/service_providers/models.py:107-112 | both coordinates and the update time set, the rest kept |
| Providers.ServiceAssignment.constructor | auto_care_backend/apps/service_providers/models.py:118-163 | the given status and estimate, no time stamps, empty reason |
| Providers.ServiceAssignment.Accept | auto_care_backend/apps/service_providers/models.py:176-180 | accepted, stamped, other stamps kept |
| Providers.ServiceAssignment.Reject | auto_care_backend/apps/service_providers/models.py:182-187 | rejected with the reason, stamped, other stamps kept |
| Providers.ServiceAssignment.StartService | auto_care_backend/apps/service_providers/models.py:189-193 | in progress, stamped, other stamps kept |
| Providers.ServiceAssignment.CompleteService | auto_care_backend/apps/service_providers/models.py:195-205 | completed and stamped, other stamps kept; the booking completed with every other column kept; the provider's jobs up by exactly one with the rest of its profile kept |
| Matching.Kept | auto_care_backend/apps/bookings/services/assignment_service.py:111-144 | exactly the kept providers, each with its own distance and rating, in provider order |
| Matching.Nearest | auto_care_backend/apps/bookings/services/assignment_service.py:50-173 | a result implies truthy booking coordinates and a valid index |
| Matching.NearestNoneIff | auto_care_backend/apps/bookings/services/assignment_service.py:66-73 | nothing iff a booking coordinate is falsy or no provider is kept |
| Matching.NearestIsFirstMin | auto_care_backend/apps/bookings/services/assignment_service.py:156-173 | the result is the first least entry of the kept list |
| Matching.NearestIsBest | auto_care_backend/apps/bookings/services/assignment_service.py:85-173 | the chosen provider is kept, within range and nearest; among equals the best rated; on a full tie the first |
| Matching.CollectCandidates | auto_care_backend/apps/bookings/services/assignment_service.py:111-144 | the loop builds exactly the kept list |
| Matching.FindNearestAvailableProvider | auto_care_backend/apps/bookings/services/assignment_service.py:50-173 | returns the provider and distance the search function picks, nothing exactly when it does |
| Matching.FirstArgMin | auto_care_backend/apps/bookings/services/assignment_service.py:216-234 | none iff all absent; otherwise the first least present value |
| Matching.AssignProviderToBooking | auto_care_backend/apps/bookings/services/assignment_service.py:197-268 | nothing without booking coordinates; else an assignment iff some provider is considered, to the first nearest, fresh and assigned |
| Matching.CalculateEta | auto_care_backend/apps/bookings/services/assignment_service.py:34-47 | at least ten minutes ahead, in whole minutes, covering the travel time at 30 km/h |
| Matching.EtaMonotone | auto_care_backend/apps/bookings/services/assignment_service.py:34-47 | a farther provider never gets an earlier estimate |
| Matching.ReassignTargetAsWritten | auto_care_backend/apps/bookings/services/assignment_service.py:314 | the search over all providers, rejecter included; valid index |
| Matching.RejecterReassignedAsWritten | auto_care_backend/apps/bookings/services/assignment_service.py:296-314 | an alternative exists, yet the search as written picks the rejecter |
| Matching.OnlyRejecterKept | auto_care_backend/apps/bookings/services/assignment_service.py:131-136 | in that situation only the rejecter is within 10 km |
| Matching.ReassignTarget | auto_care_backend/apps/bookings/services/assignment_service.py:296-320 | the chosen provider is never the rejecter, and an alternative exists |
| Matching.ReassignRejectedBooking | auto_care_backend/apps/bookings/services/assignment_service.py:270-350 | no alternative: nothing, booking pending; no target: nothing; else a fresh assigned assignment to another provider with its estimate, booking confirmed; no booking column but the status changes |
| Scoring.Workload | auto_care_backend/apps/service_providers/utils.py:69-73 | at most the number of assignments; zero iff none of the provider's is busy |
| Scoring.WorkloadAppend | auto_care_backend/apps/service_providers/utils.py:69-73 | a new assignment adds one exactly when it is the provider's and busy |
| Scoring.EnRouteLeavesWorkload | auto_care_backend/apps/service_providers/utils.py:69-73 | moving from accepted to en route lowers the workload by one |
| Scoring.WorkloadPointUpdate | auto_care_backend/apps/service_providers/utils.py:69-73 | replacing one assignment changes the workload by the difference of their contributions |
| Scoring.Score | auto_care_backend/apps/service_providers/utils.py:65-80 | the score is in (0, 1] |
| Scoring.ScoreMonotone | auto_care_backend/apps/service_providers/utils.py:65-80 | nearer, better rated or less busy never scores lower |
| Scoring.FirstArgMax | auto_care_backend/apps/service_providers/utils.py:82-84 | none iff all absent; otherwise the first greatest |
| Scoring.Best | auto_care_backend/apps/service_providers/utils.py:27-91 | none iff a coordinate is falsy or no provider is in reach; else the first provider with the greatest score |
| Scoring.FindBestProvider | auto_care_backend/apps/service_providers/utils.py:27-91 | the loop returns the provider the best-score function picks |
| Scoring.AutoAssignProvider | auto_care_backend/apps/service_providers/utils.py:94-114 | an assigned assignment for the best provider iff there is one, stamped `now`, without an estimate |
| ProviderApi.EmployeeId | auto_care_backend/apps/service_providers/api/views.py:80 | "SP" then at least six digits that read back as the user id |
| ProviderApi.EmployeeIdInjective | auto_care_backend/apps/service_providers/api/views.py:80 | two users never share an employee id |
| ProviderApi.RegistrationErrors | auto_care_backend/apps/service_providers/api/serializers.py:38-49 | taken number, unknown specialization and negative experience, each iff its condition |
| ProviderApi.RegisterProvider | auto_care_backend/apps/service_providers/api/views.py:61-127 | errors change nothing; else a fresh provider with its employee id and the provider user appended; the OTP table becomes the old one without the number's codes plus one new code from the draw, so other numbers' codes are kept and the number has exactly that code |
| ProviderApi.ValidateAction | auto_care_backend/apps/service_providers/api/serializers.py:99-109 | accept iff "accept"; reject iff "reject" with a non-empty reason, kept; each error iff its condition |
| ProviderApi.RejectionKeepsGivenReason | auto_care_backend/apps/service_providers/api/views.py:427-428 | a validated rejection stores its own reason, never the default |
| ProviderApi.Lookup | auto_care_backend/apps/service_providers/api/views.py:384-389 | none iff no assignment with that id, owner and status |
| ProviderApi.PostAssignmentAction | auto_care_backend/apps/service_providers/api/views.py:380-460 | not found or invalid: nothing changes; accepted: stamped, rejection columns kept, booking confirmed; rejected: stamped with the stored reason, acceptance stamp kept, and the reassignment's outcome; the estimate and the start and completion stamps are kept; other assignments unchanged; no booking column but the status changes, and other assignments' bookings are unchanged |
| ProviderApi.RejectAndReassign | auto_care_backend/apps/service_providers/api/views.py:426-444 | the assignment is rejected at `now` with the stored reason and its other stamps are kept; a reassignment is a fresh assigned assignment of the same booking to another provider, with the booking confirmed; otherwise the booking is pending or keeps its status; no other booking column changes |
| ProviderApi.MarkEnRoute | auto_care_backend/apps/service_providers/api/views.py:466-500 | only the caller's accepted assignment moves, to en route, with no other column changed; every other assignment is unchanged |
| ProviderApi.CompleteServiceView | auto_care_backend/apps/service_providers/api/views.py:506-537 | only the caller's in-progress assignment completes, other stamps kept; its booking completes with every other column kept; the job count rises by one and the caller's profile is kept; other assignments and their bookings are unchanged; nothing changes when not found |
| ProviderApi.RangeError | auto_care_backend/apps/service_providers/api/views.py:575-583 | none iff both in range; latitude reported first |
| ProviderApi.CheckLocation | auto_care_backend/apps/service_providers/api/views.py:562-591 | required, format and range errors each iff their condition; otherwise the point |
| ProviderApi.ExtremesAccepted | auto_care_backend/apps/service_providers/api/views.py:575-583 | the bounds are inclusive; one millionth beyond is refused |
| ProviderApi.UpdateLocationView | auto_care_backend/apps/service_providers/api/views.py:543-620 | stored iff the checks pass; a refusal changes nothing; availability, verification, rating and the job count are always kept |
| ProviderApi.ToggleAvailability | auto_care_backend/apps/service_providers/api/views.py:634-648 | the flag negated, everything else kept |

## Left out

- Framework field parsing (required, blank, maximum lengths, decimal digits, choice coercion) is not modelled. Payloads are taken after it.
- The haversine formula is not modelled. Distances are an abstract function, so nothing here depends on the shape of the Earth.
- Floating point is not modelled. `float()` of a request value is either a number or malformed. "nan", "inf" and precision beyond a millionth of a degree are not modelled.
- `round(x, 1)` rounds half to even. `Geo.RoundTenths` only states that the result is within half a tenth.
- JWT issuing, logging, `print` and notification helpers are not modelled. They change no stored state.
- Some endpoints are not modelled:
  - the list and profile GET and PUT endpoints;
  - `booking_statistics` and `reverse_geocode`;
  - the provider's pending and available job lists;
  - Address `__str__`.
- The provider OTP verification view is not modelled. Of the provider login, only its OTP step is modelled, by `OtpAuth.OtpService.IssueProviderOtp`. Its user and profile lookups are not.
- The OTP column is `otp_code`, the field `code` here. The provider views use that name. The customer views name it `otp` (accounts/api/views.py:66 and 141), which fails; see Findings.
- `covered_by`'s `distance_from_center` is always 0, because service areas have no such method. It is not modelled.
- `Booking.save` only logs, so it is the identity and has no member.
- `start_service` has no view that calls it. It is modelled as a method only.
- Matching.FindNearestAvailableProvider: it takes an `exclude` argument. The source function has no such argument, and every source call corresponds to `None`. The corrected reassignment passes the rejecter (see Findings).
- Matching.AssignProviderToBooking: it returns the assignment it creates. The source creates the row and then refers to an undefined name (assignment_service.py:249), so its caller receives `None`. The fault itself is not reproduced.
- Matching.ReassignRejectedBooking: the one-to-one link between a booking and its assignment is not enforced. In the source, creating a second assignment for the same booking fails, and the failure is swallowed into `None` (assignment_service.py:348-351).
- Scoring.Score: it is computed over exact reals. The source divides a decimal rating by a float, which raises a type error in Python (utils.py:66). The score is modelled as evidently intended.
- The assignment's provider is typed non-null. The column is nullable (deleting a provider sets it to null), but no modelled operation produces that.
- Requests from a user without a provider profile (404) are not modelled. The caller is a provider object.
- Concurrency and transactions are not modelled: each operation runs alone.
- AccountUtils.ValidateOutcomes: a digit is one of the ASCII digits 0-9. Python's `str.isdigit()` also accepts the other Unicode digits (Arabic-Indic, Devanagari, superscripts and so on), so a number written in them is valid in the source and `NonDigit` here. Input numbers are taken to be written in ASCII.
- OtpAuth.OtpService.SendOtp: it validates the number with the same ASCII-digit rule as AccountUtils.ValidateOutcomes, so a number of other Unicode digits is refused here and accepted by the source.
- OtpAuth.OtpService.VerifyOtp: the six-digit format check uses the ASCII-digit rule. An OTP of other Unicode digits passes `isdigit()` in the source (accounts/api/views.py:102) and goes on to the comparison at line 141, while the model reports a bad format and changes nothing.
- Accounts.CreateUser: only the columns the user model holds here can be given as extras. Email, the login timestamps and the permission tables are not modelled.
- OtpAuth.OtpService.SendOtp: it models the evident intent and stores the drawn code. As written, the create at accounts/api/views.py:66 fails after the deletion and the user's creation, so no code is stored (OtpAuth.OtpService.SendOtpAsWritten, see Findings).
- OtpAuth.OtpService.Issue: its third write, the stored code, is the evident intent. As written it raises and stores nothing; the first two writes are OtpAuth.OtpService.ClearPending.
- OtpAuth.OtpService.VerifyOtp: its wrong-code and sign-in branches model the evident intent. As written, every code that passes the expiry and attempt checks fails at accounts/api/views.py:141, which changes nothing (OtpAuth.CheckOtpAsWritten, see Findings).
- OtpAuth.CheckOtp: its wrong-code and correct verdicts are the evident intent. As written they are never reached (OtpAuth.CheckOtpAsWritten).
- OtpAuth.WrongCodesCountDown: the countdown holds for the intended comparison. As written, line 141 fails before any attempt is counted.
- BookingApi.Create: it models the evident intent, one new booking per accepted payload. As written, `user` reaches `objects.create` twice (bookings/api/views.py:30 and serializers.py:181), so every accepted payload fails and no row is written (BookingApi.CreateAsWritten, see Findings).
- Scoring.Best: it is the best-score choice the loop intends. As written, scoring the first provider within 50 km raises (utils.py:66), so `find_best_provider` returns a provider on no input and raises whenever one is in reach.
- Scoring.FindBestProvider: as for Scoring.Best, the source loop raises at the first provider within 50 km instead of finishing.
- Scoring.AutoAssignProvider: it assigns the best provider, as intended. As written, the error from utils.py:66 is swallowed (utils.py:112-114), so the source returns `None` and creates nothing on every input. A booking that already has an assignment would also make the create fail on the one-to-one booking link; the model does not check that link.
- Matching.AssignProviderToBooking: a booking that already has an assignment is not refused here. In the source, the create then fails on the one-to-one booking link and the failure is swallowed into `None`.

## Findings

| source | as written | input that shows it | evidently intended | confidence | as-written member | corrected member |
|---|---|---|---|---|---|---|
| auto_care_backend/apps/bookings/services/assignment_service.py:314 | after a rejection, the nearest search runs over every provider, the rejecter included; the pool built without the rejecter at 296-301 is only used to decide whether to search | provider 7 rejects and is the only provider within 10 km of the booking; provider 8 is eligible but 20 km away; the program attempts to give the booking back to provider 7 (the create at line 326 then fails on the one-to-one booking link, see Left out) | the search leaves the rejecting provider out, as the comments on lines 295 and 312 say | not executed | Matching.ReassignTargetAsWritten, Matching.RejecterReassignedAsWritten | Matching.ReassignTarget |
| auto_care_backend/apps/bookings/api/serializers.py:181 | `create` calls `Booking.objects.create(user=user, **validated_data)`, while `save(user=request.user)` at bookings/api/views.py:30 has already put `user` into `validated_data`; Python refuses the repeated keyword argument | any payload that passes validation, such as a car on tomorrow's 10:00 slot at a served point with a service address: the request ends in a server error and no booking row exists | one new pending booking of the caller per accepted payload, as the 201 response says | not executed | BookingApi.CreateAsWritten | BookingApi.Create |
| auto_care_backend/apps/accounts/api/views.py:66 | the new code is created with `otp=otp_code`, but the OTP model's column is `otp_code` (accounts/models.py:86); the unused codes were already deleted (line 57) and the user got or created (line 60) | a valid number outside its cooldown: the number's pending codes are gone, no new code is stored, and the following verification finds no pending OTP | the drawn code is stored and is the one the next verification checks | not executed | OtpAuth.OtpService.SendOtpAsWritten, OtpAuth.NoPendingCodeAfterSendAsWritten | OtpAuth.OtpService.SendOtp, OtpAuth.SentCodeIsPending |
| auto_care_backend/apps/accounts/api/views.py:141 | the comparison reads `otp_obj.otp`, a field the OTP model does not have, so it raises once the expiry and attempt checks pass | an OTP created a minute ago with no attempts, presented with its own code: the request fails, no attempt is counted and nobody is signed in | compare with `otp_code`: a wrong code counts an attempt, the right one signs the user in | not executed | OtpAuth.CheckOtpAsWritten, OtpAuth.RightCodeFailsAsWritten | OtpAuth.CheckOtp |

=== FILE: account_bookings.dfy ===
/**
 * The plain booking serializer of the accounts API
 * (accounts/api/serializers.py): a date that is not in the past, a time
 * slot that is not blank, and the duplicate rule when a request is known.
 */
module AccountBookings {
  import opened Common
  import opened Bookings
  import BookingApi

  datatype SlotFieldError = PastDate | TimeSlotRequired

  /** The date and slot of a payload; either may be left out on a partial update. */
  datatype SlotInput = SlotInput(date: Field<int>, timeSlot: Field<string>)

  datatype SimpleBookingError = InvalidFields(errors: set<SlotFieldError>) | AlreadyBooked

  /** `validate_time_slot`: a blank slot is refused; any other is kept stripped. */
  function CleanTimeSlot(v: string): (r: Result<string, SlotFieldError>)
    ensures r.Err? <==> AllSpace(v)
    ensures r.Ok? ==> r.value == Strip(v) && r.value != "" && Strip(r.value) == r.value
  {
    StripBlank(v);
    StripIdempotent(v);
    if v == "" || Strip(v) == "" then Err(TimeSlotRequired) else Ok(Strip(v))
  }

  /** `validate_date` and `validate_time_slot` on the fields that were sent, reported together. */
  function CleanFields(d: SlotInput, today: int): (r: Result<SlotInput, set<SlotFieldError>>)
    ensures r.Err? ==>
      && (PastDate in r.error <==> d.date.Given? && d.date.value < today)
      && (TimeSlotRequired in r.error <==> d.timeSlot.Given? && AllSpace(d.timeSlot.value))
      && r.error != {}
    ensures r.Ok? <==> !(d.date.Given? && d.date.value < today) && !(d.timeSlot.Given? && AllSpace(d.timeSlot.value))
    ensures r.Ok? ==> r.value.date == d.date && (r.value.timeSlot.Given? <==> d.timeSlot.Given?)
    ensures r.Ok? && d.timeSlot.Given? ==> r.value.timeSlot.value == Strip(d.timeSlot.value) != ""
  {
    var slot := if d.timeSlot.Given? then Some(CleanTimeSlot(d.timeSlot.value)) else None;
    var errs := (if d.date.Given? && d.date.value < today then {PastDate} else {})
              + (if slot.Some? && slot.value.Err? then {TimeSlotRequired} else {});
    if errs != {} then Err(errs)
    else Ok(SlotInput(d.date, if slot.Some? then Given(slot.value.value) else Omitted))
  }

  /**
   * `BookingSerializer.is_valid` for this serializer: the field checks, then,
   * when a request is in context, the duplicate rule on the cleaned slot,
   * the booking being updated excepted.
   */
  function CheckSlot(hasRequest: bool, rows: seq<BookingRow>, user: nat, instance: Option<nat>,
                     d: SlotInput, today: int): (r: Result<SlotInput, SimpleBookingError>)
    ensures r.Err? && r.error.InvalidFields? ==> CleanFields(d, today) == Err(r.error.errors)
    ensures r.Ok? ==> CleanFields(d, today) == Ok(r.value)
    ensures r.Ok? && hasRequest && r.value.date.Given? && r.value.timeSlot.Given? ==>
      !HasDuplicate(rows, user, r.value.date.value, r.value.timeSlot.value, instance)
    ensures r == Err(AlreadyBooked) ==>
      && hasRequest && d.date.Given? && d.timeSlot.Given?
      && HasDuplicate(rows, user, d.date.value, Strip(d.timeSlot.value), instance)
  {
    match CleanFields(d, today)
    case Err(errs) => Err(InvalidFields(errs))
    case Ok(cleaned) =>
      if hasRequest && cleaned.date.Given? && cleaned.timeSlot.Given?
         && HasDuplicate(rows, user, cleaned.date.value, cleaned.timeSlot.value, instance)
      then Err(AlreadyBooked)
      else Ok(cleaned)
  }

  /** Both booking serializers apply the same duplicate rule to a cleaned date and slot. */
  lemma SameDuplicateRule(rows: seq<BookingRow>, user: nat, instance: Option<nat>, date: int, slot: string,
                          d: BookingApi.BookingInput)
    requires d.date == Given(date) && d.timeSlot == Given(slot) && slot != ""
    ensures var r := CheckSlot(true, rows, user, instance, SlotInput(Given(date), Given(slot)), date);
      Strip(slot) == slot ==> (r == Err(AlreadyBooked) <==> BookingApi.Duplicates(rows, user, instance, d))
  {
    StripBlank(slot);
    if Strip(slot) == slot {
      assert !AllSpace(slot);
    }
  }
}

=== FILE: accounts.dfy ===
/**
 * Users, one-time passwords and the account-side saved address
 * (accounts/models.py).
 */
module Accounts {
  import opened Common

  /** The `USER_TYPE_CHOICES` values; the column itself is free text. */
  const UserTypes: set<string> := {"customer", "provider", "admin"}

  datatype User = User(
    mobile: string,
    name: string,
    userType: string,
    isActive: bool,
    isVerified: bool,
    isStaff: bool,
    isSuperuser: bool,
    hasPassword: bool)

  /**
   * The keyword arguments `create_user` passes on to the model, for the
   * columns a caller can set; `None` when not given.
   */
  datatype ExtraFields = ExtraFields(
    name: Option<string>,
    userType: Option<string>,
    isActive: Option<bool>,
    isVerified: Option<bool>,
    isStaff: Option<bool>,
    isSuperuser: Option<bool>)

  const NoExtras := ExtraFields(None, None, None, None, None, None)

  datatype AccountError = MobileNumberRequired

  /**
   * `UserManager.create_user`: refuses an empty number, applies the given
   * fields over the model defaults, and sets a password only when one is given.
   */
  function CreateUser(mobile: string, password: string, extra: ExtraFields): (r: Result<User, AccountError>)
    ensures r.Err? <==> mobile == ""
    ensures r.Ok? ==> r.value.mobile == mobile
    ensures r.Ok? ==> (r.value.hasPassword <==> password != "")
    ensures r.Ok? ==> (extra.name.Some? ==> r.value.name == extra.name.value)
                      && (extra.name.None? ==> r.value.name == "")
    ensures r.Ok? ==> (extra.userType.Some? ==> r.value.userType == extra.userType.value)
                      && (extra.userType.None? ==> r.value.userType == "customer")
    ensures r.Ok? ==> (extra.isActive.Some? ==> r.value.isActive == extra.isActive.value)
                      && (extra.isActive.None? ==> r.value.isActive)
    ensures r.Ok? ==> (extra.isVerified.Some? ==> r.value.isVerified == extra.isVerified.value)
                      && (extra.isVerified.None? ==> !r.value.isVerified)
    ensures r.Ok? ==> (extra.isStaff.Some? ==> r.value.isStaff == extra.isStaff.value)
                      && (extra.isStaff.None? ==> !r.value.isStaff)
    ensures r.Ok? ==> (extra.isSuperuser.Some? ==> r.value.isSuperuser == extra.isSuperuser.value)
                      && (extra.isSuperuser.None? ==> !r.value.isSuperuser)
  {
    if mobile == "" then Err(MobileNumberRequired)
    else Ok(User(mobile, extra.name.GetOr(""), extra.userType.GetOr("customer"),
                 extra.isActive.GetOr(true), extra.isVerified.GetOr(false),
                 extra.isStaff.GetOr(false), extra.isSuperuser.GetOr(false), password != ""))
  }

  /** `create_superuser`: `setdefault` of staff, superuser and the admin type, then `create_user`. */
  function CreateSuperuser(mobile: string, password: string, extra: ExtraFields): Result<User, AccountError>
  {
    CreateUser(mobile, password, extra.(
      userType := Some(extra.userType.GetOr("admin")),
      isStaff := Some(extra.isStaff.GetOr(true)),
      isSuperuser := Some(extra.isSuperuser.GetOr(true))))
  }

  /** A row created by `User.objects.get_or_create(mobile_number=...)`: model defaults elsewhere. */
  function DefaultUser(mobile: string): User
  {
    User(mobile, "", "customer", true, false, false, false, false)
  }

  /** `create_user` without a password or extra fields makes the same row the defaults give. */
  lemma CreateUserMatchesDefaults(mobile: string)
    requires mobile != ""
    ensures CreateUser(mobile, "", NoExtras) == Ok(DefaultUser(mobile))
  {
  }

  predicate IsCustomer(u: User) { u.userType == "customer" }
  predicate IsProvider(u: User) { u.userType == "provider" }
  predicate IsAdminUser(u: User) { u.userType == "admin" }

  /** A user created without extra fields is a customer, not staff, not superuser. */
  lemma CreatedUserDefaults(mobile: string, password: string)
    requires mobile != ""
    ensures var r := CreateUser(mobile, password, NoExtras);
      r.Ok? && IsCustomer(r.value) && !r.value.isStaff && !r.value.isSuperuser
  {
  }

  /**
   * A superuser is staff, superuser and admin unless the caller says
   * otherwise; explicitly given values are kept as they are.
   */
  lemma SuperuserDefaults(mobile: string, password: string, extra: ExtraFields)
    requires mobile != ""
    ensures var r := CreateSuperuser(mobile, password, extra);
      && r.Ok?
      && r.value.isStaff == (if extra.isStaff.Some? then extra.isStaff.value else true)
      && r.value.isSuperuser == (if extra.isSuperuser.Some? then extra.isSuperuser.value else true)
      && r.value.userType == (if extra.userType.Some? then extra.userType.value else "admin")
  {
  }

  /** For a type among the choices exactly one role helper holds; otherwise none does. */
  lemma ExactlyOneRole(u: User)
    ensures u.userType in UserTypes ==>
      (if IsCustomer(u) then 1 else 0) + (if IsProvider(u) then 1 else 0) + (if IsAdminUser(u) then 1 else 0) == 1
    ensures u.userType !in UserTypes ==> !IsCustomer(u) && !IsProvider(u) && !IsAdminUser(u)
  {
  }

  /** Seconds an OTP stays valid by its `expires_at` stamp. */
  const OtpExpirySeconds: int := 600

  /** An `OTP` row. Times are seconds on one clock. */
  datatype Otp = Otp(
    id: nat,
    mobile: string,
    code: string,
    isVerified: bool,
    attempts: int,
    createdAt: int,
    expiresAt: Option<int>)

  /**
   * `OTP.save`: on the first save the creation time is stamped and a missing
   * expiry is set ten minutes ahead; a later save changes neither.
   */
  function SaveOtp(o: Otp, isNew: bool, now: int): (r: Otp)
    ensures r.id == o.id && r.mobile == o.mobile && r.code == o.code
    ensures r.isVerified == o.isVerified && r.attempts == o.attempts
    ensures !isNew ==> r == o
    ensures o.expiresAt.Some? ==> r.expiresAt == o.expiresAt
  {
    if !isNew then o
    else o.(createdAt := now, expiresAt := if o.expiresAt.None? then Some(now + OtpExpirySeconds) else o.expiresAt)
  }

  /** `OTP.is_valid`: not yet used and strictly before its expiry; no expiry means invalid. */
  predicate IsValid(o: Otp, now: int)
  {
    !o.isVerified && o.expiresAt.Some? && now < o.expiresAt.value
  }

  /** A newly saved, unused OTP is valid for exactly the ten minutes after its creation. */
  lemma FreshOtpValidity(o: Otp, now: int, t: int)
    requires !o.isVerified && o.expiresAt.None?
    ensures IsValid(SaveOtp(o, true, now), t) <==> t < now + OtpExpirySeconds
  {
  }

  /** A used OTP is never valid again. */
  lemma VerifiedOtpInvalid(o: Otp, now: int)
    requires o.isVerified
    ensures !IsValid(o, now)
  {
  }

  /** The account-side `Address` model; line 2 and landmark are nullable. */
  datatype AccountAddress = AccountAddress(
    id: nat,
    user: nat,
    addressType: string,
    line1: string,
    line2: Option<string>,
    landmark: Option<string>,
    city: string,
    state: string,
    pincode: string,
    isDefault: bool)

  function AddressParts(a: AccountAddress): seq<string>
  {
    [a.line1, a.line2.GetOr(""), a.landmark.GetOr(""), a.city, a.state, a.pincode]
  }

  /** `get_full_address`: the non-empty parts joined by ", ", empty only when every part is. */
  function FullAddress(a: AccountAddress): (r: string)
    ensures r == "" <==> a.line1 == "" && a.line2.GetOr("") == "" && a.landmark.GetOr("") == ""
                         && a.city == "" && a.state == "" && a.pincode == ""
  {
    JoinNonEmptyBlank(AddressParts(a), ", ");
    var parts := AddressParts(a);
    assert parts[0] == a.line1 && parts[1] == a.line2.GetOr("") && parts[2] == a.landmark.GetOr("");
    assert parts[3] == a.city && parts[4] == a.state && parts[5] == a.pincode;
    JoinNonEmpty(parts, ", ")
  }

  function AccountAddressId(a: AccountAddress): nat { a.id }

  /**
   * The `is_default=False` bulk update on one user's default rows: none of
   * the user's rows is left a default, other users' rows are untouched, and
   * nothing but the flag changes.
   */
  function ClearAccountDefaults(rows: seq<AccountAddress>, user: nat): (r: seq<AccountAddress>)
    ensures |r| == |rows|
    ensures forall i | 0 <= i < |r| && r[i].user == user :: !r[i].isDefault
    ensures forall i | 0 <= i < |r| && rows[i].user != user :: r[i] == rows[i]
    ensures forall i | 0 <= i < |r| :: r[i] == rows[i].(isDefault := r[i].isDefault)
  {
    seq(|rows|, i requires 0 <= i < |rows| =>
      if rows[i].user == user then rows[i].(isDefault := false) else rows[i])
  }

  /** `Address.save`: a default address first clears its owner's other defaults. */
  function SaveAccountAddress(rows: seq<AccountAddress>, a: AccountAddress): seq<AccountAddress>
  {
    Upsert(if a.isDefault then ClearAccountDefaults(rows, a.user) else rows, a, AccountAddressId)
  }

  /** After saving a default address it is its owner's only default; other users keep theirs. */
  lemma SavedDefaultIsOnlyDefault(rows: seq<AccountAddress>, a: AccountAddress)
    requires UniqueIds(rows, AccountAddressId)
    requires a.isDefault
    ensures var r := SaveAccountAddress(rows, a);
      && a in r
      && (forall b | b in r && b.user == a.user && b.isDefault :: b == a)
      && (forall b | b in rows && b.user != a.user && b.id != a.id :: b in r)
  {
    var cleared := ClearAccountDefaults(rows, a.user);
    assert UniqueIds(cleared, AccountAddressId) by {
      forall i, j | 0 <= i < j < |cleared| ensures cleared[i].id != cleared[j].id {
        assert cleared[i].id == rows[i].id && cleared[j].id == rows[j].id;
      }
    }
    forall b | b in rows && b.user != a.user && b.id != a.id ensures b in cleared {
      var i :| 0 <= i < |rows| && rows[i] == b;
      assert cleared[i] == b;
    }
    forall b | b in cleared && b.user == a.user ensures !b.isDefault {
      var i :| 0 <= i < |cleared| && cleared[i] == b;
    }
  }
}

=== FILE: accounts_utils.dfy ===
/**
 * Mobile-number handling and OTP generation (accounts/utils.py).
 */
module AccountUtils {
  import opened Common

  /** The characters `normalize_mobile_number` deletes wherever they occur. */
  predicate IsSeparator(c: char)
  {
    c == ' ' || c == '-' || c == '(' || c == ')'
  }

  predicate NoSeparator(s: string)
  {
    forall i | 0 <= i < |s| :: !IsSeparator(s[i])
  }

  /** The four chained `replace(c, "")` calls. */
  function RemoveSeparators(s: string): (r: string)
    ensures NoSeparator(r)
    ensures |r| <= |s|
    ensures NoSeparator(s) ==> r == s
  {
    if |s| == 0 then ""
    else (if IsSeparator(s[0]) then "" else [s[0]]) + RemoveSeparators(s[1..])
  }

  /** Separator removal works character by character: it distributes over concatenation. */
  lemma {:induction false} RemoveSeparatorsAppend(a: string, b: string)
    ensures RemoveSeparators(a + b) == RemoveSeparators(a) + RemoveSeparators(b)
  {
    if |a| > 0 {
      assert (a + b)[0] == a[0];
      assert (a + b)[1..] == a[1..] + b;
      RemoveSeparatorsAppend(a[1..], b);
      var h := if IsSeparator(a[0]) then "" else [a[0]];
      ConcatAssoc(h, RemoveSeparators(a[1..]), RemoveSeparators(b));
    } else {
      assert a + b == b;
    }
  }

  /** A single character is deleted exactly when it is a separator, and kept otherwise. */
  lemma RemoveSeparatorsChar(c: char)
    ensures RemoveSeparators([c]) == (if IsSeparator(c) then "" else [c])
  {
    assert [c][1..] == "";
  }

  /** One separator between two clean pieces is deleted and both pieces are kept, in order. */
  lemma RemoveSeparatorsBetween(a: string, sep: char, b: string)
    requires NoSeparator(a) && NoSeparator(b) && IsSeparator(sep)
    ensures RemoveSeparators(a + [sep] + b) == a + b
  {
    RemoveSeparatorsAppend(a + [sep], b);
    RemoveSeparatorsAppend(a, [sep]);
    RemoveSeparatorsChar(sep);
  }

  /**
   * `normalize_mobile_number`: strip, drop separators, then drop at most one
   * prefix: "+91", else "91" when 12 characters long, else a leading "0".
   */
  function Normalize(raw: string): (r: string)
    ensures NoSeparator(r)
  {
    if raw == "" then "" else DropPrefix(RemoveSeparators(Strip(raw)))
  }

  function DropPrefix(m: string): (r: string)
    ensures NoSeparator(m) ==> NoSeparator(r)
  {
    if StartsWith(m, "+91") then m[3..]
    else if StartsWith(m, "91") && |m| == 12 then m[2..]
    else if StartsWith(m, "0") then m[1..]
    else m
  }

  /** Clean, non-empty text goes straight to the prefix rule. */
  lemma NormalizeClean(s: string)
    requires s != "" && NoSpace(s) && NoSeparator(s)
    ensures Normalize(s) == DropPrefix(s)
  {
    CleanTextUnchanged(s);
  }

  lemma DigitsAreClean(s: string)
    requires AllDigits(s)
    ensures NoSpace(s) && NoSeparator(s)
  {
    forall i | 0 <= i < |s| ensures !IsSpace(s[i]) {
      assert IsDigit(s[i]);
    }
  }

  lemma CleanTextUnchanged(s: string)
    requires NoSpace(s) && NoSeparator(s)
    ensures RemoveSeparators(Strip(s)) == s
  {
    StripNoSpace(s);
  }

  /**
   * A space, hyphen or parenthesis between two clean pieces of a number makes
   * no difference: "98765 43210" normalises as "9876543210" does, and
   * "+91 98765-43210" as "+919876543210".
   */
  lemma NormalizeSeparated(a: string, sep: char, b: string)
    requires |a| > 0 && |b| > 0 && NoSpace(a) && NoSpace(b) && NoSeparator(a) && NoSeparator(b)
    requires IsSeparator(sep)
    ensures Normalize(a + [sep] + b) == Normalize(a + b)
  {
    var t := a + [sep] + b;
    assert t[0] == a[0] && t[|t| - 1] == b[|b| - 1];
    StripTrimmed(t);
    RemoveSeparatorsBetween(a, sep, b);
    var u := a + b;
    assert NoSpace(u) && NoSeparator(u) by {
      forall i | 0 <= i < |u| ensures !IsSpace(u[i]) && !IsSeparator(u[i]) {
        if i < |a| { assert u[i] == a[i]; } else { assert u[i] == b[i - |a|]; }
      }
    }
    NormalizeClean(u);
  }

  /** "+91 " followed by the digits normalises to the digits. */
  lemma NormalizeDropsSpacedPlus91(d: string)
    requires IsDigitString(d)
    ensures Normalize("+91 " + d) == d
  {
    DigitsAreClean(d);
    assert "+91 " + d == "+91" + [' '] + d;
    NormalizeSeparated("+91", ' ', d);
    NormalizeDropsPlus91(d);
  }

  /** A plain ten-digit number that does not start with 0 is already normal. */
  lemma NormalizeKeepsTenDigits(s: string)
    requires IsDigitString(s) && |s| == 10 && s[0] != '0'
    ensures Normalize(s) == s
  {
    DigitsAreClean(s);
    NormalizeClean(s);
    assert s[..1] != "0";
    assert s[..3] != "+91";
  }

  lemma PrefixedDigits(p: string, d: string)
    requires AllDigits(p) && AllDigits(d)
    ensures AllDigits(p + d)
  {
  }

  lemma PlusPrefixedClean(d: string)
    requires AllDigits(d)
    ensures NoSpace("+91" + d) && NoSeparator("+91" + d)
  {
    DigitsAreClean(d);
    var t := "+91" + d;
    forall i | 3 <= i < |t| ensures t[i] == d[i - 3] { }
  }

  /** The international prefix "+91" is removed. */
  lemma NormalizeDropsPlus91(d: string)
    requires AllDigits(d)
    ensures Normalize("+91" + d) == d
  {
    var t := "+91" + d;
    PlusPrefixedClean(d);
    NormalizeClean(t);
    assert t[..3] == "+91";
    assert t[3..] == d;
  }

  /** A bare country code "91" is removed from a twelve-digit number. */
  lemma NormalizeDrops91(d: string)
    requires AllDigits(d) && |d| == 10
    ensures Normalize("91" + d) == d
  {
    var t := "91" + d;
    PrefixedDigits("91", d);
    DigitsAreClean(t);
    NormalizeClean(t);
    assert t[..3] != "+91";
    assert t[..2] == "91";
    assert t[2..] == d;
  }

  /** A trunk prefix "0" is removed, as long as no earlier rule applies. */
  lemma NormalizeDropsTrunkZero(d: string)
    requires AllDigits(d)
    ensures Normalize("0" + d) == d
  {
    var t := "0" + d;
    PrefixedDigits("0", d);
    DigitsAreClean(t);
    NormalizeClean(t);
    DropLeadingZero(t);
    assert t[1..] == d;
  }

  /** Text starting with "0" matches neither country-code rule, only the trunk rule. */
  lemma DropLeadingZero(t: string)
    requires |t| > 0 && t[0] == '0'
    ensures DropPrefix(t) == t[1..]
  {
    assert !StartsWith(t, "+91") by { if |t| >= 3 { assert t[..3][0] == '0'; } }
    assert !StartsWith(t, "91") by { if |t| >= 2 { assert t[..2][0] == '0'; } }
    assert t[..1] == "0";
  }

  datatype MobileError = Required | NonDigit | TooShort | TooLong

  /** The checks `validate_mobile_number` applies, in order, to an already normalised number. */
  function CheckNormalized(n: string): Option<MobileError>
  {
    if n == "" then Some(Required)
    else if !IsDigitString(n) then Some(NonDigit)
    else if |n| < 10 then Some(TooShort)
    else if |n| > 10 then Some(TooLong)
    else None
  }

  /** `validate_mobile_number`: normalises its argument, then checks it; `None` means valid. */
  function Validate(raw: string): Option<MobileError>
  {
    CheckNormalized(Normalize(raw))
  }

  /** Each outcome of the validation, stated independently of the order of the checks. */
  lemma ValidateOutcomes(raw: string)
    ensures var n := Normalize(raw);
      && (Validate(raw) == None <==> IsDigitString(n) && |n| == 10)
      && (Validate(raw) == Some(Required) <==> n == "")
      && (Validate(raw) == Some(NonDigit) <==> n != "" && !AllDigits(n))
      && (Validate(raw) == Some(TooShort) <==> IsDigitString(n) && |n| < 10)
      && (Validate(raw) == Some(TooLong) <==> IsDigitString(n) && |n| > 10)
  {
  }

  /**
   * Validation judges the twice-normalised number: "+91", a trunk "0" and ten
   * digits normalise to eleven digits, which are nevertheless accepted because
   * validating them strips the "0" again.
   */
  lemma ValidateRenormalizes(d: string)
    requires IsDigitString(d) && |d| == 10
    ensures Normalize("+91" + "0" + d) == "0" + d
    ensures |Normalize("+91" + "0" + d)| == 11
    ensures Validate(Normalize("+91" + "0" + d)) == None
  {
    PlusTrunkZero(d);
    NormalizeDropsTrunkZero(d);
    assert Validate("0" + d) == CheckNormalized(d);
  }

  /** "+91" before a trunk "0" and digits is dropped, the "0" is kept. */
  lemma PlusTrunkZero(d: string)
    requires AllDigits(d)
    ensures Normalize("+91" + "0" + d) == "0" + d
  {
    var z := "0" + d;
    PrefixedDigits("0", d);
    NormalizeDropsPlus91(z);
    assert "+91" + "0" + d == "+91" + z;
  }

  /** `generate_otp`: six draws of `secrets.randbelow(10)`, written as digits. */
  function GenerateOtp(draws: seq<int>): (code: string)
    requires |draws| == 6 && forall i | 0 <= i < 6 :: 0 <= draws[i] < 10
    ensures |code| == 6 && IsDigitString(code)
    ensures forall i | 0 <= i < 6 :: DigitValue(code[i]) == draws[i]
  {
    seq(6, i requires 0 <= i < 6 => DigitChar(draws[i]))
  }
}

=== FILE: addresses.dfy ===
/**
 * Saved addresses: the `Address` model (locations/models.py), the address
 * endpoints (locations/api/views.py, `AddressSerializer.validate` in
 * locations/api/serializers.py, and `SetDefaultAddressView` in
 * accounts/api/views.py), and the address columns of the admin
 * (locations/admin.py). The address table is a field of `AddressBook`.
 */
module Addresses {
  import opened Common
  import opened Geo
  import Sorting

  datatype Address = Address(
    id: nat,
    user: nat,
    addressType: string,
    line1: string,
    line2: string,
    landmark: string,
    city: string,
    state: string,
    pincode: string,
    addressLine: string,
    lat: Option<int>,
    lng: Option<int>,
    isDefault: bool,
    createdAt: int)

  function AddressId(a: Address): nat { a.id }

  /** The parts `address_line` is built from, in their fixed order. */
  function AddressParts(a: Address): seq<string>
  {
    [a.line1, a.line2, a.landmark, a.city, a.state, a.pincode]
  }

  predicate AllPartsEmpty(a: Address)
  {
    a.line1 == "" && a.line2 == "" && a.landmark == "" && a.city == "" && a.state == "" && a.pincode == ""
  }

  /**
   * The first step of `Address.save`: an empty `address_line` becomes the
   * ", "-join of the non-empty parts; a non-empty one is kept as it is.
   */
  function WithAddressLine(a: Address): (r: Address)
    ensures r.(addressLine := a.addressLine) == a
    ensures a.addressLine != "" ==> r == a
    ensures a.addressLine == "" ==> r.addressLine == JoinNonEmpty(AddressParts(a), ", ")
    ensures r.addressLine == "" <==> a.addressLine == "" && AllPartsEmpty(a)
  {
    if a.addressLine != "" then a
    else
      var parts := AddressParts(a);
      JoinNonEmptyBlank(parts, ", ");
      assert parts[0] == a.line1 && parts[1] == a.line2 && parts[2] == a.landmark;
      assert parts[3] == a.city && parts[4] == a.state && parts[5] == a.pincode;
      a.(addressLine := JoinNonEmpty(parts, ", "))
  }

  /** Saving twice generates nothing new. */
  lemma AddressLineIdempotent(a: Address)
    ensures WithAddressLine(WithAddressLine(a)) == WithAddressLine(a)
  {
  }

  /** Once generated, the line is not refreshed when a part changes later. */
  lemma AddressLineNotRefreshed(a: Address, newLine1: string, newCity: string)
    requires a.addressLine != ""
    ensures WithAddressLine(a.(line1 := newLine1, city := newCity)).addressLine == a.addressLine
  {
  }

  /** With only the first line filled in, the generated line is exactly that line. */
  lemma AddressLineSinglePart(a: Address)
    requires a.addressLine == "" && a.line1 != ""
    requires a.line2 == "" && a.landmark == "" && a.city == "" && a.state == "" && a.pincode == ""
    ensures WithAddressLine(a).addressLine == a.line1
  {
    JoinNonEmptySingle(AddressParts(a), ", ", 0);
  }

  /**
   * `Address.objects.filter(user=u, is_default=True).update(is_default=False)`:
   * none of the user's rows is left a default, other users' rows are
   * untouched, and nothing but the flag changes.
   */
  function ClearDefaults(rows: seq<Address>, user: nat): (r: seq<Address>)
    ensures |r| == |rows|
    ensures forall i | 0 <= i < |r| && r[i].user == user :: !r[i].isDefault
    ensures forall i | 0 <= i < |r| && rows[i].user != user :: r[i] == rows[i]
    ensures forall i | 0 <= i < |r| :: r[i] == rows[i].(isDefault := r[i].isDefault)
  {
    seq(|rows|, i requires 0 <= i < |rows| =>
      if rows[i].user == user && rows[i].isDefault then rows[i].(isDefault := false) else rows[i])
  }

  /** Each user has at most one default address. */
  predicate OneDefaultPerUser(rows: seq<Address>)
  {
    forall a, b | a in rows && b in rows && a.isDefault && b.isDefault && a.user == b.user :: a == b
  }

  /** `Address.save`: generate the line, clear the owner's defaults if this one is default, write the row. */
  function SaveRow(rows: seq<Address>, a: Address): seq<Address>
  {
    var b := WithAddressLine(a);
    Upsert(if b.isDefault then ClearDefaults(rows, b.user) else rows, b, AddressId)
  }

  lemma ClearedRows(rows: seq<Address>, user: nat)
    ensures forall b | b in ClearDefaults(rows, user) && b.user == user :: !b.isDefault
    ensures forall b | b in ClearDefaults(rows, user) && b.user != user :: b in rows
    ensures forall b | b in rows && b.user != user :: b in ClearDefaults(rows, user)
    ensures forall b | b in rows && b.user == user :: b.(isDefault := false) in ClearDefaults(rows, user)
    ensures UniqueIds(rows, AddressId) ==> UniqueIds(ClearDefaults(rows, user), AddressId)
  {
    var c := ClearDefaults(rows, user);
    forall b | b in rows ensures (if b.user == user then b.(isDefault := false) else b) in c {
      var i :| 0 <= i < |rows| && rows[i] == b;
      assert c[i] == (if b.user == user then b.(isDefault := false) else b);
    }
    forall b | b in c ensures (b.user == user ==> !b.isDefault) && (b.user != user ==> b in rows) {
      var i :| 0 <= i < |c| && c[i] == b;
    }
    assert forall i | 0 <= i < |c| :: c[i].id == rows[i].id;
  }

  /**
   * Saving keeps ids distinct and at most one default per user; the saved
   * row is present, it is its owner's only default when it is a default, no
   * stale copy of it remains, and every other row survives, losing only its
   * default flag when it belongs to the owner of a saved default.
   */
  /** Saving a row whose key is below `n` keeps every key below `n`. */
  lemma SaveRowIdsBelow(rows: seq<Address>, a: Address, n: nat)
    requires UniqueIds(rows, AddressId)
    requires forall b | b in rows :: b.id < n
    requires a.id < n
    ensures forall b | b in SaveRow(rows, a) :: b.id < n
  {
    var w := WithAddressLine(a);
    var base := if w.isDefault then ClearDefaults(rows, w.user) else rows;
    ClearedRows(rows, w.user);
    forall b | b in base ensures b.id < n {
      var i :| 0 <= i < |base| && base[i] == b;
      assert rows[i] in rows;
    }
  }

  lemma SaveRowInvariant(rows: seq<Address>, a: Address)
    requires UniqueIds(rows, AddressId) && OneDefaultPerUser(rows)
    ensures var r := SaveRow(rows, a);
      && UniqueIds(r, AddressId)
      && OneDefaultPerUser(r)
      && WithAddressLine(a) in r
      && (forall b | b in r :: b == WithAddressLine(a) || b.id != a.id)
      && (a.isDefault ==> forall b | b in r && b.user == a.user && b.isDefault :: b == WithAddressLine(a))
      && (forall b | b in rows && b.id != a.id ::
            (if a.isDefault && b.user == a.user then b.(isDefault := false) else b) in r)
  {
    var w := WithAddressLine(a);
    var base := if w.isDefault then ClearDefaults(rows, w.user) else rows;
    ClearedRows(rows, w.user);
    var r := Upsert(base, w, AddressId);
    forall x, y | x in r && y in r && x.isDefault && y.isDefault && x.user == y.user
      ensures x == y
    {
      if x != w && y != w {
        assert x in base && y in base;
        if w.isDefault {
          assert x.user != w.user;
          assert x in rows && y in rows;
        }
      } else if w.isDefault {
        assert x.user == w.user;
      } else {
        assert false;
      }
    }
  }

  /** The stored row with id `pk` owned by `user`, as `get(pk=pk, user=user)` finds it. */
  function Find(rows: seq<Address>, user: nat, pk: nat): (k: Option<nat>)
    ensures k.None? <==> forall i | 0 <= i < |rows| :: !(rows[i].id == pk && rows[i].user == user)
    ensures k.Some? ==> k.value < |rows| && rows[k.value].id == pk && rows[k.value].user == user
  {
    if |rows| == 0 then None
    else if rows[0].id == pk && rows[0].user == user then Some(0)
    else
      var k := Find(rows[1..], user, pk);
      if k.None? then None else Some(k.value + 1)
  }

  /** The rows `Address.objects.filter(user=u)` selects. */
  function OwnedBy(rows: seq<Address>, user: nat): (r: seq<Address>)
    ensures forall b :: b in r <==> b in rows && b.user == user
  {
    if |rows| == 0 then []
    else
      assert forall b | b in rows[1..] :: b in rows;
      assert forall b | b in rows :: b == rows[0] || b in rows[1..];
      (if rows[0].user == user then [rows[0]] else []) + OwnedBy(rows[1..], user)
  }

  /** The ordering `("-is_default", "-created_at")` as an ascending two-part key. */
  function ListingKey(a: Address): Sorting.Key
  {
    (if a.isDefault then 0.0 else 1.0, -(a.createdAt as real))
  }

  /** `get_queryset` of the list view: the caller's addresses, defaults first, then newest first. */
  function ListFor(rows: seq<Address>, user: nat): (r: seq<Address>)
    ensures multiset(r) == multiset(OwnedBy(rows, user))
    ensures forall b :: b in r <==> b in rows && b.user == user
    ensures forall i, j | 0 <= i < j < |r| :: r[j].isDefault ==> r[i].isDefault
    ensures forall i, j | 0 <= i < j < |r| && r[i].isDefault == r[j].isDefault :: r[i].createdAt >= r[j].createdAt
  {
    var owned := OwnedBy(rows, user);
    var r := Sorting.SortBy(owned, ListingKey);
    forall b ensures b in r <==> b in owned {
      assert b in r <==> b in multiset(r);
      assert b in owned <==> b in multiset(owned);
    }
    assert forall i, j | 0 <= i < j < |r| :: !Sorting.Below(ListingKey(r[j]), ListingKey(r[i]));
    r
  }

  datatype AddressError = CoordinatesIncomplete | AreaCheckFailed | NotFound

  /**
   * `AddressSerializer.validate`: latitude and longitude are given together
   * or not at all; given ones must be served by an active area whenever any
   * area is active. The outside-area error is raised inside the `try` and
   * comes out re-wrapped as a failed check.
   */
  function CheckCoordinates(dist: DistanceFn, areas: seq<ServiceArea>, lat: Option<int>, lng: Option<int>)
    : (e: Option<AddressError>)
    ensures e == Some(CoordinatesIncomplete) <==> lat.None? != lng.None?
    ensures e == Some(AreaCheckFailed) <==>
      lat.Some? && lng.Some? && ActiveAreas(areas) != [] && CoveringAreas(dist, areas, Point(lat.value, lng.value)) == []
    ensures e == None <==>
      (lat.None? && lng.None?) || (lat.Some? && lng.Some? && Served(dist, areas, Point(lat.value, lng.value)))
  {
    if lat.None? != lng.None? then Some(CoordinatesIncomplete)
    else if lat.Some? && !Served(dist, areas, Point(lat.value, lng.value)) then Some(AreaCheckFailed)
    else None
  }

  /** With no active area, any complete pair of coordinates passes. */
  lemma NoActiveAreaAcceptsAll(dist: DistanceFn, areas: seq<ServiceArea>, lat: int, lng: int)
    requires forall i | 0 <= i < |areas| :: !areas[i].active
    ensures CheckCoordinates(dist, areas, Some(lat), Some(lng)) == None
  {
  }

  /** The writable fields of a create or update payload. */
  datatype AddressInput = AddressInput(
    addressType: Field<string>,
    line1: Field<string>,
    line2: Field<string>,
    landmark: Field<string>,
    city: Field<string>,
    state: Field<string>,
    pincode: Field<string>,
    lat: Field<Option<int>>,
    lng: Field<Option<int>>,
    isDefault: Field<bool>)

  /** A new row before the payload is applied: the model's defaults. */
  function BlankAddress(id: nat, user: nat, now: int): Address
  {
    Address(id, user, "home", "", "", "", "", "", "", "", Some(0), Some(0), false, now)
  }

  /**
   * The payload written over a row: every sent field is written, every
   * omitted one keeps its value, and the key, owner, address line and
   * creation time are never written.
   */
  function Apply(a: Address, input: AddressInput): (r: Address)
    ensures r.id == a.id && r.user == a.user && r.addressLine == a.addressLine && r.createdAt == a.createdAt
    ensures input.addressType.Given? ==> r.addressType == input.addressType.value
    ensures input.addressType.Omitted? ==> r.addressType == a.addressType
    ensures input.line1.Given? ==> r.line1 == input.line1.value
    ensures input.line1.Omitted? ==> r.line1 == a.line1
    ensures input.line2.Given? ==> r.line2 == input.line2.value
    ensures input.line2.Omitted? ==> r.line2 == a.line2
    ensures input.landmark.Given? ==> r.landmark == input.landmark.value
    ensures input.landmark.Omitted? ==> r.landmark == a.landmark
    ensures input.city.Given? ==> r.city == input.city.value
    ensures input.city.Omitted? ==> r.city == a.city
    ensures input.state.Given? ==> r.state == input.state.value
    ensures input.state.Omitted? ==> r.state == a.state
    ensures input.pincode.Given? ==> r.pincode == input.pincode.value
    ensures input.pincode.Omitted? ==> r.pincode == a.pincode
    ensures input.lat.Given? ==> r.lat == input.lat.value
    ensures input.lat.Omitted? ==> r.lat == a.lat
    ensures input.lng.Given? ==> r.lng == input.lng.value
    ensures input.lng.Omitted? ==> r.lng == a.lng
    ensures input.isDefault.Given? ==> r.isDefault == input.isDefault.value
    ensures input.isDefault.Omitted? ==> r.isDefault == a.isDefault
  {
    a.(addressType := input.addressType.Or(a.addressType),
       line1 := input.line1.Or(a.line1),
       line2 := input.line2.Or(a.line2),
       landmark := input.landmark.Or(a.landmark),
       city := input.city.Or(a.city),
       state := input.state.Or(a.state),
       pincode := input.pincode.Or(a.pincode),
       lat := input.lat.Or(a.lat),
       lng := input.lng.Or(a.lng),
       isDefault := input.isDefault.Or(a.isDefault))
  }

  /** An empty payload changes nothing. */
  lemma ApplyNothing(a: Address)
    ensures Apply(a, AddressInput(Omitted, Omitted, Omitted, Omitted, Omitted, Omitted, Omitted, Omitted, Omitted, Omitted)) == a
  {
  }

  /** Sending the same payload twice writes nothing new the second time. */
  lemma ApplyIdempotent(a: Address, input: AddressInput)
    ensures Apply(Apply(a, input), input) == Apply(a, input)
  {
  }

  /** What `data.get(...)` sees of the coordinates: an omitted field reads as null. */
  function InputCoordinates(input: AddressInput): (Option<int>, Option<int>)
  {
    (input.lat.Or(None), input.lng.Or(None))
  }

  /**
   * An address created without coordinates passes validation and is stored
   * at (0, 0), the column default, which no service area is asked about.
   */
  lemma OmittedCoordinatesStoredAsZero(dist: DistanceFn, areas: seq<ServiceArea>, input: AddressInput, id: nat, user: nat, now: int)
    requires input.lat.Omitted? && input.lng.Omitted?
    ensures var c := InputCoordinates(input); CheckCoordinates(dist, areas, c.0, c.1) == None
    ensures var r := Apply(BlankAddress(id, user, now), input); r.lat == Some(0) && r.lng == Some(0)
  {
  }

  class AddressBook {
    var rows: seq<Address>
    var nextId: nat

    ghost predicate Valid()
      reads this
    {
      UniqueIds(rows, AddressId) && OneDefaultPerUser(rows) && forall a | a in rows :: a.id < nextId
    }

    constructor ()
      ensures Valid() && rows == []
    {
      rows := [];
      nextId := 0;
    }

    /** `Address.save` on the table. */
    method Save(a: Address)
      requires Valid() && a.id < nextId
      modifies this
      ensures Valid()
      ensures rows == SaveRow(old(rows), a) && nextId == old(nextId)
    {
      SaveRowInvariant(rows, a);
      SaveRowIdsBelow(rows, a, nextId);
      rows := SaveRow(rows, a);
    }

    /** The bulk update that clears one user's defaults before a save. */
    method ClearUserDefaults(user: nat)
      requires Valid()
      modifies this
      ensures Valid()
      ensures rows == ClearDefaults(old(rows), user) && nextId == old(nextId)
    {
      ClearedRows(rows, user);
      var c := ClearDefaults(rows, user);
      forall b | b in c ensures b.id < nextId {
        var i :| 0 <= i < |c| && c[i] == b;
        assert rows[i] in rows;
      }
      forall x, y | x in c && y in c && x.isDefault && y.isDefault && x.user == y.user ensures x == y {
        assert x in rows && y in rows;
      }
      rows := c;
    }

    /**
     * `AddressListCreateView`: validate, clear the caller's defaults when
     * the payload asks for a default, then save a new row for the caller.
     */
    method Create(dist: DistanceFn, areas: seq<ServiceArea>, user: nat, input: AddressInput, now: int)
      returns (r: Result<Address, AddressError>)
      requires Valid()
      modifies this
      ensures Valid()
      ensures var c := InputCoordinates(input);
        r.Err? <==> CheckCoordinates(dist, areas, c.0, c.1).Some?
      ensures r.Err? ==> r.error == CheckCoordinates(dist, areas, InputCoordinates(input).0, InputCoordinates(input).1).value
      ensures r.Err? ==> rows == old(rows) && nextId == old(nextId)
      ensures r.Ok? ==> r.value == WithAddressLine(Apply(BlankAddress(old(nextId), user, now), input))
      ensures r.Ok? ==> rows == SaveRow(if input.isDefault.Or(false) then ClearDefaults(old(rows), user) else old(rows),
                                        Apply(BlankAddress(old(nextId), user, now), input))
      ensures r.Ok? ==> nextId == old(nextId) + 1
    {
      var c := InputCoordinates(input);
      var e := CheckCoordinates(dist, areas, c.0, c.1);
      if e.Some? {
        return Err(e.value);
      }
      if input.isDefault.Or(false) {
        ClearUserDefaults(user);
      }
      var a := Apply(BlankAddress(nextId, user, now), input);
      nextId := nextId + 1;
      Save(a);
      r := Ok(WithAddressLine(a));
    }

    /**
     * `AddressRetrieveUpdateDeleteView` update: only the caller's own row is
     * reachable; validate, clear defaults when the payload sets one, then
     * write the payload over the row as it was loaded.
     */
    method Update(dist: DistanceFn, areas: seq<ServiceArea>, user: nat, pk: nat, input: AddressInput)
      returns (r: Result<Address, AddressError>)
      requires Valid()
      modifies this
      ensures Valid() && nextId == old(nextId)
      ensures Find(old(rows), user, pk).None? ==> r == Err(NotFound) && rows == old(rows)
      ensures var c := InputCoordinates(input);
        Find(old(rows), user, pk).Some? && CheckCoordinates(dist, areas, c.0, c.1).Some? ==>
          r == Err(CheckCoordinates(dist, areas, c.0, c.1).value) && rows == old(rows)
      ensures var c, k := InputCoordinates(input), Find(old(rows), user, pk);
        k.Some? && CheckCoordinates(dist, areas, c.0, c.1).None? ==>
          && r == Ok(WithAddressLine(Apply(old(rows)[k.value], input)))
          && rows == SaveRow(if input.isDefault.Or(false) then ClearDefaults(old(rows), user) else old(rows),
                             Apply(old(rows)[k.value], input))
    {
      var k := Find(rows, user, pk);
      if k.None? {
        return Err(NotFound);
      }
      var stored := rows[k.value];
      assert stored in rows;
      var c := InputCoordinates(input);
      var e := CheckCoordinates(dist, areas, c.0, c.1);
      if e.Some? {
        return Err(e.value);
      }
      if input.isDefault.Or(false) {
        ClearUserDefaults(user);
      }
      var a := Apply(stored, input);
      Save(a);
      r := Ok(WithAddressLine(a));
    }

    /** The delete endpoint: removes the caller's row, or reports it missing. */
    method Destroy(user: nat, pk: nat) returns (found: bool)
      requires Valid()
      modifies this
      ensures Valid() && nextId == old(nextId)
      ensures found <==> Find(old(rows), user, pk).Some?
      ensures !found ==> rows == old(rows)
      ensures found ==> rows == RemoveAt(old(rows), Find(old(rows), user, pk).value)
    {
      var k := Find(rows, user, pk);
      if k.None? {
        return false;
      }
      RemoveAtUnique(rows, k.value, AddressId);
      rows := RemoveAt(rows, k.value);
      found := true;
    }

    /**
     * `SetDefaultAddressView.post`: clear every default of the caller, then
     * save the chosen row as default; afterwards it is the caller's only
     * default and every other user's rows are as they were.
     */
    method SetDefault(user: nat, pk: nat) returns (r: Result<Address, AddressError>)
      requires Valid()
      modifies this
      ensures Valid() && nextId == old(nextId)
      ensures Find(old(rows), user, pk).None? ==> r == Err(NotFound) && rows == old(rows)
      ensures Find(old(rows), user, pk).Some? ==>
        var chosen := old(rows)[Find(old(rows), user, pk).value];
        && r == Ok(WithAddressLine(chosen.(isDefault := true)))
        && rows == SaveRow(ClearDefaults(old(rows), user), chosen.(isDefault := true))
      ensures r.Ok? ==> forall b | b in rows && b.user == user :: b.isDefault <==> b.id == pk
      ensures forall b | b in old(rows) && b.user != user :: b in rows
    {
      var k := Find(rows, user, pk);
      if k.None? {
        return Err(NotFound);
      }
      var chosen := rows[k.value];
      assert chosen in rows;
      ClearedRows(rows, user);
      ClearUserDefaults(user);
      ClearedRows(rows, user);
      SaveRowInvariant(rows, chosen.(isDefault := true));
      Save(chosen.(isDefault := true));
      r := Ok(WithAddressLine(chosen.(isDefault := true)));
    }
  }

  // ----- admin columns -----

  /** `address_short`: line 1, city and state joined, cut to 50 characters plus "..." when longer. */
  function AddressShort(a: Address): (r: string)
    ensures var full := JoinNonEmpty([a.line1, a.city, a.state], ", ");
      && |r| <= 53
      && (|full| <= 50 ==> r == full)
      && (|full| > 50 ==> |r| == 53 && r[..50] == full[..50] && r[50..] == "...")
  {
    var full := JoinNonEmpty([a.line1, a.city, a.state], ", ");
    if |full| > 50 then full[..50] + "..." else full
  }

  /** The icon of an address type; unknown types get the pin. */
  function TypeIcon(t: string): string
  {
    if t == "home" then "\U{1F3E0}" else if t == "work" then "\U{1F3E2}" else "\U{1F4CD}"
  }

  /** `get_address_type_display`: the choice label, or the raw value when it is not a choice. */
  function TypeLabel(t: string): string
  {
    if t == "home" then "Home" else if t == "work" then "Work" else if t == "other" then "Other" else t
  }

  /** `address_type_display`: icon, a space, then the label. */
  function AddressTypeDisplay(t: string): (r: string)
    ensures t !in {"home", "work", "other"} ==> r == "\U{1F4CD}" + " " + t
    ensures t == "home" ==> r == "\U{1F3E0} Home"
    ensures t == "work" ==> r == "\U{1F3E2} Work"
    ensures t == "other" ==> r == "\U{1F4CD} Other"
  {
    TypeIcon(t) + " " + TypeLabel(t)
  }

  /**
   * `address_count`: how many addresses the area contains, active or not;
   * `None` when some address has a null coordinate, where `float(None)`
   * raises.
   */
  function AddressCount(dist: DistanceFn, area: ServiceArea, addrs: seq<Address>): (r: Option<nat>)
    ensures r.Some? <==> forall i | 0 <= i < |addrs| :: addrs[i].lat.Some? && addrs[i].lng.Some?
    ensures r.Some? ==> r.value <= |addrs|
  {
    if |addrs| == 0 then Some(0)
    else
      var a := addrs[0];
      var rest := AddressCount(dist, area, addrs[1..]);
      if a.lat.None? || a.lng.None? || rest.None? then None
      else Some((if Contains(dist, area, Point(a.lat.value, a.lng.value)) then 1 else 0) + rest.value)
  }

  /** The addresses inside the area, an independent statement of what is counted. */
  function Inside(dist: DistanceFn, area: ServiceArea, addrs: seq<Address>): seq<Address>
    requires forall i | 0 <= i < |addrs| :: addrs[i].lat.Some? && addrs[i].lng.Some?
  {
    if |addrs| == 0 then []
    else
      (if Contains(dist, area, Point(addrs[0].lat.value, addrs[0].lng.value)) then [addrs[0]] else [])
      + Inside(dist, area, addrs[1..])
  }

  /** The count is the number of contained addresses, and it adds up over a split table. */
  lemma {:induction false} AddressCountIsInside(dist: DistanceFn, area: ServiceArea, addrs: seq<Address>)
    requires forall i | 0 <= i < |addrs| :: addrs[i].lat.Some? && addrs[i].lng.Some?
    ensures AddressCount(dist, area, addrs) == Some(|Inside(dist, area, addrs)|)
  {
    if |addrs| > 0 {
      AddressCountIsInside(dist, area, addrs[1..]);
    }
  }

  lemma {:induction false} AddressCountAppend(dist: DistanceFn, area: ServiceArea, xs: seq<Address>, ys: seq<Address>)
    requires forall i | 0 <= i < |xs| :: xs[i].lat.Some? && xs[i].lng.Some?
    requires forall i | 0 <= i < |ys| :: ys[i].lat.Some? && ys[i].lng.Some?
    ensures AddressCount(dist, area, xs + ys).Some?
    ensures AddressCount(dist, area, xs + ys).value
         == AddressCount(dist, area, xs).value + AddressCount(dist, area, ys).value
  {
    if |xs| == 0 {
      assert xs + ys == ys;
    } else {
      assert (xs + ys)[1..] == xs[1..] + ys;
      AddressCountAppend(dist, area, xs[1..], ys);
    }
  }
}

=== FILE: booking_admin.dfy ===
/**
 * The two bulk actions of the booking admin (bookings/admin.py): among the
 * selected bookings, those in one status move to the next, and the number
 * that moved is reported. The action is one queryset update on the table.
 */
module BookingAdmin {
  import opened Bookings

  function Moves(b: BookingRow, selected: set<nat>, from: BookingStatus): bool
  {
    b.id in selected && b.status == from
  }

  /** Selected rows in status `from`. */
  function CountMoving(rows: seq<BookingRow>, selected: set<nat>, from: BookingStatus): (n: nat)
    ensures n <= |rows|
    ensures n == 0 <==> forall i | 0 <= i < |rows| :: !Moves(rows[i], selected, from)
  {
    if |rows| == 0 then 0
    else
      var rest := CountMoving(rows[1..], selected, from);
      assert forall i | 1 <= i < |rows| :: rows[i] == rows[1..][i - 1];
      (if Moves(rows[0], selected, from) then 1 else 0) + rest
  }

  /**
   * The rows after the update: the selected rows in status `from` are now in
   * status `to`, every other row is as it was, and no column but the status
   * changes.
   */
  function UpdatedRows(rows: seq<BookingRow>, selected: set<nat>, from: BookingStatus, to: BookingStatus)
    : (r: seq<BookingRow>)
    ensures |r| == |rows|
    ensures forall i | 0 <= i < |rows| && Moves(rows[i], selected, from) :: r[i].status == to
    ensures forall i | 0 <= i < |rows| && !Moves(rows[i], selected, from) :: r[i] == rows[i]
    ensures forall i | 0 <= i < |rows| :: r[i] == rows[i].(status := r[i].status)
  {
    seq(|rows|, i requires 0 <= i < |rows| =>
      if Moves(rows[i], selected, from) then rows[i].(status := to) else rows[i])
  }

  /**
   * The rows that reach the target status are the ones already there plus
   * the ones the update moves.
   */
  lemma {:induction false} CountIsNewlyMoved(rows: seq<BookingRow>, selected: set<nat>, from: BookingStatus, to: BookingStatus)
    requires from != to
    ensures CountMoving(UpdatedRows(rows, selected, from, to), selected, to)
         == CountMoving(rows, selected, to) + CountMoving(rows, selected, from)
  {
    if |rows| > 0 {
      CountIsNewlyMoved(rows[1..], selected, from, to);
      UpdatedRowsCons(rows, selected, from, to);
    }
  }

  /** The update of a non-empty table is the update of its head followed by that of its tail. */
  lemma UpdatedRowsCons(rows: seq<BookingRow>, selected: set<nat>, from: BookingStatus, to: BookingStatus)
    requires |rows| > 0
    ensures var r := UpdatedRows(rows, selected, from, to);
      && r[0] == (if Moves(rows[0], selected, from) then rows[0].(status := to) else rows[0])
      && r[1..] == UpdatedRows(rows[1..], selected, from, to)
  {
    var r := UpdatedRows(rows, selected, from, to);
    var t := UpdatedRows(rows[1..], selected, from, to);
    assert forall i | 0 <= i < |t| :: rows[1..][i] == rows[i + 1];
    assert forall i | 0 <= i < |t| :: t[i] == r[i + 1];
  }

  /**
   * `queryset.filter(status=from).update(status=to)`: the new table and the
   * number of rows updated. Only the status of the moved rows changes, and
   * the count is exactly how many more selected rows are in the target
   * status afterwards; it is zero exactly when nothing selected is in `from`.
   */
  function BulkUpdate(rows: seq<BookingRow>, selected: set<nat>, from: BookingStatus, to: BookingStatus)
    : (r: (seq<BookingRow>, nat))
    requires from != to
    ensures |r.0| == |rows|
    ensures forall i | 0 <= i < |rows| && Moves(rows[i], selected, from) :: r.0[i] == rows[i].(status := to)
    ensures forall i | 0 <= i < |rows| && !Moves(rows[i], selected, from) :: r.0[i] == rows[i]
    ensures CountMoving(r.0, selected, to) == CountMoving(rows, selected, to) + r.1
    ensures r.1 == 0 <==> forall i | 0 <= i < |rows| :: !Moves(rows[i], selected, from)
  {
    CountIsNewlyMoved(rows, selected, from, to);
    (UpdatedRows(rows, selected, from, to), CountMoving(rows, selected, from))
  }

  /** `mark_confirmed`: selected pending bookings become confirmed. */
  function MarkConfirmed(rows: seq<BookingRow>, selected: set<nat>): (seq<BookingRow>, nat)
  {
    BulkUpdate(rows, selected, Pending, Confirmed)
  }

  /** `mark_completed`: selected confirmed bookings become completed. */
  function MarkCompleted(rows: seq<BookingRow>, selected: set<nat>): (seq<BookingRow>, nat)
  {
    BulkUpdate(rows, selected, Confirmed, Completed)
  }

  /** Repeating an action moves nothing and changes nothing. */
  lemma {:induction false} SecondRunMovesNothing(rows: seq<BookingRow>, selected: set<nat>, from: BookingStatus, to: BookingStatus)
    requires from != to
    ensures var once := BulkUpdate(rows, selected, from, to).0;
      BulkUpdate(once, selected, from, to) == (once, 0)
  {
    var once := BulkUpdate(rows, selected, from, to).0;
    assert forall i | 0 <= i < |once| :: !Moves(once[i], selected, from);
    assert BulkUpdate(once, selected, from, to).0 == once;
  }

  /** Confirming and then completing a selection completes every selected pending or confirmed booking. */
  lemma ConfirmThenComplete(rows: seq<BookingRow>, selected: set<nat>)
    ensures var r := MarkCompleted(MarkConfirmed(rows, selected).0, selected).0;
      forall i | 0 <= i < |rows| ::
        r[i].status == (if rows[i].id in selected && Active(rows[i].status) then Completed else rows[i].status)
  {
  }

  /** The booking table the admin actions update in place. */
  class BookingTable {
    var rows: seq<BookingRow>

    constructor (rows: seq<BookingRow>)
      ensures this.rows == rows
    {
      this.rows := rows;
    }

    /** `mark_confirmed`: returns the number of rows updated. */
    method MarkConfirmedAction(selected: set<nat>) returns (updated: nat)
      modifies this
      ensures (rows, updated) == MarkConfirmed(old(rows), selected)
      ensures CountMoving(rows, selected, Pending) == 0
    {
      SecondRunMovesNothing(rows, selected, Pending, Confirmed);
      var r := MarkConfirmed(rows, selected);
      rows, updated := r.0, r.1;
    }

    /** `mark_completed`: returns the number of rows updated. */
    method MarkCompletedAction(selected: set<nat>) returns (updated: nat)
      modifies this
      ensures (rows, updated) == MarkCompleted(old(rows), selected)
      ensures CountMoving(rows, selected, Confirmed) == 0
    {
      SecondRunMovesNothing(rows, selected, Confirmed, Completed);
      var r := MarkCompleted(rows, selected);
      rows, updated := r.0, r.1;
    }
  }
}

=== FILE: booking_api.dfy ===
/**
 * The booking endpoints (bookings/api/views.py) and the location-aware
 * booking serializer behind them (bookings/api/serializers.py). Payloads are
 * taken after the framework's own per-field parsing; the cross-field checks,
 * the duplicate rule and the endpoints' decisions are modelled here.
 */
module BookingApi {
  import opened Common
  import opened Geo
  import Sorting
  import Addresses
  import opened Bookings

  /** A booking payload. Nullable columns may be given as null. */
  datatype BookingInput = BookingInput(
    vehicleType: Field<string>,
    date: Field<int>,
    timeSlot: Field<string>,
    notes: Field<Option<string>>,
    lat: Field<Option<int>>,
    lng: Field<Option<int>>,
    serviceAddress: Field<Option<string>>,
    address: Field<Option<Addresses.Address>>)

  datatype FieldError = Required | BlankSlot | PastDate | ForeignAddress

  datatype BookingError =
    | NotFound
    | NotEditable(status: BookingStatus)
    | InvalidFields(errors: set<FieldError>)
    | LocationRequired
    | LatitudeOutOfRange
    | LongitudeOutOfRange
    | ServiceAddressRequired
    | OutsideServiceArea(nearest: string, distanceKm: Km)
    | DuplicateBooking
    | CompletedLocationChange
    | CannotCancel
    | ServerError

  /**
   * The per-field checks, reported together: on creation the vehicle type,
   * date and slot must be sent; the slot, a character column without
   * `blank=True`, may not be blank; `validate_date` refuses a past day and
   * `validate_address` a saved address of another user.
   */
  function FieldErrors(d: BookingInput, requester: nat, today: int, creating: bool): (errs: set<FieldError>)
    ensures Required in errs <==> creating && (d.vehicleType.Omitted? || d.date.Omitted? || d.timeSlot.Omitted?)
    ensures BlankSlot in errs <==> d.timeSlot.Given? && d.timeSlot.value == ""
    ensures PastDate in errs <==> d.date.Given? && d.date.value < today
    ensures ForeignAddress in errs <==>
      d.address.Given? && d.address.value.Some? && d.address.value.value.user != requester
  {
    (if creating && (d.vehicleType.Omitted? || d.date.Omitted? || d.timeSlot.Omitted?) then {Required} else {})
    + (if d.timeSlot.Given? && d.timeSlot.value == "" then {BlankSlot} else {})
    + (if d.date.Given? && d.date.value < today then {PastDate} else {})
    + (if d.address.Given? && d.address.value.Some? && d.address.value.value.user != requester
       then {ForeignAddress} else {})
  }

  /**
   * Where a booking may be: both coordinates present and in range, a point
   * some active area serves (any point when none is active), and a service
   * address that is not blank.
   */
  predicate Located(dist: DistanceFn, areas: seq<ServiceArea>, lat: Option<int>, lng: Option<int>, serviceAddress: Option<string>)
  {
    && lat.Some? && lng.Some?
    && LatitudeInRange(lat.value) && LongitudeInRange(lng.value)
    && Served(dist, areas, Point(lat.value, lng.value))
    && serviceAddress.Some? && Strip(serviceAddress.value) != ""
  }

  /** A located booking passes the model's own `is_in_service_area`. */
  lemma {:induction false} LocatedIsInServiceArea(dist: DistanceFn, areas: seq<ServiceArea>,
      lat: Option<int>, lng: Option<int>, serviceAddress: Option<string>)
    requires Located(dist, areas, lat, lng, serviceAddress)
    ensures InServiceArea(dist, areas, lat, lng)
  {
  }

  predicate LinkedAddressLacksCoordinates(d: BookingInput)
  {
    d.address.Given? && d.address.value.Some? && (d.address.value.value.lat.None? || d.address.value.value.lng.None?)
  }

  /** The duplicate check runs only when a date and a non-empty slot are sent. */
  predicate Duplicates(rows: seq<BookingRow>, requester: nat, instance: Option<nat>, d: BookingInput)
  {
    d.date.Given? && d.timeSlot.Given? && d.timeSlot.value != ""
    && HasDuplicate(rows, requester, d.date.value, d.timeSlot.value, instance)
  }

  /** Every condition `validate` imposes, independent of the order it checks them in. */
  predicate Acceptable(dist: DistanceFn, areas: seq<ServiceArea>, rows: seq<BookingRow>, requester: nat,
                       instance: Option<nat>, d: BookingInput)
  {
    && d.serviceAddress != Given(None)
    && Located(dist, areas, d.lat.Or(None), d.lng.Or(None), d.serviceAddress.Or(None))
    && !LinkedAddressLacksCoordinates(d)
    && !Duplicates(rows, requester, instance, d)
  }

  /**
   * `BookingSerializer.validate`. The service address is stripped first (a
   * null one fails there), then: coordinates required, latitude then
   * longitude in range, a non-blank address, coverage (naming the nearest
   * active area and its distance), the linked address's coordinates read as
   * numbers (a null one fails), and the duplicate rule. A mismatch between
   * the linked address and the coordinates is only logged.
   */
  function Validate(dist: DistanceFn, areas: seq<ServiceArea>, rows: seq<BookingRow>, requester: nat,
                    instance: Option<nat>, d: BookingInput): (e: Option<BookingError>)
    ensures e.None? <==> Acceptable(dist, areas, rows, requester, instance, d)
    ensures e == Some(LocationRequired) <==>
      d.serviceAddress != Given(None) && (d.lat.Or(None).None? || d.lng.Or(None).None?)
    ensures e == Some(DuplicateBooking) ==> Duplicates(rows, requester, instance, d)
    ensures e.Some? && e.value.OutsideServiceArea? ==>
      && d.lat.Or(None).Some? && d.lng.Or(None).Some?
      && var p := Point(d.lat.Or(None).value, d.lng.Or(None).value);
      && !Served(dist, areas, p)
      && (exists i | 0 <= i < |areas| :: areas[i].active && areas[i].name == e.value.nearest
                                        && dist(areas[i].center, p) == e.value.distanceKm)
      && (forall i | 0 <= i < |areas| && areas[i].active :: e.value.distanceKm <= dist(areas[i].center, p))
  {
    if d.serviceAddress == Given(None) then Some(ServerError)
    else
      var sa := Strip(d.serviceAddress.Or(Some("")).value);
      var lat := d.lat.Or(None);
      var lng := d.lng.Or(None);
      if lat.None? || lng.None? then Some(LocationRequired)
      else if !LatitudeInRange(lat.value) then Some(LatitudeOutOfRange)
      else if !LongitudeInRange(lng.value) then Some(LongitudeOutOfRange)
      else if sa == "" then Some(ServiceAddressRequired)
      else
        var p := Point(lat.value, lng.value);
        var act := ActiveAreas(areas);
        if act != [] && CoveringAreas(dist, areas, p) == [] then
          var i := NearestArea(dist, act, p);
          assert act[i] in areas;
          Some(OutsideServiceArea(act[i].name, dist(act[i].center, p)))
        else if LinkedAddressLacksCoordinates(d) then Some(ServerError)
        else if Duplicates(rows, requester, instance, d) then Some(DuplicateBooking)
        else None
  }

  /**
   * A partial update must still carry both coordinates and a service
   * address: a patch of the notes alone is refused.
   */
  lemma PatchWithoutCoordinatesRefused(dist: DistanceFn, areas: seq<ServiceArea>, rows: seq<BookingRow>,
                                       requester: nat, id: nat, notes: Option<string>)
    ensures Validate(dist, areas, rows, requester, Some(id),
      BookingInput(Omitted, Omitted, Omitted, Given(notes), Omitted, Omitted, Omitted, Omitted)) == Some(LocationRequired)
  {
  }

  predicate TouchesLocation(d: BookingInput)
  {
    d.lat.Given? || d.lng.Given? || d.serviceAddress.Given? || d.address.Given?
  }

  /** `BookingSerializer.update`'s guard: a completed booking keeps its location. */
  function UpdateGuard(status: BookingStatus, d: BookingInput): (e: Option<BookingError>)
    ensures e.Some? <==> status == Completed && TouchesLocation(d)
    ensures e.Some? ==> e.value == CompletedLocationChange
  {
    if status == Completed && TouchesLocation(d) then Some(CompletedLocationChange) else None
  }

  /** `super().update`: every sent field is written; status and owner are read-only. */
  method Apply(b: Booking, d: BookingInput)
    modifies b
    ensures b.vehicleType == d.vehicleType.Or(old(b.vehicleType))
    ensures b.date == d.date.Or(old(b.date)) && b.timeSlot == d.timeSlot.Or(old(b.timeSlot))
    ensures b.notes == d.notes.Or(old(b.notes))
    ensures b.lat == d.lat.Or(old(b.lat)) && b.lng == d.lng.Or(old(b.lng))
    ensures b.serviceAddress == d.serviceAddress.Or(old(b.serviceAddress))
    ensures b.address == d.address.Or(old(b.address))
    ensures b.status == old(b.status)
  {
    b.vehicleType := d.vehicleType.Or(b.vehicleType);
    b.date := d.date.Or(b.date);
    b.timeSlot := d.timeSlot.Or(b.timeSlot);
    b.notes := d.notes.Or(b.notes);
    b.lat := d.lat.Or(b.lat);
    b.lng := d.lng.Or(b.lng);
    b.serviceAddress := d.serviceAddress.Or(b.serviceAddress);
    b.address := d.address.Or(b.address);
  }

  /** `get_object(pk, user)`: the caller's booking with that key. */
  function FindRow(rows: seq<BookingRow>, requester: nat, pk: nat): (k: Option<nat>)
    ensures k.None? <==> forall i | 0 <= i < |rows| :: !(rows[i].id == pk && rows[i].user == requester)
    ensures k.Some? ==> k.value < |rows| && rows[k.value].id == pk && rows[k.value].user == requester
  {
    if |rows| == 0 then None
    else if rows[0].id == pk && rows[0].user == requester then Some(0)
    else
      var k := FindRow(rows[1..], requester, pk);
      if k.None? then None else Some(k.value + 1)
  }

  /**
   * The PATCH steps once the booking is found: completed and cancelled
   * bookings are refused, then the field checks, `validate` with the booking
   * itself excluded from the duplicate rule, the update guard, and the write.
   */
  method PatchBooking(dist: DistanceFn, areas: seq<ServiceArea>, rows: seq<BookingRow>, b: Booking,
                      requester: nat, d: BookingInput, today: int) returns (r: Option<BookingError>)
    modifies b
    ensures old(b.status) == Completed || old(b.status) == Cancelled ==> r == Some(NotEditable(old(b.status)))
    ensures r.None? <==>
      && old(b.status) != Completed && old(b.status) != Cancelled
      && FieldErrors(d, requester, today, false) == {}
      && Acceptable(dist, areas, rows, requester, Some(b.id), d)
    ensures r != Some(CompletedLocationChange) && r != Some(NotFound)
    ensures r.Some? ==> unchanged(b)
    ensures r.None? ==> b.status == old(b.status) && b.IsInServiceArea(dist, areas)
    ensures r.None? ==> Located(dist, areas, b.lat, b.lng, b.serviceAddress)
    ensures r.None? ==> b.date == d.date.Or(old(b.date)) && b.timeSlot == d.timeSlot.Or(old(b.timeSlot))
    ensures r.None? ==> b.vehicleType == d.vehicleType.Or(old(b.vehicleType)) && b.notes == d.notes.Or(old(b.notes))
    ensures r.None? ==> b.lat == d.lat.Or(old(b.lat)) && b.lng == d.lng.Or(old(b.lng))
    ensures r.None? ==> b.serviceAddress == d.serviceAddress.Or(old(b.serviceAddress)) && b.address == d.address.Or(old(b.address))
  {
    if b.status == Completed || b.status == Cancelled {
      return Some(NotEditable(b.status));
    }
    var errs := FieldErrors(d, requester, today, false);
    if errs != {} {
      return Some(InvalidFields(errs));
    }
    var e := Validate(dist, areas, rows, requester, Some(b.id), d);
    if e.Some? {
      return e;
    }
    var g := UpdateGuard(b.status, d);
    if g.Some? {
      assert false;
      return g;
    }
    Apply(b, d);
    LocatedIsInServiceArea(dist, areas, b.lat, b.lng, b.serviceAddress);
    r := None;
  }

  predicate DistinctObjects(table: seq<Booking>)
  {
    forall i, j | 0 <= i < j < |table| :: table[i] != table[j]
  }

  /** `BookingDetailView.patch`: only the caller's booking, only while it is open. */
  method Patch(dist: DistanceFn, areas: seq<ServiceArea>, table: seq<Booking>, requester: nat, pk: nat,
               d: BookingInput, today: int) returns (r: Option<BookingError>)
    requires DistinctObjects(table)
    modifies table
    ensures r == Some(NotFound) <==> FindRow(old(Rows(table)), requester, pk).None?
    ensures forall j | 0 <= j < |table| && Some(j) != FindRow(old(Rows(table)), requester, pk) :: unchanged(table[j])
    ensures var k := FindRow(old(Rows(table)), requester, pk);
      k.Some? && old(table[k.value].status) in {Completed, Cancelled} ==>
        r == Some(NotEditable(old(table[k.value].status)))
    ensures var k := FindRow(old(Rows(table)), requester, pk);
      k.Some? ==>
        (r.None? <==>
          && old(table[k.value].status) != Completed && old(table[k.value].status) != Cancelled
          && FieldErrors(d, requester, today, false) == {}
          && Acceptable(dist, areas, old(Rows(table)), requester, Some(pk), d))
    ensures var k := FindRow(old(Rows(table)), requester, pk);
      k.Some? && r.Some? ==> unchanged(table[k.value])
    ensures r.None? ==> FindRow(old(Rows(table)), requester, pk).Some?
    ensures r.None? ==>
      var b := table[FindRow(old(Rows(table)), requester, pk).value];
      && b.status == old(b.status)
      && b.IsInServiceArea(dist, areas) && Located(dist, areas, b.lat, b.lng, b.serviceAddress)
      && b.date == d.date.Or(old(b.date)) && b.timeSlot == d.timeSlot.Or(old(b.timeSlot))
      && b.vehicleType == d.vehicleType.Or(old(b.vehicleType)) && b.notes == d.notes.Or(old(b.notes))
      && b.lat == d.lat.Or(old(b.lat)) && b.lng == d.lng.Or(old(b.lng))
      && b.serviceAddress == d.serviceAddress.Or(old(b.serviceAddress)) && b.address == d.address.Or(old(b.address))
  {
    var rows := Rows(table);
    var k := FindRow(rows, requester, pk);
    if k.None? {
      return Some(NotFound);
    }
    var b := table[k.value];
    assert forall j | 0 <= j < |table| && j != k.value :: table[j] != b;
    r := PatchBooking(dist, areas, rows, b, requester, d, today);
  }

  /** `BookingDetailView.delete`: cancels the caller's booking when `cancel` allows it. */
  method Delete(table: seq<Booking>, requester: nat, pk: nat, today: int) returns (r: Option<BookingError>)
    requires DistinctObjects(table)
    modifies table
    ensures r == Some(NotFound) <==> FindRow(old(Rows(table)), requester, pk).None?
    ensures forall j | 0 <= j < |table| && Some(j) != FindRow(old(Rows(table)), requester, pk) :: unchanged(table[j])
    ensures FindRow(old(Rows(table)), requester, pk).Some? ==>
      var k := FindRow(old(Rows(table)), requester, pk).value;
      && (r.None? <==> old(table[k].CanCancel(today)))
      && (r.Some? ==> r == Some(CannotCancel) && table[k].status == old(table[k].status))
      && (r.None? ==> table[k].status == Cancelled)
      && table[k].ColumnsKept()
  {
    var rows := Rows(table);
    var k := FindRow(rows, requester, pk);
    if k.None? {
      return Some(NotFound);
    }
    assert forall j | 0 <= j < |table| && j != k.value :: table[j] != table[k.value];
    var ok := table[k.value].Cancel(today);
    r := if ok then None else Some(CannotCancel);
  }

  /**
   * `BookingListCreateView.post`: a new pending booking of the caller,
   * with the fields it was sent and nulls elsewhere.
   */
  method Create(dist: DistanceFn, areas: seq<ServiceArea>, rows: seq<BookingRow>, requester: nat, newId: nat,
                d: BookingInput, today: int) returns (r: Result<Booking, BookingError>)
    ensures r.Ok? <==> FieldErrors(d, requester, today, true) == {} && Acceptable(dist, areas, rows, requester, None, d)
    ensures FieldErrors(d, requester, today, true) != {} ==> r == Err(InvalidFields(FieldErrors(d, requester, today, true)))
    ensures r.Ok? ==> fresh(r.value)
    ensures r.Ok? ==> r.value.id == newId && r.value.user == requester && r.value.status == Pending
    ensures r.Ok? ==> r.value.date == d.date.value >= today && r.value.timeSlot == d.timeSlot.value
    ensures r.Ok? ==> r.value.vehicleType == d.vehicleType.value
    ensures r.Ok? ==> r.value.lat == d.lat.Or(None) && r.value.lng == d.lng.Or(None)
    ensures r.Ok? ==> r.value.serviceAddress == d.serviceAddress.Or(None) && r.value.address == d.address.Or(None)
    ensures r.Ok? ==> r.value.notes == d.notes.Or(None)
    ensures r.Ok? ==> Located(dist, areas, d.lat.Or(None), d.lng.Or(None), d.serviceAddress.Or(None))
    ensures r.Ok? ==> InServiceArea(dist, areas, d.lat.Or(None), d.lng.Or(None))
    ensures r.Ok? ==> d.timeSlot.value != "" && !HasDuplicate(rows, requester, d.date.value, d.timeSlot.value, None)
  {
    var errs := FieldErrors(d, requester, today, true);
    if errs != {} {
      return Err(InvalidFields(errs));
    }
    var e := Validate(dist, areas, rows, requester, None, d);
    if e.Some? {
      return Err(e.value);
    }
    LocatedIsInServiceArea(dist, areas, d.lat.Or(None), d.lng.Or(None), d.serviceAddress.Or(None));
    var b := new Booking(newId, requester, d.vehicleType.value, d.date.value, d.timeSlot.value, d.notes.Or(None),
                         d.lat.Or(None), d.lng.Or(None), d.serviceAddress.Or(None), d.address.Or(None));
    r := Ok(b);
  }

  /**
   * `BookingListCreateView.post` as written: `save(user=...)` puts the user
   * into the validated data, and `create` passes it to `objects.create` a
   * second time beside `user=user`. The call raises a type error before any
   * row is written, so every payload that passes validation fails.
   */
  method CreateAsWritten(dist: DistanceFn, areas: seq<ServiceArea>, rows: seq<BookingRow>, requester: nat,
                         d: BookingInput, today: int) returns (r: Result<Booking, BookingError>)
    ensures r.Err?
    ensures FieldErrors(d, requester, today, true) != {} ==> r == Err(InvalidFields(FieldErrors(d, requester, today, true)))
    ensures FieldErrors(d, requester, today, true) == {} && !Acceptable(dist, areas, rows, requester, None, d) ==>
      r == Err(Validate(dist, areas, rows, requester, None, d).value)
    ensures FieldErrors(d, requester, today, true) == {} && Acceptable(dist, areas, rows, requester, None, d) ==>
      r == Err(ServerError)
  {
    var errs := FieldErrors(d, requester, today, true);
    if errs != {} {
      return Err(InvalidFields(errs));
    }
    var e := Validate(dist, areas, rows, requester, None, d);
    if e.Some? {
      return Err(e.value);
    }
    r := Err(ServerError);
  }

  // ---------------------------------------------------------------------
  // check_service_availability

  datatype AvailabilityError = CoordinatesRequired | InvalidFormat | InvalidCoordinates

  /** An entry of the "nearest areas" list: a name and a distance in tenths of a kilometre. */
  datatype NearbyArea = NearbyArea(name: string, distanceTenths: int)

  datatype Availability =
    | AvailableEverywhere
    | CoveredBy(names: seq<string>)
    | NotCovered(nearest: seq<NearbyArea>)

  function AreaNames(areas: seq<ServiceArea>): (r: seq<string>)
    ensures |r| == |areas| && forall i | 0 <= i < |areas| :: r[i] == areas[i].name
  {
    seq(|areas|, i requires 0 <= i < |areas| => areas[i].name)
  }

  /** Every active area with its rounded distance from `p`, in table order. */
  function NearbyList(dist: DistanceFn, act: seq<ServiceArea>, p: Point): (r: seq<NearbyArea>)
    ensures |r| == |act|
    ensures forall i | 0 <= i < |act| :: r[i] == NearbyArea(act[i].name, RoundTenths(dist(act[i].center, p)))
  {
    seq(|act|, i requires 0 <= i < |act| => NearbyArea(act[i].name, RoundTenths(dist(act[i].center, p))))
  }

  function NearbyKey(x: NearbyArea): Sorting.Key
  {
    (x.distanceTenths as real, 0.0)
  }

  function Min(a: int, b: int): int { if a <= b then a else b }

  /**
   * The first `n` of a sorted rearrangement `s` of `all`: sorted, drawn from
   * `all`, and no greater than any entry of `all` left behind.
   */
  lemma SortedPrefixLeast(s: seq<NearbyArea>, all: seq<NearbyArea>, n: nat)
    requires n <= |s| && Sorting.Sorted(s, NearbyKey) && multiset(s) == multiset(all)
    ensures Sorting.Sorted(s[..n], NearbyKey)
    ensures multiset(s[..n]) <= multiset(all)
    ensures forall i, x | 0 <= i < n && x in multiset(all) - multiset(s[..n]) ::
      s[..n][i].distanceTenths <= x.distanceTenths
  {
    var pre := s[..n];
    assert s == pre + s[n..];
    assert multiset(s) == multiset(pre) + multiset(s[n..]);
    forall i, j | 0 <= i < j < |pre| ensures !Sorting.Below(NearbyKey(pre[j]), NearbyKey(pre[i])) {
      assert pre[i] == s[i] && pre[j] == s[j];
    }
    forall i, x | 0 <= i < n && x in multiset(all) - multiset(pre)
      ensures pre[i].distanceTenths <= x.distanceTenths
    {
      assert x in multiset(s[n..]);
      var j :| 0 <= j < |s[n..]| && s[n..][j] == x;
      assert s[n + j] == x && pre[i] == s[i];
      assert !Sorting.Below(NearbyKey(s[n + j]), NearbyKey(s[i]));
    }
  }

  /** The three (or fewer) nearest entries, nearest first, equal distances in table order. */
  function NearestAreas(dist: DistanceFn, act: seq<ServiceArea>, p: Point): (n: seq<NearbyArea>)
    ensures var all := NearbyList(dist, act, p);
      && |n| == Min(3, |act|)
      && Sorting.Sorted(n, NearbyKey)
      && multiset(n) <= multiset(all)
      && (forall i, x | 0 <= i < |n| && x in multiset(all) - multiset(n) :: n[i].distanceTenths <= x.distanceTenths)
  {
    var all := NearbyList(dist, act, p);
    var sorted := Sorting.SortBy(all, NearbyKey);
    var k := Min(3, |sorted|);
    SortedPrefixLeast(sorted, all, k);
    sorted[..k]
  }

  /**
   * `check_service_availability`. Both values are required, each must read
   * as a number, and both must be in range. With no active area the service
   * is everywhere; else the covering areas are named; else the three active
   * areas nearest by rounded distance are listed, nearest first, ties in
   * table order.
   */
  function CheckServiceAvailability(dist: DistanceFn, areas: seq<ServiceArea>, lat: NumberInput, lng: NumberInput)
    : (r: Result<Availability, AvailabilityError>)
    ensures r == Err(CoordinatesRequired) <==> lat.Missing? || lng.Missing?
    ensures r == Err(InvalidFormat) <==> !lat.Missing? && !lng.Missing? && (lat.Malformed? || lng.Malformed?)
    ensures r == Err(InvalidCoordinates) <==>
      lat.Number? && lng.Number? && !(LatitudeInRange(lat.micro) && LongitudeInRange(lng.micro))
    ensures r == Ok(AvailableEverywhere) <==>
      lat.Number? && lng.Number? && LatitudeInRange(lat.micro) && LongitudeInRange(lng.micro)
      && ActiveAreas(areas) == []
    ensures r.Ok? && r.value.CoveredBy? ==>
      r.value.names == AreaNames(CoveringAreas(dist, areas, Point(lat.micro, lng.micro))) && r.value.names != []
    ensures r.Ok? && r.value.NotCovered? ==>
      && !Served(dist, areas, Point(lat.micro, lng.micro))
      && r.value.nearest == NearestAreas(dist, ActiveAreas(areas), Point(lat.micro, lng.micro))
      && r.value.nearest != []
  {
    if lat.Missing? || lng.Missing? then Err(CoordinatesRequired)
    else if lat.Malformed? || lng.Malformed? then Err(InvalidFormat)
    else if !LatitudeInRange(lat.micro) || !LongitudeInRange(lng.micro) then Err(InvalidCoordinates)
    else
      var p := Point(lat.micro, lng.micro);
      var act := ActiveAreas(areas);
      if act == [] then Ok(AvailableEverywhere)
      else
        var covering := CoveringAreas(dist, areas, p);
        if covering != [] then Ok(CoveredBy(AreaNames(covering)))
        else Ok(NotCovered(NearestAreas(dist, act, p)))
  }

  /** Appending an area to the table appends it to the covering ones exactly when it covers `p`. */
  lemma {:induction false} CoveringSnoc(dist: DistanceFn, xs: seq<ServiceArea>, a: ServiceArea, p: Point)
    ensures CoveringAreas(dist, xs + [a], p)
         == CoveringAreas(dist, xs, p) + (if a.active && Contains(dist, a, p) then [a] else [])
  {
    if |xs| == 0 {
      assert xs + [a] == [a];
      assert [a][1..] == [];
    } else {
      var ys := xs + [a];
      assert ys[0] == xs[0];
      assert ys[1..] == xs[1..] + [a];
      CoveringSnoc(dist, xs[1..], a, p);
      var h := if xs[0].active && Contains(dist, xs[0], p) then [xs[0]] else [];
      var t := if a.active && Contains(dist, a, p) then [a] else [];
      var rest := CoveringAreas(dist, xs[1..], p);
      ConcatAssoc(h, rest, t);
      calc {
        CoveringAreas(dist, ys, p);
        h + CoveringAreas(dist, xs[1..] + [a], p);
        h + (rest + t);
        (h + rest) + t;
        CoveringAreas(dist, xs, p) + t;
      }
    }
  }

  /** One step of the first loop: the next area's name is added exactly when it covers `p`. */
  lemma CoveredNamesStep(dist: DistanceFn, act: seq<ServiceArea>, i: nat, p: Point)
    requires i < |act| && act[i].active
    ensures AreaNames(CoveringAreas(dist, act[..i + 1], p))
         == AreaNames(CoveringAreas(dist, act[..i], p)) + (if Contains(dist, act[i], p) then [act[i].name] else [])
  {
    assert act[..i + 1] == act[..i] + [act[i]];
    CoveringSnoc(dist, act[..i], act[i], p);
    var before := CoveringAreas(dist, act[..i], p);
    if Contains(dist, act[i], p) {
      AreaNamesSnoc(before, act[i]);
    } else {
      assert before + [] == before;
    }
  }

  /** Naming a table with one more area names that area last. */
  lemma AreaNamesSnoc(xs: seq<ServiceArea>, a: ServiceArea)
    ensures AreaNames(xs + [a]) == AreaNames(xs) + [a.name]
  {
  }

  /**
   * The first loop of `check_service_availability`: the names of the active
   * areas that contain `p`, in table order.
   */
  method CollectCoveredNames(dist: DistanceFn, act: seq<ServiceArea>, p: Point) returns (names: seq<string>)
    requires forall i | 0 <= i < |act| :: act[i].active
    ensures names == AreaNames(CoveringAreas(dist, act, p))
  {
    names := [];
    var i := 0;
    while i < |act|
      invariant i <= |act|
      invariant names == AreaNames(CoveringAreas(dist, act[..i], p))
    {
      CoveredNamesStep(dist, act, i, p);
      if Contains(dist, act[i], p) {
        names := names + [act[i].name];
      }
      i := i + 1;
    }
    assert act[..i] == act;
  }

  /**
   * The second loop of `check_service_availability`: every active area with
   * its distance from `p` rounded to a tenth, in table order.
   */
  method CollectNearby(dist: DistanceFn, act: seq<ServiceArea>, p: Point) returns (nearby: seq<NearbyArea>)
    ensures nearby == NearbyList(dist, act, p)
  {
    nearby := [];
    var i := 0;
    while i < |act|
      invariant i <= |act|
      invariant nearby == NearbyList(dist, act[..i], p)
    {
      var distance := dist(act[i].center, p);
      assert NearbyList(dist, act[..i + 1], p)
          == NearbyList(dist, act[..i], p) + [NearbyArea(act[i].name, RoundTenths(distance))];
      nearby := nearby + [NearbyArea(act[i].name, RoundTenths(distance))];
      i := i + 1;
    }
    assert act[..i] == act;
  }

  /** The first listed area is the first active area with the least rounded distance. */
  lemma NearestListedFirst(dist: DistanceFn, areas: seq<ServiceArea>, lat: int, lng: int)
    requires LatitudeInRange(lat) && LongitudeInRange(lng)
    requires !Served(dist, areas, Point(lat, lng))
    ensures var r := CheckServiceAvailability(dist, areas, Number(lat), Number(lng));
      var all := NearbyList(dist, ActiveAreas(areas), Point(lat, lng));
      r.Ok? && r.value.NotCovered? && r.value.nearest[0] == all[Sorting.FirstMin(all, NearbyKey)]
  {
    NotCoveredLists(dist, areas, lat, lng);
    NearestAreasHead(dist, ActiveAreas(areas), Point(lat, lng));
  }

  lemma NotCoveredLists(dist: DistanceFn, areas: seq<ServiceArea>, lat: int, lng: int)
    requires LatitudeInRange(lat) && LongitudeInRange(lng)
    requires !Served(dist, areas, Point(lat, lng))
    ensures CheckServiceAvailability(dist, areas, Number(lat), Number(lng))
         == Ok(NotCovered(NearestAreas(dist, ActiveAreas(areas), Point(lat, lng))))
  {
  }

  lemma NearestAreasHead(dist: DistanceFn, act: seq<ServiceArea>, p: Point)
    requires act != []
    ensures var all := NearbyList(dist, act, p);
      NearestAreas(dist, act, p)[0] == all[Sorting.FirstMin(all, NearbyKey)]
  {
    var all := NearbyList(dist, act, p);
    Sorting.SortByHead(all, NearbyKey);
  }

  // ---------------------------------------------------------------------
  // available_time_slots

  /** The sixteen hourly slots the endpoint offers, in order. */
  const AllSlots: seq<string> := [
    "05:00 AM", "06:00 AM", "07:00 AM", "08:00 AM", "09:00 AM", "10:00 AM",
    "11:00 AM", "12:00 PM", "01:00 PM", "02:00 PM", "03:00 PM", "04:00 PM",
    "05:00 PM", "06:00 PM", "07:00 PM", "08:00 PM"]

  /** The `date` query parameter: absent or empty, not a `YYYY-MM-DD` date, or a day. */
  datatype DateQuery = NoDate | BadDate | OnDate(day: int)

  datatype SlotError = DateRequired | InvalidDate

  datatype SlotReport = SlotReport(available: seq<string>, booked: set<string>, totalAvailable: nat)

  /** Slots held on `day` by pending or confirmed bookings of any user. */
  function BookedSlots(rows: seq<BookingRow>, day: int): (s: set<string>)
    ensures forall i | 0 <= i < |rows| && rows[i].date == day && Active(rows[i].status) :: rows[i].timeSlot in s
    ensures forall t | t in s :: exists i | 0 <= i < |rows| :: rows[i].date == day && Active(rows[i].status) && rows[i].timeSlot == t
  {
    set i | 0 <= i < |rows| && rows[i].date == day && Active(rows[i].status) :: rows[i].timeSlot
  }

  /** The standard slots not in `booked`, in their usual order. */
  function FreeSlots(booked: set<string>): (r: seq<string>)
    ensures forall t :: t in r <==> t in AllSlots && t !in booked
    ensures SubsequenceOf(r, AllSlots)
    ensures booked == {} ==> r == AllSlots
  {
    var taken := t => t in booked;
    DeleteWhereSubsequence(AllSlots, taken);
    if booked == {} then
      DeleteWhereKeepsAll(AllSlots, taken);
      DeleteWhere(AllSlots, taken)
    else
      DeleteWhere(AllSlots, taken)
  }

  /** `available_time_slots`: the standard slots not held that day, in their usual order. */
  function AvailableTimeSlots(rows: seq<BookingRow>, q: DateQuery): (r: Result<SlotReport, SlotError>)
    ensures r == Err(DateRequired) <==> q.NoDate?
    ensures r == Err(InvalidDate) <==> q.BadDate?
    ensures r.Ok? ==> r.value.booked == BookedSlots(rows, q.day)
    ensures r.Ok? ==> r.value.available == FreeSlots(r.value.booked)
    ensures r.Ok? ==> r.value.totalAvailable == |r.value.available| <= |AllSlots|
  {
    match q
    case NoDate => Err(DateRequired)
    case BadDate => Err(InvalidDate)
    case OnDate(day) =>
      var booked := BookedSlots(rows, day);
      var available := FreeSlots(booked);
      Ok(SlotReport(available, booked, |available|))
  }

  /** A day with no open booking offers every slot. */
  lemma FreeDayOffersAll(rows: seq<BookingRow>, day: int)
    requires forall i | 0 <= i < |rows| :: !(rows[i].date == day && Active(rows[i].status))
    ensures var r := AvailableTimeSlots(rows, OnDate(day)); r.Ok? && r.value.available == AllSlots
  {
    assert BookedSlots(rows, day) == {};
  }

  /** A pending or confirmed booking removes its slot for every user, whoever made it. */
  lemma BookingHoldsSlot(rows: seq<BookingRow>, k: nat)
    requires k < |rows| && Active(rows[k].status)
    ensures var r := AvailableTimeSlots(rows, OnDate(rows[k].date)); r.Ok? && rows[k].timeSlot !in r.value.available
  {
  }
}

=== FILE: bookings.dfy ===
/**
 * The `Booking` model (bookings/models.py): cancellation, service-area
 * membership, the distance to the nearest area centre and the location
 * summary. Dates are day numbers; `today` is a parameter.
 */
module Bookings {
  import opened Common
  import opened Geo
  import Addresses

  datatype BookingStatus = Pending | Confirmed | Completed | Cancelled

  /** Pending and confirmed bookings hold their slot. */
  predicate Active(s: BookingStatus)
  {
    s == Pending || s == Confirmed
  }

  /** What the checks over other bookings read of a booking. */
  datatype BookingRow = BookingRow(id: nat, user: nat, date: int, timeSlot: string, status: BookingStatus)

  /** `can_cancel`, stated over the two columns it reads. */
  function Cancellable(status: BookingStatus, date: int, today: int): (ok: bool)
    ensures ok <==> status !in {Completed, Cancelled} && today < date
  {
    if status == Completed || status == Cancelled then false
    else if date <= today then false
    else true
  }

  /** `is_in_service_area`: a booking without both coordinates truthy is accepted. */
  function InServiceArea(dist: DistanceFn, areas: seq<ServiceArea>, lat: Option<int>, lng: Option<int>): (r: bool)
    ensures !(Truthy(lat) && Truthy(lng)) ==> r
    ensures Truthy(lat) && Truthy(lng) ==> (r <==> Served(dist, areas, Point(lat.value, lng.value)))
  {
    if !Truthy(lat) || !Truthy(lng) then true
    else Served(dist, areas, Point(lat.value, lng.value))
  }

  /**
   * A booking exactly on the equator or the prime meridian counts as having
   * no coordinates, so it is in the service area whatever the areas are.
   */
  lemma ZeroCoordinateAlwaysServed(dist: DistanceFn, areas: seq<ServiceArea>, lng: int)
    ensures InServiceArea(dist, areas, Some(0), Some(lng))
  {
  }

  /** `distance_from_center`: the least distance from an active area's centre, if any. */
  function CenterDistance(dist: DistanceFn, areas: seq<ServiceArea>, lat: Option<int>, lng: Option<int>): (r: Option<Km>)
    ensures r.None? <==> !(Truthy(lat) && Truthy(lng)) || ActiveAreas(areas) == []
    ensures r.Some? ==> exists i | 0 <= i < |areas| ::
      areas[i].active && r.value == dist(areas[i].center, Point(lat.value, lng.value))
    ensures r.Some? ==> forall i | 0 <= i < |areas| && areas[i].active ::
      r.value <= dist(areas[i].center, Point(lat.value, lng.value))
  {
    if !Truthy(lat) || !Truthy(lng) then None
    else
      var act := ActiveAreas(areas);
      if act == [] then None
      else
        var p := Point(lat.value, lng.value);
        var i := NearestArea(dist, act, p);
        assert act[i] in areas;
        Some(dist(act[i].center, p))
  }

  datatype SavedAddressRef = SavedAddressRef(id: nat, addressType: string)

  datatype LocationSummary = LocationSummary(
    coordinates: Option<Point>,
    address: string,
    inServiceArea: bool,
    savedAddress: Option<SavedAddressRef>)

  /**
   * `get_location_summary`: coordinates only when both are truthy, the
   * service address or "Not specified", the area check, and the saved
   * address's id and type when one is linked.
   */
  function Summary(dist: DistanceFn, areas: seq<ServiceArea>, lat: Option<int>, lng: Option<int>,
                   serviceAddress: Option<string>, address: Option<Addresses.Address>): (s: LocationSummary)
    ensures s.coordinates.Some? <==> Truthy(lat) && Truthy(lng)
    ensures s.coordinates.Some? ==> s.coordinates.value == Point(lat.value, lng.value)
    ensures s.address == (if serviceAddress.Some? && serviceAddress.value != "" then serviceAddress.value else "Not specified")
    ensures s.inServiceArea == InServiceArea(dist, areas, lat, lng)
    ensures s.savedAddress.Some? <==> address.Some?
    ensures address.Some? ==> s.savedAddress.value == SavedAddressRef(address.value.id, address.value.addressType)
  {
    LocationSummary(
      if Truthy(lat) && Truthy(lng) then Some(Point(lat.value, lng.value)) else None,
      if serviceAddress.Some? && serviceAddress.value != "" then serviceAddress.value else "Not specified",
      InServiceArea(dist, areas, lat, lng),
      if address.Some? then Some(SavedAddressRef(address.value.id, address.value.addressType)) else None)
  }

  class Booking {
    const id: nat
    const user: nat
    var vehicleType: string
    var date: int
    var timeSlot: string
    var status: BookingStatus
    var notes: Option<string>
    var lat: Option<int>
    var lng: Option<int>
    var serviceAddress: Option<string>
    var address: Option<Addresses.Address>

    /** `Booking.objects.create`: a pending booking with the given columns. */
    constructor (id: nat, user: nat, vehicleType: string, date: int, timeSlot: string, notes: Option<string>,
                 lat: Option<int>, lng: Option<int>, serviceAddress: Option<string>, address: Option<Addresses.Address>)
      ensures this.id == id && this.user == user && this.vehicleType == vehicleType
      ensures this.date == date && this.timeSlot == timeSlot && status == Pending
      ensures this.lat == lat && this.lng == lng && this.serviceAddress == serviceAddress
      ensures this.notes == notes && this.address == address
    {
      this.id := id;
      this.user := user;
      this.vehicleType := vehicleType;
      this.date := date;
      this.timeSlot := timeSlot;
      this.status := Pending;
      this.notes := notes;
      this.lat := lat;
      this.lng := lng;
      this.serviceAddress := serviceAddress;
      this.address := address;
    }

    function Row(): BookingRow
      reads this
    {
      BookingRow(id, user, date, timeSlot, status)
    }

    /** Every column but the status is as it was. */
    twostate predicate ColumnsKept()
      reads this
    {
      && vehicleType == old(vehicleType) && date == old(date) && timeSlot == old(timeSlot)
      && notes == old(notes) && lat == old(lat) && lng == old(lng)
      && serviceAddress == old(serviceAddress) && address == old(address)
    }

    predicate CanCancel(today: int)
      reads this
    {
      Cancellable(status, date, today)
    }

    /** `cancel`: cancels and reports true exactly when the booking could be cancelled. */
    method Cancel(today: int) returns (ok: bool)
      modifies this
      ensures ok == old(CanCancel(today))
      ensures ok ==> status == Cancelled
      ensures !ok ==> status == old(status)
      ensures !CanCancel(today)
      ensures date == old(date) && timeSlot == old(timeSlot) && vehicleType == old(vehicleType)
      ensures notes == old(notes) && lat == old(lat) && lng == old(lng)
      ensures serviceAddress == old(serviceAddress) && address == old(address)
    {
      if CanCancel(today) {
        status := Cancelled;
        ok := true;
      } else {
        ok := false;
      }
    }

    predicate IsInServiceArea(dist: DistanceFn, areas: seq<ServiceArea>)
      reads this
    {
      InServiceArea(dist, areas, lat, lng)
    }

    function DistanceFromCenter(dist: DistanceFn, areas: seq<ServiceArea>): Option<Km>
      reads this
    {
      CenterDistance(dist, areas, lat, lng)
    }

    function GetLocationSummary(dist: DistanceFn, areas: seq<ServiceArea>): LocationSummary
      reads this
    {
      Summary(dist, areas, lat, lng, serviceAddress, address)
    }
  }

  function Rows(bs: seq<Booking>): (r: seq<BookingRow>)
    reads bs
    ensures |r| == |bs| && forall i | 0 <= i < |bs| :: r[i] == bs[i].Row()
  {
    seq(|bs|, i reads bs requires 0 <= i < |bs| => bs[i].Row())
  }

  /**
   * The duplicate rule shared by both booking serializers: the user already
   * holds a pending or confirmed booking for that date and slot, the
   * booking being updated excepted.
   */
  predicate HasDuplicate(rows: seq<BookingRow>, user: nat, date: int, slot: string, exclude: Option<nat>)
  {
    exists i | 0 <= i < |rows| ::
      && rows[i].user == user && rows[i].date == date && rows[i].timeSlot == slot
      && Active(rows[i].status) && (exclude.None? || rows[i].id != exclude.value)
  }

  /** An update that keeps its own date and slot never collides with itself. */
  lemma OwnRowNeverDuplicate(rows: seq<BookingRow>, k: nat)
    requires k < |rows| && UniqueIds(rows, RowId)
    requires forall i | 0 <= i < |rows| && i != k ::
      !(rows[i].user == rows[k].user && rows[i].date == rows[k].date && rows[i].timeSlot == rows[k].timeSlot)
    ensures !HasDuplicate(rows, rows[k].user, rows[k].date, rows[k].timeSlot, Some(rows[k].id))
  {
  }

  /** Cancelling a booking frees its slot for its owner. */
  lemma CancelledRowsNeverBlock(rows: seq<BookingRow>, k: nat, user: nat, date: int, slot: string, exclude: Option<nat>)
    requires k < |rows| && HasDuplicate(rows, user, date, slot, exclude)
    requires forall i | 0 <= i < |rows| && i != k ::
      !(rows[i].user == user && rows[i].date == date && rows[i].timeSlot == slot && Active(rows[i].status))
    ensures !HasDuplicate(rows[k := rows[k].(status := Cancelled)], user, date, slot, exclude)
  {
  }

  function RowId(r: BookingRow): nat { r.id }
}

=== FILE: common.dfy ===
/**
 * Shared vocabulary: optional values, error returns, Python truthiness of
 * nullable numbers, and the string helpers the backend relies on
 * (`str.strip()`, `str.isdigit()`, `", ".join(filter(None, parts))`).
 */
module Common {

  datatype Option<T> = None | Some(value: T)
  {
    function GetOr(default: T): T
    {
      if Some? then value else default
    }
  }

  datatype Result<T, E> = Ok(value: T) | Err(error: E)

  /** A field of a request payload: left out, or given (for a nullable field, possibly as null). */
  datatype Field<T> = Omitted | Given(value: T)
  {
    /** The value a partial update writes: the given one, else the stored one. */
    function Or(stored: T): T
    {
      if Given? then value else stored
    }
  }

  /** Python truthiness of a nullable decimal column: None and zero are both false. */
  predicate Truthy(x: Option<int>)
  {
    x.Some? && x.value != 0
  }

  predicate IsDigit(c: char)
  {
    '0' <= c <= '9'
  }

  predicate AllDigits(s: string)
  {
    forall i | 0 <= i < |s| :: IsDigit(s[i])
  }

  /** `str.isdigit()` restricted to the ASCII digits: false for the empty string. */
  predicate IsDigitString(s: string)
  {
    |s| > 0 && AllDigits(s)
  }

  predicate StartsWith(s: string, prefix: string)
  {
    |prefix| <= |s| && s[..|prefix|] == prefix
  }

  /**
   * The characters `str.strip()` removes, which are those `str.isspace()`
   * accepts: tab through carriage return, the four ASCII separators
   * U+001C..U+001F, space, next line, no-break space, and the Unicode
   * space and line/paragraph separators.
   */
  predicate IsSpace(c: char)
  {
    || '\t' <= c <= '\r'
    || '\U{001C}' <= c <= ' '
    || c == '\U{0085}' || c == '\U{00A0}' || c == '\U{1680}'
    || '\U{2000}' <= c <= '\U{200A}'
    || c == '\U{2028}' || c == '\U{2029}' || c == '\U{202F}' || c == '\U{205F}' || c == '\U{3000}'
  }

  predicate AllSpace(s: string)
  {
    forall i | 0 <= i < |s| :: IsSpace(s[i])
  }

  predicate NoSpace(s: string)
  {
    forall i | 0 <= i < |s| :: !IsSpace(s[i])
  }

  function StripLeft(s: string): (r: string)
    ensures |r| <= |s| && r == s[|s| - |r|..]
    ensures AllSpace(s[..|s| - |r|])
    ensures r == [] || !IsSpace(r[0])
  {
    if |s| > 0 && IsSpace(s[0]) then StripLeft(s[1..]) else s
  }

  function StripRight(s: string): (r: string)
    ensures |r| <= |s| && r == s[..|r|]
    ensures AllSpace(s[|r|..])
    ensures r == [] || !IsSpace(r[|r| - 1])
  {
    if |s| > 0 && IsSpace(s[|s| - 1]) then
      var r := StripRight(s[..|s| - 1]);
      assert s[|r|..] == s[..|s| - 1][|r|..] + [s[|s| - 1]];
      r
    else s
  }

  /** `str.strip()`: drops leading and trailing whitespace, keeps the middle. */
  function Strip(s: string): (r: string)
  {
    StripRight(StripLeft(s))
  }

  /** A string strips to nothing exactly when it is all whitespace (`not s.strip()`). */
  lemma StripBlank(s: string)
    ensures Strip(s) == "" <==> AllSpace(s)
  {
    var l := StripLeft(s);
    if Strip(s) == "" {
      assert l == [];
      assert s[..|s|] == s;
    } else {
      var r := Strip(s);
      assert !IsSpace(r[0]);
      assert r[0] == l[0] == s[|s| - |l|];
    }
  }

  /** Text with no whitespace at all is left as it is by `Strip`. */
  lemma StripNoSpace(s: string)
    requires NoSpace(s)
    ensures Strip(s) == s
  {
    assert StripLeft(s) == s;
  }

  /** Text that starts and ends with a non-space character is left as it is by `Strip`, inner spaces included. */
  lemma StripTrimmed(s: string)
    requires |s| > 0 && !IsSpace(s[0]) && !IsSpace(s[|s| - 1])
    ensures Strip(s) == s
  {
    assert StripLeft(s) == s;
  }

  /** Stripping twice is stripping once. */
  lemma StripIdempotent(s: string)
    ensures Strip(Strip(s)) == Strip(s)
  {
    var l := StripLeft(s);
    var r := StripRight(l);
    if r != [] {
      assert r[0] == l[0];
      assert StripLeft(r) == r;
    }
  }

  function Join(parts: seq<string>, sep: string): (r: string)
  {
    if |parts| == 0 then ""
    else if |parts| == 1 then parts[0]
    else parts[0] + sep + Join(parts[1..], sep)
  }

  /** `filter(None, parts)` on strings: keeps the non-empty parts, in order. */
  function NonEmpty(parts: seq<string>): (r: seq<string>)
    ensures |r| <= |parts|
    ensures forall i | 0 <= i < |r| :: r[i] != "" && r[i] in parts
    ensures r == [] <==> forall i | 0 <= i < |parts| :: parts[i] == ""
  {
    if |parts| == 0 then []
    else (if parts[0] == "" then [] else [parts[0]]) + NonEmpty(parts[1..])
  }

  /** `sep.join(filter(None, parts))`. */
  function JoinNonEmpty(parts: seq<string>, sep: string): string
  {
    Join(NonEmpty(parts), sep)
  }

  function TotalLength(parts: seq<string>): nat
  {
    if |parts| == 0 then 0 else |parts[0]| + TotalLength(parts[1..])
  }

  /** The joined text is exactly the parts plus one separator between each pair. */
  lemma {:induction false} JoinLength(parts: seq<string>, sep: string)
    requires |parts| > 0
    ensures |Join(parts, sep)| == TotalLength(parts) + (|parts| - 1) * |sep|
  {
    if |parts| > 1 {
      JoinLength(parts[1..], sep);
      assert (|parts| - 2) * |sep| + |sep| == (|parts| - 1) * |sep|;
    }
  }

  /** Joining the non-empty parts gives the empty text only when every part is empty. */
  lemma JoinNonEmptyBlank(parts: seq<string>, sep: string)
    ensures JoinNonEmpty(parts, sep) == "" <==> forall i | 0 <= i < |parts| :: parts[i] == ""
  {
    var kept := NonEmpty(parts);
    if |kept| > 0 {
      JoinLength(kept, sep);
      TotalLengthAtLeastFirst(kept);
    }
  }

  lemma TotalLengthAtLeastFirst(parts: seq<string>)
    requires |parts| > 0
    ensures TotalLength(parts) >= |parts[0]|
  {
  }

  /** A single non-empty part is returned as it is, with no separator. */
  lemma JoinNonEmptySingle(parts: seq<string>, sep: string, k: nat)
    requires k < |parts| && parts[k] != ""
    requires forall i | 0 <= i < |parts| && i != k :: parts[i] == ""
    ensures JoinNonEmpty(parts, sep) == parts[k]
  {
    NonEmptySingle(parts, k);
  }

  lemma {:induction false} NonEmptySingle(parts: seq<string>, k: nat)
    requires k < |parts| && parts[k] != ""
    requires forall i | 0 <= i < |parts| && i != k :: parts[i] == ""
    ensures NonEmpty(parts) == [parts[k]]
  {
    if k == 0 {
      assert NonEmpty(parts[1..]) == [];
    } else {
      NonEmptySingle(parts[1..], k - 1);
    }
  }

  function DigitChar(d: int): (c: char)
    requires 0 <= d < 10
    ensures IsDigit(c)
  {
    ('0' as int + d) as char
  }

  function DigitValue(c: char): (d: int)
    requires IsDigit(c)
    ensures 0 <= d < 10
  {
    c as int - '0' as int
  }

  /** `int(s)` for a string of ASCII digits; the empty string reads as zero. */
  function ParseDecimal(s: string): nat
    requires AllDigits(s)
  {
    if |s| == 0 then 0 else ParseDecimal(s[..|s| - 1]) * 10 + DigitValue(s[|s| - 1])
  }

  /** `str(n)` for a natural number: its decimal digits, without leading zeros. */
  function DecimalString(n: nat): (s: string)
    ensures IsDigitString(s)
    ensures ParseDecimal(s) == n
    ensures n >= 10 ==> s[0] != '0'
  {
    if n < 10 then [DigitChar(n)]
    else
      var s := DecimalString(n / 10) + [DigitChar(n % 10)];
      assert s[..|s| - 1] == DecimalString(n / 10);
      s
  }

  /** Six-digit numbers print as exactly six digits. */
  lemma SixDigits(n: nat)
    requires 100000 <= n <= 999999
    ensures |DecimalString(n)| == 6
  {
    var n1 := n / 10;
    var n2 := n1 / 10;
    var n3 := n2 / 10;
    var n4 := n3 / 10;
    var n5 := n4 / 10;
    assert 1 <= n5 < 10;
    assert |DecimalString(n4)| == 2;
    assert |DecimalString(n3)| == 3;
    assert |DecimalString(n2)| == 4;
    assert |DecimalString(n1)| == 5;
  }

  function Zeros(k: nat): (z: string)
    ensures |z| == k && AllDigits(z)
    ensures forall i | 0 <= i < k :: z[i] == '0'
  {
    if k == 0 then "" else "0" + Zeros(k - 1)
  }

  /** Python's `format(n, "0<width>d")`: left-padded with zeros to at least `width` characters. */
  function ZeroPadded(n: nat, width: nat): (s: string)
  {
    var digits := DecimalString(n);
    (if |digits| < width then Zeros(width - |digits|) else "") + digits
  }

  /** Leading zeros do not change the value a digit string reads as. */
  lemma {:induction false} ParseLeadingZeros(k: nat, s: string)
    requires AllDigits(s)
    ensures AllDigits(Zeros(k) + s)
    ensures ParseDecimal(Zeros(k) + s) == ParseDecimal(s)
    decreases |s|, k
  {
    var t := Zeros(k) + s;
    if |s| == 0 {
      if k > 0 {
        assert t == "0" + Zeros(k - 1) + "";
        assert t[..|t| - 1] == Zeros(k - 1) + "";
        ParseLeadingZeros(k - 1, "");
      }
    } else {
      assert t[..|t| - 1] == Zeros(k) + s[..|s| - 1];
      ParseLeadingZeros(k, s[..|s| - 1]);
    }
  }

  /** Padding is undone by reading the text back as a number. */
  lemma ZeroPaddedRoundTrip(n: nat, width: nat)
    ensures IsDigitString(ZeroPadded(n, width))
    ensures |ZeroPadded(n, width)| == if |DecimalString(n)| < width then width else |DecimalString(n)|
    ensures ParseDecimal(ZeroPadded(n, width)) == n
  {
    var digits := DecimalString(n);
    if |digits| < width {
      ParseLeadingZeros(width - |digits|, digits);
    } else {
      assert ZeroPadded(n, width) == digits;
    }
  }

  /** No two rows share an id. */
  predicate UniqueIds<T>(rows: seq<T>, id: T -> nat)
  {
    forall i, j | 0 <= i < j < |rows| :: id(rows[i]) != id(rows[j])
  }

  /**
   * What `Model.save()` does to a table: the row with the saved object's
   * primary key is overwritten in place, or the object is appended as a new row.
   */
  function Upsert<T>(rows: seq<T>, x: T, id: T -> nat): (r: seq<T>)
    ensures x in r
    ensures forall y | y in rows && id(y) != id(x) :: y in r
    ensures UniqueIds(rows, id) ==> UniqueIds(r, id)
    ensures UniqueIds(rows, id) ==> forall y | y in r :: y == x || (y in rows && id(y) != id(x))
  {
    if |rows| == 0 then [x]
    else if id(rows[0]) == id(x) then [x] + rows[1..]
    else
      var t := Upsert(rows[1..], x, id);
      assert forall y | y in rows[1..] :: y in rows;
      [rows[0]] + t
  }

  /** `queryset.filter(...).delete()`: the rows `drop` does not select, in their order. */
  function DeleteWhere<T>(rows: seq<T>, drop: T -> bool): (r: seq<T>)
    ensures forall y | y in r :: y in rows && !drop(y)
    ensures forall y | y in rows && !drop(y) :: y in r
    ensures |r| <= |rows|
  {
    if |rows| == 0 then []
    else (if drop(rows[0]) then [] else [rows[0]]) + DeleteWhere(rows[1..], drop)
  }

  /** Concatenation is associative. */
  lemma ConcatAssoc<T>(a: seq<T>, b: seq<T>, c: seq<T>)
    ensures (a + b) + c == a + (b + c)
  {
  }

  /** Deleting rows never creates a duplicate key. */
  lemma {:induction false} DeleteWhereUnique<T>(rows: seq<T>, drop: T -> bool, id: T -> nat)
    requires UniqueIds(rows, id)
    ensures UniqueIds(DeleteWhere(rows, drop), id)
  {
    if |rows| > 0 {
      var rest := DeleteWhere(rows[1..], drop);
      assert UniqueIds(rows[1..], id);
      DeleteWhereUnique(rows[1..], drop, id);
      forall y | y in rest ensures id(y) != id(rows[0]) {
        var j :| 0 <= j < |rows[1..]| && rows[1..][j] == y;
        assert rows[j + 1] == y;
      }
    }
  }

  /** `r` is `s` with some elements left out, the rest in their order. */
  predicate SubsequenceOf<T(==)>(r: seq<T>, s: seq<T>)
    decreases |s|
  {
    if r == [] then true
    else if s == [] then false
    else if r[0] == s[0] then SubsequenceOf(r[1..], s[1..])
    else SubsequenceOf(r, s[1..])
  }

  /** A delete keeps the surviving rows in their order. */
  lemma {:induction false} DeleteWhereSubsequence<T>(rows: seq<T>, drop: T -> bool)
    ensures SubsequenceOf(DeleteWhere(rows, drop), rows)
  {
    if |rows| > 0 {
      var rest := DeleteWhere(rows[1..], drop);
      DeleteWhereSubsequence(rows[1..], drop);
      if !drop(rows[0]) {
        assert DeleteWhere(rows, drop) == [rows[0]] + rest;
        assert ([rows[0]] + rest)[1..] == rest;
      } else {
        assert DeleteWhere(rows, drop) == rest;
        if rest != [] {
          assert rest[0] in rest;
          assert rest[0] != rows[0];
        }
      }
    }
  }

  /** A delete that selects nothing keeps every row. */
  lemma {:induction false} DeleteWhereKeepsAll<T>(rows: seq<T>, drop: T -> bool)
    requires forall y | y in rows :: !drop(y)
    ensures DeleteWhere(rows, drop) == rows
  {
    if |rows| > 0 {
      assert forall y | y in rows[1..] :: y in rows;
      DeleteWhereKeepsAll(rows[1..], drop);
      assert rows == [rows[0]] + rows[1..];
    }
  }

  /** Deleting the row at position `k`. */
  function RemoveAt<T>(s: seq<T>, k: nat): (r: seq<T>)
    requires k < |s|
    ensures |r| == |s| - 1
    ensures forall i | 0 <= i < k :: r[i] == s[i]
    ensures forall i | k <= i < |r| :: r[i] == s[i + 1]
    ensures forall y | y in r :: y in s
  {
    s[..k] + s[k + 1..]
  }

  lemma RemoveAtUnique<T>(s: seq<T>, k: nat, id: T -> nat)
    requires k < |s| && UniqueIds(s, id)
    ensures UniqueIds(RemoveAt(s, k), id)
  {
    var r := RemoveAt(s, k);
    forall i, j | 0 <= i < j < |r| ensures id(r[i]) != id(r[j]) {
      var i' := if i < k then i else i + 1;
      var j' := if j < k then j else j + 1;
      assert r[i] == s[i'] && r[j] == s[j'];
    }
  }

  /** Appending a row whose key is new keeps the keys distinct. */
  lemma AppendUnique<T>(rows: seq<T>, x: T, id: T -> nat)
    requires UniqueIds(rows, id)
    requires forall y | y in rows :: id(y) != id(x)
    ensures UniqueIds(rows + [x], id)
  {
    var r := rows + [x];
    forall i, j | 0 <= i < j < |r| ensures id(r[i]) != id(r[j]) {
      assert r[i] == rows[i];
      if j < |rows| {
        assert r[j] == rows[j];
      }
    }
  }
}

=== FILE: geo.dfy ===
/**
 * Coordinates and service areas (`ServiceArea` in locations/models.py).
 *
 * Latitudes and longitudes are stored as DECIMAL(9,6) columns; here they are
 * integers counting millionths of a degree. The great-circle (haversine)
 * distance is not modelled: every operation receives it as a parameter of
 * type `DistanceFn`, a total function returning a non-negative number of
 * kilometres, and calls it with its arguments in the order the source does.
 */
module Geo {
  import opened Common
  import Sorting

  /** Millionths of a degree per degree. */
  const Micro: int := 1_000_000

  datatype Point = Point(lat: int, lng: int)

  type Km = r: real | 0.0 <= r

  /** The haversine distance in kilometres, left abstract. */
  type DistanceFn = (Point, Point) -> Km

  /** A number read from a request: absent, not parseable by `float()`, or a value. */
  datatype NumberInput = Missing | Malformed | Number(micro: int)

  predicate LatitudeInRange(lat: int)
  {
    -90 * Micro <= lat <= 90 * Micro
  }

  predicate LongitudeInRange(lng: int)
  {
    -180 * Micro <= lng <= 180 * Micro
  }

  const DefaultRadiusKm: real := 30.0

  datatype ServiceArea = ServiceArea(name: string, center: Point, radiusKm: real, active: bool)

  /** A service area created with only its name and centre. */
  function NewServiceArea(name: string, center: Point): (a: ServiceArea)
    ensures a.name == name && a.center == center
    ensures a.radiusKm == DefaultRadiusKm && a.active
  {
    ServiceArea(name, center, DefaultRadiusKm, true)
  }

  /** `ServiceArea.contains`: the distance from the centre is at most the radius. */
  predicate Contains(dist: DistanceFn, area: ServiceArea, p: Point)
  {
    dist(area.center, p) <= area.radiusKm
  }

  /** `ServiceArea.objects.filter(active=True)`, in table order. */
  function ActiveAreas(areas: seq<ServiceArea>): (r: seq<ServiceArea>)
    ensures |r| <= |areas|
    ensures forall i | 0 <= i < |r| :: r[i].active && r[i] in areas
    ensures forall i | 0 <= i < |areas| && areas[i].active :: areas[i] in r
    ensures r == [] <==> forall i | 0 <= i < |areas| :: !areas[i].active
  {
    if |areas| == 0 then []
    else (if areas[0].active then [areas[0]] else []) + ActiveAreas(areas[1..])
  }

  /** The active areas that contain `p`, in table order. */
  function CoveringAreas(dist: DistanceFn, areas: seq<ServiceArea>, p: Point): (r: seq<ServiceArea>)
    ensures forall i | 0 <= i < |r| :: r[i].active && Contains(dist, r[i], p) && r[i] in areas
    ensures forall i | 0 <= i < |areas| && areas[i].active && Contains(dist, areas[i], p) :: areas[i] in r
    ensures r == [] <==> forall i | 0 <= i < |areas| :: !(areas[i].active && Contains(dist, areas[i], p))
  {
    if |areas| == 0 then []
    else
      (if areas[0].active && Contains(dist, areas[0], p) then [areas[0]] else [])
      + CoveringAreas(dist, areas[1..], p)
  }

  /**
   * The open-world coverage rule shared by bookings and addresses: with no
   * active service area every point is served; otherwise some active area
   * must contain it.
   */
  predicate Served(dist: DistanceFn, areas: seq<ServiceArea>, p: Point)
  {
    ActiveAreas(areas) == [] || CoveringAreas(dist, areas, p) != []
  }

  lemma ServedIff(dist: DistanceFn, areas: seq<ServiceArea>, p: Point)
    ensures Served(dist, areas, p) <==>
      (forall i | 0 <= i < |areas| :: !areas[i].active)
      || (exists i | 0 <= i < |areas| :: areas[i].active && Contains(dist, areas[i], p))
  {
  }

  /** Sort key "distance from the centre to `p`", used to pick the nearest area. */
  function CenterDistanceKey(dist: DistanceFn, p: Point): ServiceArea -> Sorting.Key
  {
    (a: ServiceArea) => (dist(a.center, p) as real, 0.0)
  }

  /** Python's `min(areas, key=distance)`: the first area whose centre is closest. */
  function NearestArea(dist: DistanceFn, areas: seq<ServiceArea>, p: Point): (i: nat)
    requires |areas| > 0
    ensures i < |areas|
    ensures forall j | 0 <= j < |areas| :: dist(areas[i].center, p) <= dist(areas[j].center, p)
    ensures forall j | 0 <= j < i :: dist(areas[i].center, p) < dist(areas[j].center, p)
  {
    var key := CenterDistanceKey(dist, p);
    var i := Sorting.FirstMin(areas, key);
    assert forall j | 0 <= j < |areas| :: key(areas[j]) == (dist(areas[j].center, p), 0.0);
    i
  }

  /**
   * `round(d, 1)` expressed in tenths of a kilometre: the nearest integer to
   * ten times `d`, halves going to the even neighbour as Python's `round` does.
   */
  function RoundTenths(d: Km): (t: int)
    ensures t >= 0
    ensures -0.5 <= (t as real) - 10.0 * d <= 0.5
  {
    var x := 10.0 * d;
    var f := x.Floor;
    var frac := x - f as real;
    if frac < 0.5 then f
    else if frac > 0.5 then f + 1
    else if f % 2 == 0 then f
    else f + 1
  }

  /** Rounding to tenths never reverses the order of two distances. */
  lemma RoundTenthsMonotone(d1: Km, d2: Km)
    requires d1 <= d2
    ensures RoundTenths(d1) <= RoundTenths(d2)
  {
    var x1, x2 := 10.0 * d1, 10.0 * d2;
    var f1, f2 := x1.Floor, x2.Floor;
    assert f1 <= f2;
  }
}

=== FILE: matching.dfy ===
/**
 * Provider selection and reassignment (bookings/services/assignment_service.py):
 * the nearest provider within a radius with a rating tie-break, the plain
 * running minimum used for first assignment, the arrival estimate, and
 * reassignment after a rejection. Distance is the abstract `DistanceFn`,
 * called as (booking, provider) as the source does.
 */
module Matching {
  import opened Common
  import opened Geo
  import Sorting
  import Bookings
  import opened Providers

  /** The default search radius of `find_nearest_available_provider`. */
  const DefaultMaxKm: real := 10.0

  /**
   * A provider the nearest search keeps: eligible, neither coordinate zero,
   * within `maxKm` of the booking, and not the excluded provider.
   * The source never excludes anyone here; `exclude` is what the corrected
   * reassignment passes (see `ReassignTarget`).
   */
  predicate Keeps(dist: DistanceFn, b: Point, p: ProviderRow, maxKm: real, exclude: Option<nat>)
  {
    && Eligible(p) && Truthy(p.lat) && Truthy(p.lng)
    && dist(b, Position(p)) <= maxKm
    && (exclude.None? || p.id != exclude.value)
  }

  /** One entry of the list the search builds: a provider's index, its distance and rating. */
  datatype Candidate = Candidate(index: nat, distance: Km, rating: Rating)

  /** Sort key `(distance, -rating)`, the rating in units of one star. */
  function CandidateKey(c: Candidate): Sorting.Key
  {
    (c.distance as real, -(c.rating as real) / 100.0)
  }

  /** What the list holds for a kept provider. */
  predicate Entry(dist: DistanceFn, b: Point, ps: seq<ProviderRow>, maxKm: real, exclude: Option<nat>, c: Candidate)
  {
    && c.index < |ps| && Keeps(dist, b, ps[c.index], maxKm, exclude)
    && c.distance == dist(b, Position(ps[c.index])) && c.rating == ps[c.index].rating
  }

  /** The candidates the loop has appended after looking at the first `n` providers, in provider order. */
  function Kept(dist: DistanceFn, b: Point, ps: seq<ProviderRow>, n: nat, maxKm: real, exclude: Option<nat>): (r: seq<Candidate>)
    requires n <= |ps|
    ensures forall k | 0 <= k < |r| :: Entry(dist, b, ps, maxKm, exclude, r[k]) && r[k].index < n
    ensures forall k, l | 0 <= k < l < |r| :: r[k].index < r[l].index
    ensures forall j | 0 <= j < n && Keeps(dist, b, ps[j], maxKm, exclude) ::
      exists k | 0 <= k < |r| :: r[k].index == j
    decreases n
  {
    if n == 0 then []
    else
      var prev := Kept(dist, b, ps, n - 1, maxKm, exclude);
      var p := ps[n - 1];
      if Keeps(dist, b, p, maxKm, exclude) then
        var r := prev + [Candidate(n - 1, dist(b, Position(p)), p.rating)];
        assert r[|prev|].index == n - 1;
        assert forall k | 0 <= k < |prev| :: r[k] == prev[k];
        r
      else prev
  }

  /** A chosen provider: its index among the providers searched, and its distance. */
  datatype Match = Match(index: nat, distance: Km)

  /** The whole kept list for a booking at `b`. */
  function AllKept(dist: DistanceFn, b: Point, ps: seq<ProviderRow>, maxKm: real, exclude: Option<nat>): seq<Candidate>
  {
    Kept(dist, b, ps, |ps|, maxKm, exclude)
  }

  /**
   * `find_nearest_available_provider`: nothing for a booking with a falsy
   * coordinate or when nothing is kept; otherwise the head of the kept list
   * sorted by distance, then by rating descending.
   */
  function Nearest(dist: DistanceFn, bLat: Option<int>, bLng: Option<int>, ps: seq<ProviderRow>,
                   maxKm: real, exclude: Option<nat>): (r: Option<Match>)
    ensures r.Some? ==> Truthy(bLat) && Truthy(bLng) && r.value.index < |ps|
  {
    if !Truthy(bLat) || !Truthy(bLng) then None
    else
      var cands := AllKept(dist, Point(bLat.value, bLng.value), ps, maxKm, exclude);
      if cands == [] then None
      else
        var best := Sorting.SortBy(cands, CandidateKey)[0];
        assert best in multiset(Sorting.SortBy(cands, CandidateKey));
        Some(Match(best.index, best.distance))
  }

  /** The search finds nothing exactly when the booking has a falsy coordinate or no provider is kept. */
  lemma NearestNoneIff(dist: DistanceFn, bLat: Option<int>, bLng: Option<int>,
                       ps: seq<ProviderRow>, maxKm: real, exclude: Option<nat>)
    ensures Nearest(dist, bLat, bLng, ps, maxKm, exclude).None? <==>
      !Truthy(bLat) || !Truthy(bLng)
      || forall j | 0 <= j < |ps| :: !Keeps(dist, Point(bLat.value, bLng.value), ps[j], maxKm, exclude)
  {
    if Truthy(bLat) && Truthy(bLng) {
      var b := Point(bLat.value, bLng.value);
      var cands := AllKept(dist, b, ps, maxKm, exclude);
      if cands != [] {
        assert Entry(dist, b, ps, maxKm, exclude, cands[0]);
      }
    }
  }

  /** The search's result as the first least entry of the kept list. */
  lemma NearestIsFirstMin(dist: DistanceFn, bLat: Option<int>, bLng: Option<int>,
                          ps: seq<ProviderRow>, maxKm: real, exclude: Option<nat>)
    requires Nearest(dist, bLat, bLng, ps, maxKm, exclude).Some?
    ensures var cands := AllKept(dist, Point(bLat.value, bLng.value), ps, maxKm, exclude);
      && cands != []
      && var c := cands[Sorting.FirstMin(cands, CandidateKey)];
         Nearest(dist, bLat, bLng, ps, maxKm, exclude) == Some(Match(c.index, c.distance))
  {
    var cands := AllKept(dist, Point(bLat.value, bLng.value), ps, maxKm, exclude);
    Sorting.SortByHead(cands, CandidateKey);
  }

  /**
   * What the nearest search promises when it finds someone: a kept provider
   * with its own distance, no kept provider is nearer, none at the same
   * distance is rated higher, and a full tie goes to the provider listed first.
   */
  lemma {:induction false} NearestIsBest(dist: DistanceFn, bLat: Option<int>, bLng: Option<int>,
                                         ps: seq<ProviderRow>, maxKm: real, exclude: Option<nat>)
    requires Nearest(dist, bLat, bLng, ps, maxKm, exclude).Some?
    ensures var r := Nearest(dist, bLat, bLng, ps, maxKm, exclude);
      var b := Point(bLat.value, bLng.value);
      && Keeps(dist, b, ps[r.value.index], maxKm, exclude)
      && r.value.distance == dist(b, Position(ps[r.value.index]))
      && r.value.distance <= maxKm
    ensures var r := Nearest(dist, bLat, bLng, ps, maxKm, exclude);
      var b := Point(bLat.value, bLng.value);
      forall j | 0 <= j < |ps| && Keeps(dist, b, ps[j], maxKm, exclude) ::
        && r.value.distance <= dist(b, Position(ps[j]))
        && (dist(b, Position(ps[j])) == r.value.distance ==> ps[j].rating <= ps[r.value.index].rating)
        && (dist(b, Position(ps[j])) == r.value.distance && ps[j].rating == ps[r.value.index].rating ==>
              r.value.index <= j)
  {
    var b := Point(bLat.value, bLng.value);
    var cands := AllKept(dist, b, ps, maxKm, exclude);
    NearestIsFirstMin(dist, bLat, bLng, ps, maxKm, exclude);
    var best := cands[Sorting.FirstMin(cands, CandidateKey)];
    assert Entry(dist, b, ps, maxKm, exclude, best);
    forall j | 0 <= j < |ps| && Keeps(dist, b, ps[j], maxKm, exclude)
      ensures best.distance <= dist(b, Position(ps[j]))
      ensures dist(b, Position(ps[j])) == best.distance ==> ps[j].rating <= best.rating
      ensures dist(b, Position(ps[j])) == best.distance && ps[j].rating == best.rating ==> best.index <= j
    {
      FirstMinBeatsKept(dist, b, ps, maxKm, exclude, j);
    }
  }

  /** The first least entry of the kept list is no worse than any kept provider. */
  lemma FirstMinBeatsKept(dist: DistanceFn, b: Point, ps: seq<ProviderRow>, maxKm: real, exclude: Option<nat>, j: nat)
    requires j < |ps| && Keeps(dist, b, ps[j], maxKm, exclude)
    ensures AllKept(dist, b, ps, maxKm, exclude) != []
    ensures var cands := AllKept(dist, b, ps, maxKm, exclude);
      var best := cands[Sorting.FirstMin(cands, CandidateKey)];
      && best.distance <= dist(b, Position(ps[j]))
      && (dist(b, Position(ps[j])) == best.distance ==> ps[j].rating <= best.rating)
      && (dist(b, Position(ps[j])) == best.distance && ps[j].rating == best.rating ==> best.index <= j)
  {
    var cands := AllKept(dist, b, ps, maxKm, exclude);
    var k :| 0 <= k < |cands| && cands[k].index == j;
    var m := Sorting.FirstMin(cands, CandidateKey);
    assert Entry(dist, b, ps, maxKm, exclude, cands[k]);
    assert !Sorting.Below(CandidateKey(cands[k]), CandidateKey(cands[m]));
    if k < m {
      assert Sorting.Below(CandidateKey(cands[m]), CandidateKey(cands[k]));
    }
  }

  /** The search's loop: every kept provider appended in order. */
  method CollectCandidates(dist: DistanceFn, b: Point, rows: seq<ProviderRow>, maxKm: real, exclude: Option<nat>)
    returns (cands: seq<Candidate>)
    ensures cands == AllKept(dist, b, rows, maxKm, exclude)
  {
    cands := [];
    var i := 0;
    while i < |rows|
      invariant i <= |rows|
      invariant cands == Kept(dist, b, rows, i, maxKm, exclude)
    {
      var p := rows[i];
      if Eligible(p) && Truthy(p.lat) && Truthy(p.lng) {
        var d := dist(b, Position(p));
        if d <= maxKm && (exclude.None? || p.id != exclude.value) {
          cands := cands + [Candidate(i, d, p.rating)];
        }
      }
      i := i + 1;
    }
  }

  /**
   * The nearest search, written as the source's loop: it appends every kept
   * provider to a list in order, then sorts the list and takes its head.
   */
  method FindNearestAvailableProvider(dist: DistanceFn, booking: Bookings.Booking, providers: seq<ServiceProvider>,
                                      maxKm: real, exclude: Option<nat>)
    returns (r: Option<(ServiceProvider, Km)>)
    ensures var m := Nearest(dist, booking.lat, booking.lng, ProviderRows(providers), maxKm, exclude);
      && (r.None? <==> m.None?)
      && (r.Some? ==> r.value.0 == providers[m.value.index] && r.value.1 == m.value.distance)
  {
    if !Truthy(booking.lat) || !Truthy(booking.lng) {
      return None;
    }
    var rows := ProviderRows(providers);
    var b := Point(booking.lat.value, booking.lng.value);
    var cands := CollectCandidates(dist, b, rows, maxKm, exclude);
    if cands == [] {
      return None;
    }
    var sorted := Sorting.SortBy(cands, CandidateKey);
    assert sorted[0] in multiset(sorted);
    r := Some((providers[sorted[0].index], sorted[0].distance));
  }

  /**
   * Index of the first least present value, or nothing when no value is
   * present: the running minimum with a strict `<` that starts at infinity.
   */
  function FirstArgMin(xs: seq<Option<real>>): (r: Option<nat>)
    ensures r.None? <==> forall j | 0 <= j < |xs| :: xs[j].None?
    ensures r.Some? ==> r.value < |xs| && xs[r.value].Some?
    ensures r.Some? ==> forall j | 0 <= j < |xs| && xs[j].Some? :: xs[r.value].value <= xs[j].value
    ensures r.Some? ==> forall j | 0 <= j < r.value && xs[j].Some? :: xs[r.value].value < xs[j].value
    decreases |xs|
  {
    if |xs| == 0 then None
    else
      var n := |xs| - 1;
      var prev := FirstArgMin(xs[..n]);
      assert forall j | 0 <= j < n :: xs[..n][j] == xs[j];
      if xs[n].None? then prev
      else if prev.None? || xs[n].value < xs[prev.value].value then Some(n)
      else prev
  }

  /** A provider the first assignment considers: available, both coordinates truthy. */
  predicate Considered(p: ProviderRow)
  {
    p.isAvailable && Truthy(p.lat) && Truthy(p.lng)
  }

  /** The distance the first assignment computes for each provider, or nothing when skipped. */
  function Distances(dist: DistanceFn, b: Point, ps: seq<ProviderRow>): (r: seq<Option<real>>)
    ensures |r| == |ps|
    ensures forall j | 0 <= j < |ps| ::
      r[j] == if Considered(ps[j]) then Some(dist(b, Position(ps[j])) as real) else None
  {
    seq(|ps|, j requires 0 <= j < |ps| =>
      if Considered(ps[j]) then Some(dist(b, Position(ps[j])) as real) else None)
  }

  /**
   * `assign_provider_to_booking`: the first available provider with truthy
   * coordinates whose distance is strictly below every earlier one; no
   * verification or radius filter. A booking with a missing coordinate
   * gets nothing (the distance call fails and the error is swallowed).
   */
  method AssignProviderToBooking(dist: DistanceFn, booking: Bookings.Booking, providers: seq<ServiceProvider>,
                                 newId: nat, now: int)
    returns (r: Option<ServiceAssignment>)
    ensures booking.lat.None? || booking.lng.None? ==> r.None?
    ensures booking.lat.Some? && booking.lng.Some? ==>
      var k := FirstArgMin(Distances(dist, Point(booking.lat.value, booking.lng.value), ProviderRows(providers)));
      && (r.None? <==> k.None?)
      && (r.Some? ==> && fresh(r.value) && r.value.provider == providers[k.value]
                      && r.value.booking == booking && r.value.status == Assigned
                      && r.value.id == newId && r.value.assignedAt == now)
  {
    if booking.lat.None? || booking.lng.None? {
      return None;
    }
    var rows := ProviderRows(providers);
    var b := Point(booking.lat.value, booking.lng.value);
    ghost var ds := Distances(dist, b, rows);
    var nearest: Option<nat> := None;
    var minDistance: real := 0.0;
    var i := 0;
    while i < |rows|
      invariant i <= |rows|
      invariant nearest == FirstArgMin(ds[..i])
      invariant nearest.Some? ==> nearest.value < i && minDistance == ds[nearest.value].value
    {
      assert ds[..i + 1][..i] == ds[..i];
      var p := rows[i];
      if Considered(p) {
        var d := dist(b, Position(p)) as real;
        if nearest.None? || d < minDistance {
          minDistance := d;
          nearest := Some(i);
        }
      }
      i := i + 1;
    }
    assert ds[..i] == ds;
    if nearest.None? {
      return None;
    }
    var a := new ServiceAssignment(newId, booking, providers[nearest.value], Assigned, now, None);
    r := Some(a);
  }

  /** `calculate_eta`: now plus the whole minutes at 30 km/h plus a 10-minute buffer, in seconds. */
  function CalculateEta(d: Km, now: int): (eta: int)
    ensures eta >= now + 600
    ensures (eta - now) % 60 == 0
    ensures var minutes := (eta - now) / 60 - 10;
      (minutes as real) <= 2.0 * d < (minutes + 1) as real
  {
    now + 60 * ((d / 30.0 * 60.0).Floor + 10)
  }

  /** A farther provider never gets an earlier estimate. */
  lemma EtaMonotone(d1: Km, d2: Km, now: int)
    requires d1 <= d2
    ensures CalculateEta(d1, now) <= CalculateEta(d2, now)
  {
    assert d1 / 30.0 * 60.0 <= d2 / 30.0 * 60.0;
  }

  /** Some provider other than the rejecter is available, verified and located. */
  predicate HasAlternative(ps: seq<ProviderRow>, rejecter: nat)
  {
    exists j | 0 <= j < |ps| :: Eligible(ps[j]) && ps[j].id != rejecter
  }

  /** The provider the reassignment picks as written: the nearest search, rejecter included. */
  function ReassignTargetAsWritten(dist: DistanceFn, bLat: Option<int>, bLng: Option<int>,
                                   ps: seq<ProviderRow>, rejecter: nat): (r: Option<Match>)
    ensures r.Some? ==> r.value.index < |ps|
  {
    if !HasAlternative(ps, rejecter) then None
    else Nearest(dist, bLat, bLng, ps, DefaultMaxKm, None)
  }

  /** A distance under which only the point (1, 1) is near, 1 km away; everything else is 20 km away. */
  function OneNear(a: Point, b: Point): Km
  {
    if b == Point(1, 1) then 1.0 else 20.0
  }

  /** Provider 7, the rejecter, at (1, 1); provider 8 at (2, 2); both available and verified. */
  function RejecterAndOther(): seq<ProviderRow>
  {
    [ProviderRow(7, true, Verified, 0, Some(1), Some(1)), ProviderRow(8, true, Verified, 0, Some(2), Some(2))]
  }

  /**
   * The rejecter alone within 10 km and another eligible provider 20 km
   * away: the reassignment hands the booking straight back to the provider
   * who rejected it.
   */
  lemma RejecterReassignedAsWritten()
    ensures HasAlternative(RejecterAndOther(), 7)
    ensures ReassignTargetAsWritten(OneNear, Some(5), Some(5), RejecterAndOther(), 7) == Some(Match(0, 1.0))
    ensures RejecterAndOther()[0].id == 7
  {
    var ps := RejecterAndOther();
    var c := Candidate(0, 1.0, 0);
    assert Eligible(ps[1]) && ps[1].id != 7;
    OnlyRejecterKept();
    assert Sorting.SortBy([c], CandidateKey) == [c] by {
      assert [c][1..] == [];
    }
  }

  /** In that situation the search keeps the rejecter alone. */
  lemma OnlyRejecterKept()
    ensures AllKept(OneNear, Point(5, 5), RejecterAndOther(), DefaultMaxKm, None) == [Candidate(0, 1.0, 0)]
  {
    var ps := RejecterAndOther();
    var b := Point(5, 5);
    assert Keeps(OneNear, b, ps[0], DefaultMaxKm, None);
    assert !Keeps(OneNear, b, ps[1], DefaultMaxKm, None);
    assert Kept(OneNear, b, ps, 0, DefaultMaxKm, None) == [];
    assert Kept(OneNear, b, ps, 1, DefaultMaxKm, None) == [Candidate(0, 1.0, 0)];
  }

  /** The reassignment as evidently intended: the nearest search with the rejecter left out. */
  function ReassignTarget(dist: DistanceFn, bLat: Option<int>, bLng: Option<int>,
                          ps: seq<ProviderRow>, rejecter: nat): (r: Option<Match>)
    ensures r.Some? ==> r.value.index < |ps| && ps[r.value.index].id != rejecter
    ensures r.Some? ==> HasAlternative(ps, rejecter)
  {
    if !HasAlternative(ps, rejecter) then None
    else
      var r := Nearest(dist, bLat, bLng, ps, DefaultMaxKm, Some(rejecter));
      if r.Some? then NearestIsBest(dist, bLat, bLng, ps, DefaultMaxKm, Some(rejecter)); r else r
  }

  /**
   * `reassign_rejected_booking`, with the corrected search: no alternative
   * provider puts the booking back to pending; a failed search leaves it as
   * it is; otherwise a new assigned assignment with an arrival estimate is
   * created for a provider other than the rejecter and the booking is
   * confirmed.
   */
  method ReassignRejectedBooking(dist: DistanceFn, a: ServiceAssignment, providers: seq<ServiceProvider>,
                                 newId: nat, now: int)
    returns (r: Option<ServiceAssignment>)
    modifies a.booking
    ensures a.booking.ColumnsKept()
    ensures !HasAlternative(ProviderRows(providers), a.provider.id) ==>
      r.None? && a.booking.status == Bookings.Pending
    ensures var t := ReassignTarget(dist, a.booking.lat, a.booking.lng, ProviderRows(providers), a.provider.id);
      HasAlternative(ProviderRows(providers), a.provider.id) && t.None? ==>
        r.None? && a.booking.status == old(a.booking.status)
    ensures var t := ReassignTarget(dist, a.booking.lat, a.booking.lng, ProviderRows(providers), a.provider.id);
      && (r.Some? <==> t.Some?)
      && (r.Some? ==>
        && fresh(r.value) && r.value.id == newId && r.value.booking == a.booking
        && r.value.provider == providers[t.value.index] && r.value.provider.id != a.provider.id
        && r.value.status == Assigned && r.value.estimatedArrival == Some(CalculateEta(t.value.distance, now))
        && a.booking.status == Bookings.Confirmed)
  {
    var booking := a.booking;
    var rows := ProviderRows(providers);
    if !HasAlternative(rows, a.provider.id) {
      booking.status := Bookings.Pending;
      return None;
    }
    var result := FindNearestAvailableProvider(dist, booking, providers, DefaultMaxKm, Some(a.provider.id));
    if result.None? {
      return None;
    }
    var (provider, distance) := result.value;
    var eta := CalculateEta(distance, now);
    var created := new ServiceAssignment(newId, booking, provider, Assigned, now, Some(eta));
    booking.status := Bookings.Confirmed;
    r := Some(created);
  }
}

=== FILE: otp_auth.dfy ===
/**
 * Customer sign-in by one-time password (`SendOTPView` and `VerifyOTPView`
 * in accounts/api/views.py). The OTP and user tables are fields of
 * `OtpService`; the clock and the random digits are parameters.
 */
module OtpAuth {
  import opened Common
  import opened AccountUtils
  import opened Accounts

  /** Minimum seconds between two OTP requests for one number. */
  const OtpCooldownSeconds: int := 60
  /** Seconds after creation during which a code is accepted. */
  const OtpLifetimeSeconds: int := 300
  /** Wrong codes allowed before an OTP is thrown away. */
  const MaxOtpAttempts: int := 3

  predicate Matches(o: Otp, mobile: string, unverifiedOnly: bool)
  {
    o.mobile == mobile && (!unverifiedOnly || !o.isVerified)
  }

  /**
   * `filter(...).order_by('-created_at').first()`: a row of the number with
   * the latest creation time (of the last such row when times are equal).
   */
  function Newest(otps: seq<Otp>, mobile: string, unverifiedOnly: bool): (r: Option<nat>)
    ensures r.None? <==> forall i | 0 <= i < |otps| :: !Matches(otps[i], mobile, unverifiedOnly)
    ensures r.Some? ==> r.value < |otps| && Matches(otps[r.value], mobile, unverifiedOnly)
    ensures r.Some? ==> forall i | 0 <= i < |otps| && Matches(otps[i], mobile, unverifiedOnly) ::
      otps[i].createdAt <= otps[r.value].createdAt
  {
    if |otps| == 0 then None
    else
      var last := |otps| - 1;
      var rest := Newest(otps[..last], mobile, unverifiedOnly);
      if Matches(otps[last], mobile, unverifiedOnly)
         && (rest.None? || otps[rest.value].createdAt <= otps[last].createdAt)
      then Some(last)
      else rest
  }

  /** The rows `OTP.objects.filter(mobile_number=m, is_verified=False)` selects. */
  function UnverifiedOf(mobile: string): Otp -> bool
  {
    (o: Otp) => o.mobile == mobile && !o.isVerified
  }

  /** The rows `OTP.objects.filter(mobile_number=m)` selects, used or not. */
  function AnyOf(mobile: string): Otp -> bool
  {
    (o: Otp) => o.mobile == mobile
  }

  /** `str(random.randint(100000, 999999))`: six digits, the first not zero. */
  lemma ProviderOtpShape(draw: nat)
    requires 100000 <= draw <= 999999
    ensures var code := DecimalString(draw);
      IsDigitString(code) && |code| == 6 && code[0] != '0' && ParseDecimal(code) == draw
  {
    SixDigits(draw);
  }

  /** The number a request names: stripped, then normalised. */
  function RequestedMobile(raw: string): string
  {
    Normalize(Strip(raw))
  }

  predicate HasUser(users: seq<User>, mobile: string)
  {
    exists u | u in users :: u.mobile == mobile
  }

  /** `User.objects.get_or_create(mobile_number=m)`. */
  function GetOrCreateUser(users: seq<User>, mobile: string): (r: seq<User>)
    ensures HasUser(r, mobile)
    ensures HasUser(users, mobile) ==> r == users
    ensures !HasUser(users, mobile) ==> r == users + [DefaultUser(mobile)]
  {
    if HasUser(users, mobile) then users
    else
      assert DefaultUser(mobile) in users + [DefaultUser(mobile)];
      users + [DefaultUser(mobile)]
  }

  /** A code must have been requested at least a minute ago before another is sent. */
  predicate CooldownActive(otps: seq<Otp>, mobile: string, now: int)
  {
    var last := Newest(otps, mobile, false);
    last.Some? && now - otps[last.value].createdAt < OtpCooldownSeconds
  }

  /** Seconds left in the cooldown, as the 429 message reports them. */
  function CooldownWait(otps: seq<Otp>, mobile: string, now: int): int
    requires CooldownActive(otps, mobile, now)
  {
    OtpCooldownSeconds - (now - otps[Newest(otps, mobile, false).value].createdAt)
  }

  /** What presenting `code` does to one pending OTP, checks in the source's order. */
  datatype OtpVerdict = Expired | TooManyAttempts | WrongCode(remaining: int) | Correct

  function CheckOtp(o: Otp, code: string, now: int): (v: OtpVerdict)
    ensures v == Correct <==>
      now - o.createdAt <= OtpLifetimeSeconds && o.attempts < MaxOtpAttempts && o.code == code
    ensures v.WrongCode? ==> v.remaining == MaxOtpAttempts - (o.attempts + 1) && v.remaining >= 0
  {
    if now - o.createdAt > OtpLifetimeSeconds then Expired
    else if o.attempts >= MaxOtpAttempts then TooManyAttempts
    else if o.code != code then WrongCode(MaxOtpAttempts - (o.attempts + 1))
    else Correct
  }

  /**
   * Brute-force bound: an unexpired OTP that has already absorbed three wrong
   * codes refuses every further code, the right one included.
   */
  lemma LockedAfterThreeWrongCodes(o: Otp, code: string, now: int)
    requires now - o.createdAt <= OtpLifetimeSeconds
    requires o.attempts >= MaxOtpAttempts
    ensures CheckOtp(o, code, now) == TooManyAttempts
  {
  }

  /** Starting from zero attempts, the k-th wrong code (k = 1, 2, 3) reports 3 - k attempts left. */
  lemma WrongCodesCountDown(o: Otp, code: string, now: int, k: nat)
    requires now - o.createdAt <= OtpLifetimeSeconds && o.code != code
    requires 1 <= k <= MaxOtpAttempts
    ensures CheckOtp(o.(attempts := k - 1), code, now) == WrongCode(MaxOtpAttempts - k)
  {
  }

  /**
   * The comparison of `VerifyOTPView` as written: it reads `otp_obj.otp`, a
   * field the OTP model does not have (the column is `otp_code`). The expiry
   * and attempt checks come first; every code that passes them raises an
   * attribute error, which is `None` here.
   */
  function CheckOtpAsWritten(o: Otp, code: string, now: int): (v: Option<OtpVerdict>)
    ensures v.None? <==> now - o.createdAt <= OtpLifetimeSeconds && o.attempts < MaxOtpAttempts
    ensures v.Some? ==> v.value == CheckOtp(o, code, now) && v.value in {Expired, TooManyAttempts}
  {
    if now - o.createdAt > OtpLifetimeSeconds then Some(Expired)
    else if o.attempts >= MaxOtpAttempts then Some(TooManyAttempts)
    else None
  }

  /** The discrepancy: a live OTP presented with its own code fails as written and succeeds as intended. */
  lemma RightCodeFailsAsWritten(o: Otp, now: int)
    requires 0 <= now - o.createdAt <= OtpLifetimeSeconds && o.attempts == 0
    ensures CheckOtpAsWritten(o, o.code, now).None?
    ensures CheckOtp(o, o.code, now) == Correct
  {
  }

  /**
   * After the writes `SendOTPView` completes as written (the number's unused
   * codes deleted, no code stored), the number has no pending OTP, so the
   * next verification answers that none is pending.
   */
  lemma NoPendingCodeAfterSendAsWritten(otps: seq<Otp>, m: string)
    ensures Newest(DeleteWhere(otps, UnverifiedOf(m)), m, true).None?
  {
    var r := DeleteWhere(otps, UnverifiedOf(m));
    forall i | 0 <= i < |r| ensures !Matches(r[i], m, true) {
      assert r[i] in r;
      assert !UnverifiedOf(m)(r[i]);
    }
  }

  /**
   * As intended, the code a send stores is the number's newest pending OTP,
   * so it is the one the next verification checks.
   */
  lemma SentCodeIsPending(otps: seq<Otp>, m: string, o: Otp)
    requires o.mobile == m && !o.isVerified
    ensures var s := DeleteWhere(otps, UnverifiedOf(m)) + [o];
      Newest(s, m, true) == Some(|s| - 1)
  {
    var r := DeleteWhere(otps, UnverifiedOf(m));
    var s := r + [o];
    NoPendingCodeAfterSendAsWritten(otps, m);
    assert s[..|s| - 1] == r;
  }

  datatype SendOutcome = InvalidNumber(error: MobileError) | Cooldown(waitSeconds: int) | Sent(mobile: string) | SendFailed

  datatype VerifyOutcome =
    | BadNumber(error: MobileError)
    | BadOtpFormat
    | NoPendingOtp
    | Refused(verdict: OtpVerdict)
    | LoggedIn(mobile: string, isNewUser: bool)

  function OtpId(o: Otp): nat { o.id }

  class OtpService {
    var otps: seq<Otp>
    var users: seq<User>
    var nextOtpId: nat

    ghost predicate Valid()
      reads this
    {
      UniqueIds(otps, OtpId) && forall o | o in otps :: o.id < nextOtpId
    }

    constructor ()
      ensures Valid() && otps == [] && users == []
    {
      otps := [];
      users := [];
      nextOtpId := 0;
    }

    /**
     * `SendOTPView.post`: normalise and validate the number, refuse within
     * the cooldown, delete the number's unused codes, make sure a user
     * exists, and store one fresh code drawn from `draws`.
     */
    method SendOtp(raw: string, now: int, draws: seq<int>) returns (out: SendOutcome)
      requires Valid()
      requires |draws| == 6 && forall i | 0 <= i < 6 :: 0 <= draws[i] < 10
      modifies this
      ensures Valid()
      ensures var m := RequestedMobile(raw);
        Validate(m).Some? ==> out == InvalidNumber(Validate(m).value) && otps == old(otps) && users == old(users)
      ensures var m := RequestedMobile(raw);
        Validate(m).None? && CooldownActive(old(otps), m, now) ==>
          out == Cooldown(CooldownWait(old(otps), m, now)) && otps == old(otps) && users == old(users)
      ensures var m := RequestedMobile(raw);
        Validate(m).None? && !CooldownActive(old(otps), m, now) ==>
          && out == Sent(m)
          && otps == DeleteWhere(old(otps), UnverifiedOf(m))
                     + [SaveOtp(Otp(old(nextOtpId), m, GenerateOtp(draws), false, 0, now, None), true, now)]
          && users == GetOrCreateUser(old(users), m)
    {
      var m := RequestedMobile(raw);
      var check := Validate(m);
      if check.Some? {
        return InvalidNumber(check.value);
      }
      if CooldownActive(otps, m, now) {
        return Cooldown(CooldownWait(otps, m, now));
      }
      Issue(m, GenerateOtp(draws), now);
      out := Sent(m);
    }

    /**
     * `SendOTPView.post` as written: the checks and the first two writes are
     * those of `SendOtp`, but the final `OTP.objects.create(..., otp=...)`
     * names a field the model does not have and raises a type error. Under
     * autocommit the deletion and the new user stay; no code is stored.
     */
    method SendOtpAsWritten(raw: string, now: int) returns (out: SendOutcome)
      requires Valid()
      modifies this
      ensures Valid()
      ensures nextOtpId == old(nextOtpId)
      ensures var m := RequestedMobile(raw);
        Validate(m).Some? ==> out == InvalidNumber(Validate(m).value) && otps == old(otps) && users == old(users)
      ensures var m := RequestedMobile(raw);
        Validate(m).None? && CooldownActive(old(otps), m, now) ==>
          out == Cooldown(CooldownWait(old(otps), m, now)) && otps == old(otps) && users == old(users)
      ensures var m := RequestedMobile(raw);
        Validate(m).None? && !CooldownActive(old(otps), m, now) ==>
          && out == SendFailed
          && otps == DeleteWhere(old(otps), UnverifiedOf(m))
          && users == GetOrCreateUser(old(users), m)
    {
      var m := RequestedMobile(raw);
      var check := Validate(m);
      if check.Some? {
        return InvalidNumber(check.value);
      }
      if CooldownActive(otps, m, now) {
        return Cooldown(CooldownWait(otps, m, now));
      }
      ClearPending(m);
      out := SendFailed;
    }

    /** The first two writes of a send: delete the number's unused codes and get or create its user. */
    method ClearPending(m: string)
      requires Valid()
      modifies this
      ensures Valid()
      ensures otps == DeleteWhere(old(otps), UnverifiedOf(m))
      ensures users == GetOrCreateUser(old(users), m)
      ensures nextOtpId == old(nextOtpId)
    {
      DeleteWhereUnique(otps, UnverifiedOf(m), OtpId);
      otps := DeleteWhere(otps, UnverifiedOf(m));
      users := GetOrCreateUser(users, m);
    }

    /**
     * The writes of a successful send: delete the number's unused codes,
     * get or create its user, and store `code` as a new OTP.
     */
    method Issue(m: string, code: string, now: int)
      requires Valid()
      modifies this
      ensures Valid()
      ensures otps == DeleteWhere(old(otps), UnverifiedOf(m))
                      + [SaveOtp(Otp(old(nextOtpId), m, code, false, 0, now, None), true, now)]
      ensures users == GetOrCreateUser(old(users), m)
      ensures nextOtpId == old(nextOtpId) + 1
    {
      ClearPending(m);
      var created := SaveOtp(Otp(nextOtpId, m, code, false, 0, now, None), true, now);
      AppendUnique(otps, created, OtpId);
      otps := otps + [created];
      nextOtpId := nextOtpId + 1;
    }

    /**
     * `VerifyOTPView.post`: validate the number and the code's shape, take
     * the newest unused OTP of the number, then expire it, lock it, count a
     * wrong code against it, or consume it and sign the user in.
     */
    method VerifyOtp(raw: string, input: string, now: int) returns (out: VerifyOutcome)
      requires Valid()
      modifies this
      ensures Valid()
      ensures nextOtpId == old(nextOtpId)
      ensures var m := RequestedMobile(raw);
        Validate(m).Some? ==> out == BadNumber(Validate(m).value) && otps == old(otps) && users == old(users)
      ensures var m, code := RequestedMobile(raw), Strip(input);
        Validate(m).None? && !(IsDigitString(code) && |code| == 6) ==>
          out == BadOtpFormat && otps == old(otps) && users == old(users)
      ensures var m, code := RequestedMobile(raw), Strip(input);
        Validate(m).None? && IsDigitString(code) && |code| == 6 && Newest(old(otps), m, true).None? ==>
          out == NoPendingOtp && otps == old(otps) && users == old(users)
      ensures var m, code := RequestedMobile(raw), Strip(input);
        var k := Newest(old(otps), m, true);
        Validate(m).None? && IsDigitString(code) && |code| == 6 && k.Some?
        && CheckOtp(old(otps)[k.value], code, now) in {Expired, TooManyAttempts} ==>
          && out == Refused(CheckOtp(old(otps)[k.value], code, now))
          && otps == RemoveAt(old(otps), k.value) && users == old(users)
      ensures var m, code := RequestedMobile(raw), Strip(input);
        var k := Newest(old(otps), m, true);
        Validate(m).None? && IsDigitString(code) && |code| == 6 && k.Some?
        && CheckOtp(old(otps)[k.value], code, now).WrongCode? ==>
          && out == Refused(CheckOtp(old(otps)[k.value], code, now))
          && otps == old(otps)[k.value := old(otps)[k.value].(attempts := old(otps)[k.value].attempts + 1)]
          && users == old(users)
      ensures var m, code := RequestedMobile(raw), Strip(input);
        var k := Newest(old(otps), m, true);
        Validate(m).None? && IsDigitString(code) && |code| == 6 && k.Some?
        && CheckOtp(old(otps)[k.value], code, now) == Correct ==>
          && out == LoggedIn(m, !HasUser(old(users), m))
          && otps == RemoveAt(old(otps), k.value)
          && users == GetOrCreateUser(old(users), m)
    {
      var m := RequestedMobile(raw);
      var code := Strip(input);
      var check := Validate(m);
      if check.Some? {
        return BadNumber(check.value);
      }
      if !(IsDigitString(code) && |code| == 6) {
        return BadOtpFormat;
      }
      var k := Newest(otps, m, true);
      if k.None? {
        return NoPendingOtp;
      }
      var o := otps[k.value];
      var v := CheckOtp(o, code, now);
      if v == Expired || v == TooManyAttempts {
        Discard(k.value);
        return Refused(v);
      }
      if v.WrongCode? {
        CountWrongCode(k.value);
        return Refused(v);
      }
      var isNew := Admit(m);
      Discard(k.value);
      out := LoggedIn(m, isNew);
    }

    /** `otp_obj.delete()`. */
    method Discard(k: nat)
      requires Valid() && k < |otps|
      modifies this
      ensures Valid()
      ensures otps == RemoveAt(old(otps), k)
      ensures users == old(users) && nextOtpId == old(nextOtpId)
    {
      RemoveAtUnique(otps, k, OtpId);
      otps := RemoveAt(otps, k);
    }

    /** `otp_obj.attempts += 1; otp_obj.save()`. */
    method CountWrongCode(k: nat)
      requires Valid() && k < |otps|
      modifies this
      ensures Valid()
      ensures otps == old(otps)[k := old(otps)[k].(attempts := old(otps)[k].attempts + 1)]
      ensures users == old(users) && nextOtpId == old(nextOtpId)
    {
      var o := otps[k];
      var updated := otps[k := o.(attempts := o.attempts + 1)];
      assert forall i | 0 <= i < |updated| :: updated[i].id == otps[i].id;
      forall p | p in updated ensures p.id < nextOtpId {
        var i :| 0 <= i < |updated| && updated[i] == p;
        assert otps[i] in otps;
      }
      otps := updated;
    }

    /** `User.objects.get_or_create(mobile_number=m)`, reporting whether a row was created. */
    method Admit(m: string) returns (isNew: bool)
      requires Valid()
      modifies this
      ensures Valid()
      ensures isNew == !HasUser(old(users), m)
      ensures users == GetOrCreateUser(old(users), m)
      ensures otps == old(otps) && nextOtpId == old(nextOtpId)
    {
      isNew := !HasUser(users, m);
      users := GetOrCreateUser(users, m);
    }

    /**
     * The OTP step of provider registration and provider login: every OTP
     * of the number is deleted, used or not, and one code `draw` is stored;
     * afterwards it is the number's only OTP.
     */
    method IssueProviderOtp(mobile: string, draw: nat, now: int)
      requires Valid() && 100000 <= draw <= 999999
      modifies this
      ensures Valid()
      ensures otps == DeleteWhere(old(otps), AnyOf(mobile))
                      + [SaveOtp(Otp(old(nextOtpId), mobile, DecimalString(draw), false, 0, now, None), true, now)]
      ensures forall o | o in otps && o.mobile == mobile :: o.id == old(nextOtpId) && o.code == DecimalString(draw)
      ensures users == old(users) && nextOtpId == old(nextOtpId) + 1
    {
      DeleteWhereUnique(otps, AnyOf(mobile), OtpId);
      otps := DeleteWhere(otps, AnyOf(mobile));
      var created := SaveOtp(Otp(nextOtpId, mobile, DecimalString(draw), false, 0, now, None), true, now);
      AppendUnique(otps, created, OtpId);
      otps := otps + [created];
      nextOtpId := nextOtpId + 1;
    }
  }
}

=== FILE: provider_api.dfy ===
/**
 * The provider endpoints (service_providers/api/views.py and serializers.py):
 * registration with its employee id and OTP, the accept/reject action, the
 * en-route and completion steps, the location update and the availability
 * toggle. The requesting provider is a parameter; the assignment table is a
 * sequence of assignment objects.
 */
module ProviderApi {
  import opened Common
  import opened Geo
  import Accounts
  import OtpAuth
  import Bookings
  import opened Providers
  import Matching

  /** `f"SP{user.id:06d}"`. */
  function EmployeeId(userId: nat): (e: string)
    ensures |e| >= 8 && e[..2] == "SP"
    ensures IsDigitString(e[2..]) && ParseDecimal(e[2..]) == userId
  {
    ZeroPaddedRoundTrip(userId, 6);
    var e := "SP" + ZeroPadded(userId, 6);
    assert e[2..] == ZeroPadded(userId, 6);
    e
  }

  /** Two users never share an employee id. */
  lemma EmployeeIdInjective(a: nat, b: nat)
    requires EmployeeId(a) == EmployeeId(b)
    ensures a == b
  {
    assert ParseDecimal(EmployeeId(a)[2..]) == a;
  }

  datatype RegistrationInput = RegistrationInput(
    mobile: string,
    fullName: string,
    specialization: string,
    experienceYears: int)

  datatype RegistrationError = MobileTaken | UnknownSpecialization | NegativeExperience

  /** `ServiceProviderRegistrationSerializer`: every failing field is reported. */
  function RegistrationErrors(users: seq<Accounts.User>, d: RegistrationInput): (errs: set<RegistrationError>)
    ensures MobileTaken in errs <==> OtpAuth.HasUser(users, d.mobile)
    ensures UnknownSpecialization in errs <==> ParseSpecialization(d.specialization).None?
    ensures NegativeExperience in errs <==> d.experienceYears < 0
  {
    (if OtpAuth.HasUser(users, d.mobile) then {MobileTaken} else {})
    + (if ParseSpecialization(d.specialization).None? then {UnknownSpecialization} else {})
    + (if d.experienceYears < 0 then {NegativeExperience} else {})
  }

  /** The user row registration creates: a provider, active, not yet verified. */
  function ProviderUser(d: RegistrationInput): Accounts.User
  {
    Accounts.User(d.mobile, d.fullName, "provider", true, false, false, false, false)
  }

  /**
   * `ProviderRegistrationView.post`: validate, create the user and the
   * provider profile with its employee id, then replace every OTP of the
   * number with one code `draw`.
   */
  method RegisterProvider(svc: OtpAuth.OtpService, d: RegistrationInput, userId: nat, providerId: nat,
                          draw: nat, now: int)
    returns (r: Result<ServiceProvider, set<RegistrationError>>)
    requires svc.Valid() && 100000 <= draw <= 999999
    modifies svc
    ensures svc.Valid()
    ensures r.Err? <==> RegistrationErrors(old(svc.users), d) != {}
    ensures r.Err? ==> r.error == RegistrationErrors(old(svc.users), d)
                       && svc.users == old(svc.users) && svc.otps == old(svc.otps)
    ensures r.Ok? ==>
      && fresh(r.value) && r.value.id == providerId && r.value.user == userId
      && r.value.employeeId == EmployeeId(userId)
      && r.value.fullName == d.fullName && r.value.phoneNumber == d.mobile
      && ParseSpecialization(d.specialization) == Some(r.value.specialization)
      && r.value.experienceYears == d.experienceYears
      && r.value.verification == PendingVerification && r.value.isAvailable
    ensures r.Ok? ==> svc.users == old(svc.users) + [ProviderUser(d)]
    ensures r.Ok? ==>
      svc.otps == DeleteWhere(old(svc.otps), OtpAuth.AnyOf(d.mobile))
                  + [Accounts.SaveOtp(Accounts.Otp(old(svc.nextOtpId), d.mobile, DecimalString(draw), false, 0, now, None),
                                      true, now)]
    ensures r.Ok? ==> svc.nextOtpId == old(svc.nextOtpId) + 1
    ensures r.Ok? ==> forall o | o in svc.otps && o.mobile == d.mobile :: o.id == old(svc.nextOtpId) && o.code == DecimalString(draw)
    ensures r.Ok? ==> exists o | o in svc.otps :: o.mobile == d.mobile
  {
    var errs := RegistrationErrors(svc.users, d);
    if errs != {} {
      return Err(errs);
    }
    svc.users := svc.users + [ProviderUser(d)];
    var spec := ParseSpecialization(d.specialization).value;
    var p := new ServiceProvider(providerId, userId, EmployeeId(userId), d.fullName, d.mobile,
                                 spec, d.experienceYears);
    svc.IssueProviderOtp(d.mobile, draw, now);
    assert svc.otps[|svc.otps| - 1].mobile == d.mobile;
    r := Ok(p);
  }

  datatype Action = AcceptAction | RejectAction(reason: string)
  datatype ActionError = InvalidAction | ReasonRequired

  /** `AssignmentActionSerializer`: the action must be a choice; a rejection needs a non-empty reason. */
  function ValidateAction(action: string, reason: Option<string>): (r: Result<Action, ActionError>)
    ensures r == Ok(AcceptAction) <==> action == "accept"
    ensures r.Ok? && r.value.RejectAction? <==> action == "reject" && reason.Some? && reason.value != ""
    ensures r.Ok? && r.value.RejectAction? ==> r.value.reason == reason.value
    ensures r == Err(InvalidAction) <==> action != "accept" && action != "reject"
    ensures r == Err(ReasonRequired) <==> action == "reject" && (reason.None? || reason.value == "")
  {
    if action == "accept" then Ok(AcceptAction)
    else if action != "reject" then Err(InvalidAction)
    else if reason.None? || reason.value == "" then Err(ReasonRequired)
    else Ok(RejectAction(reason.value))
  }

  /** The reason the view stores: the submitted one, or "No reason provided". */
  function StoredReason(reason: Option<string>): string
  {
    reason.GetOr("No reason provided")
  }

  /** A validated rejection always carries its own reason, so the view's default is never stored. */
  lemma RejectionKeepsGivenReason(action: string, reason: Option<string>)
    requires ValidateAction(action, reason).Ok? && ValidateAction(action, reason).value.RejectAction?
    ensures StoredReason(reason) == reason.value != ""
  {
  }

  /** The lookup of `get_object_or_404`: this id, owned by the caller, in the given status. */
  predicate Owns(a: ServiceAssignment, me: ServiceProvider, id: nat, status: AssignmentStatus)
    reads a
  {
    a.id == id && a.provider == me && a.status == status
  }

  function Lookup(table: seq<ServiceAssignment>, me: ServiceProvider, id: nat, status: AssignmentStatus): (r: Option<nat>)
    reads table
    ensures r.None? <==> forall j | 0 <= j < |table| :: !Owns(table[j], me, id, status)
    ensures r.Some? ==> r.value < |table| && Owns(table[r.value], me, id, status)
    decreases |table|
  {
    if |table| == 0 then None
    else if Owns(table[0], me, id, status) then Some(0)
    else
      var rest := Lookup(table[1..], me, id, status);
      assert forall j | 1 <= j < |table| :: table[1..][j - 1] == table[j];
      if rest.None? then None else Some(rest.value + 1)
  }

  datatype ActionOutcome =
    | NotFound
    | Invalid(error: ActionError)
    | AcceptedAssignment
    | RejectedAssignment(reassigned: Option<ServiceAssignment>)

  /**
   * `AssignmentActionView.post`: only the caller's own assignment in status
   * assigned can be acted on. Accepting confirms the booking; rejecting
   * stores the reason and tries one reassignment.
   */
  method PostAssignmentAction(dist: DistanceFn, providers: seq<ServiceProvider>, me: ServiceProvider,
                              table: seq<ServiceAssignment>, id: nat, action: string, reason: Option<string>,
                              newId: nat, now: int)
    returns (out: ActionOutcome)
    modifies table, set a | a in table :: a.booking
    ensures var k := old(Lookup(table, me, id, Assigned));
      k.None? ==> out == NotFound && forall j | 0 <= j < |table| :: unchanged(table[j]) && unchanged(table[j].booking)
    ensures var k := old(Lookup(table, me, id, Assigned));
      k.Some? && ValidateAction(action, reason).Err? ==>
        out == Invalid(ValidateAction(action, reason).error)
        && forall j | 0 <= j < |table| :: unchanged(table[j]) && unchanged(table[j].booking)
    ensures var k := old(Lookup(table, me, id, Assigned));
      k.Some? && ValidateAction(action, reason) == Ok(AcceptAction) ==>
        && out == AcceptedAssignment
        && table[k.value].status == Accepted && table[k.value].acceptedAt == Some(now)
        && table[k.value].rejectedAt == old(table[k.value].rejectedAt)
        && table[k.value].rejectionReason == old(table[k.value].rejectionReason)
        && table[k.value].booking.status == Bookings.Confirmed
    ensures var k := old(Lookup(table, me, id, Assigned));
      k.Some? && ValidateAction(action, reason).Ok? && ValidateAction(action, reason).value.RejectAction? ==>
        && out.RejectedAssignment?
        && table[k.value].status == Rejected && table[k.value].rejectedAt == Some(now)
        && table[k.value].rejectionReason == reason.value
        && table[k.value].acceptedAt == old(table[k.value].acceptedAt)
        && (out.reassigned.Some? ==>
              && fresh(out.reassigned.value) && out.reassigned.value.booking == table[k.value].booking
              && out.reassigned.value.provider != me && out.reassigned.value.status == Assigned
              && table[k.value].booking.status == Bookings.Confirmed)
        && (out.reassigned.None? ==>
              table[k.value].booking.status in {Bookings.Pending, old(table[k.value].booking.status)})
    ensures var k := old(Lookup(table, me, id, Assigned));
      k.Some? ==>
        && table[k.value].startedAt == old(table[k.value].startedAt)
        && table[k.value].completedAt == old(table[k.value].completedAt)
        && table[k.value].estimatedArrival == old(table[k.value].estimatedArrival)
    ensures var k := old(Lookup(table, me, id, Assigned));
      k.Some? ==> forall j | 0 <= j < |table| && table[j] != table[k.value] :: unchanged(table[j])
    ensures forall j | 0 <= j < |table| :: table[j].booking.ColumnsKept()
    ensures var k := old(Lookup(table, me, id, Assigned));
      k.Some? ==> forall j | 0 <= j < |table| && table[j].booking != table[k.value].booking :: unchanged(table[j].booking)
  {
    var k := Lookup(table, me, id, Assigned);
    if k.None? {
      return NotFound;
    }
    var a := table[k.value];
    var v := ValidateAction(action, reason);
    if v.Err? {
      return Invalid(v.error);
    }
    if v.value == AcceptAction {
      a.Accept(now);
      a.booking.status := Bookings.Confirmed;
      return AcceptedAssignment;
    }
    var reassigned := RejectAndReassign(dist, providers, a, StoredReason(reason), newId, now);
    out := RejectedAssignment(reassigned);
  }

  /**
   * The rejection branch of `assignment_action`: the assignment is rejected with
   * the given reason and its booking is offered to another provider.
   */
  method RejectAndReassign(dist: DistanceFn, providers: seq<ServiceProvider>, a: ServiceAssignment,
                           reason: string, newId: nat, now: int)
    returns (reassigned: Option<ServiceAssignment>)
    modifies a, a.booking
    ensures a.status == Rejected && a.rejectedAt == Some(now) && a.rejectionReason == reason
    ensures && a.acceptedAt == old(a.acceptedAt) && a.startedAt == old(a.startedAt)
            && a.completedAt == old(a.completedAt) && a.estimatedArrival == old(a.estimatedArrival)
    ensures a.booking.ColumnsKept()
    ensures reassigned.Some? ==>
      && fresh(reassigned.value) && reassigned.value.booking == a.booking
      && reassigned.value.provider != a.provider && reassigned.value.status == Assigned
      && a.booking.status == Bookings.Confirmed
    ensures reassigned.None? ==> a.booking.status in {Bookings.Pending, old(a.booking.status)}
  {
    a.Reject(reason, now);
    reassigned := Matching.ReassignRejectedBooking(dist, a, providers, newId, now);
  }

  /** `mark_en_route`: only the caller's own accepted assignment moves, to en route. */
  method MarkEnRoute(me: ServiceProvider, table: seq<ServiceAssignment>, id: nat)
    returns (r: Option<ServiceAssignment>)
    modifies table
    ensures var k := old(Lookup(table, me, id, Accepted));
      && (r.None? <==> k.None?)
      && (r.Some? ==> r.value == table[k.value] && r.value.status == EnRoute)
    ensures forall j | 0 <= j < |table| && (r.None? || table[j] != r.value) :: unchanged(table[j])
    ensures r.Some? ==> r.value.ColumnsKept()
  {
    var k := Lookup(table, me, id, Accepted);
    if k.None? {
      return None;
    }
    var a := table[k.value];
    a.status := EnRoute;
    r := Some(a);
  }

  /**
   * `complete_service`: only the caller's own assignment in progress is
   * completed, which completes its booking and counts one more job for the caller.
   */
  method CompleteServiceView(me: ServiceProvider, table: seq<ServiceAssignment>, id: nat, now: int)
    returns (r: Option<ServiceAssignment>)
    modifies table, set a | a in table :: a.booking, me
    ensures var k := old(Lookup(table, me, id, InProgress));
      && (r.None? <==> k.None?)
      && (r.Some? ==> r.value == table[k.value] && r.value.status == Completed && r.value.completedAt == Some(now))
    ensures r.None? ==> unchanged(me)
    ensures r.Some? ==> r.value.booking.status == Bookings.Completed
                        && me.totalJobsCompleted == old(me.totalJobsCompleted) + 1
    ensures me.ProfileKept()
    ensures r.Some? ==>
      && r.value.acceptedAt == old(r.value.acceptedAt) && r.value.rejectedAt == old(r.value.rejectedAt)
      && r.value.startedAt == old(r.value.startedAt) && r.value.estimatedArrival == old(r.value.estimatedArrival)
      && r.value.rejectionReason == old(r.value.rejectionReason)
    ensures forall j | 0 <= j < |table| && (r.None? || table[j] != r.value) :: unchanged(table[j])
    ensures forall j | 0 <= j < |table| :: table[j].booking.ColumnsKept()
    ensures forall j | 0 <= j < |table| && (r.None? || table[j].booking != r.value.booking) :: unchanged(table[j].booking)
  {
    var k := Lookup(table, me, id, InProgress);
    if k.None? {
      return None;
    }
    var a := table[k.value];
    a.CompleteService(now);
    r := Some(a);
  }

  datatype LocationError = CoordinatesRequired | InvalidFormat | LatitudeOutOfRange | LongitudeOutOfRange

  /** The range checks of `update_location`: latitude first, both bounds inclusive. */
  function RangeError(lat: int, lng: int): (e: Option<LocationError>)
    ensures e.None? <==> LatitudeInRange(lat) && LongitudeInRange(lng)
    ensures e == Some(LatitudeOutOfRange) <==> !LatitudeInRange(lat)
    ensures e == Some(LongitudeOutOfRange) <==> LatitudeInRange(lat) && !LongitudeInRange(lng)
  {
    if !LatitudeInRange(lat) then Some(LatitudeOutOfRange)
    else if !LongitudeInRange(lng) then Some(LongitudeOutOfRange)
    else None
  }

  /**
   * The checks of `update_location`: both values present, both numbers,
   * then the ranges, latitude first.
   */
  function CheckLocation(lat: NumberInput, lng: NumberInput): (r: Result<Point, LocationError>)
    ensures r == Err(CoordinatesRequired) <==> lat.Missing? || lng.Missing?
    ensures r == Err(InvalidFormat) <==> !lat.Missing? && !lng.Missing? && (lat.Malformed? || lng.Malformed?)
    ensures r.Ok? <==> lat.Number? && lng.Number? && LatitudeInRange(lat.micro) && LongitudeInRange(lng.micro)
    ensures r.Ok? ==> r.value == Point(lat.micro, lng.micro)
    ensures lat.Number? && lng.Number? && r.Err? ==> RangeError(lat.micro, lng.micro) == Some(r.error)
  {
    if lat.Missing? || lng.Missing? then Err(CoordinatesRequired)
    else if lat.Malformed? || lng.Malformed? then Err(InvalidFormat)
    else
      var e := RangeError(lat.micro, lng.micro);
      if e.Some? then Err(e.value) else Ok(Point(lat.micro, lng.micro))
  }

  /** The bounds are inclusive: the poles and the antimeridian are accepted. */
  lemma ExtremesAccepted()
    ensures CheckLocation(Number(90 * Micro), Number(-180 * Micro)).Ok?
    ensures CheckLocation(Number(-90 * Micro), Number(180 * Micro)).Ok?
    ensures CheckLocation(Number(90 * Micro + 1), Number(0)) == Err(LatitudeOutOfRange)
  {
  }

  /** `update_location` (the view): store the coordinates only when every check passes. */
  method UpdateLocationView(p: ServiceProvider, lat: NumberInput, lng: NumberInput, now: int)
    returns (r: Option<LocationError>)
    modifies p
    ensures r.None? <==> CheckLocation(lat, lng).Ok?
    ensures r.Some? ==> r.value == CheckLocation(lat, lng).error && unchanged(p)
    ensures r.None? ==> p.lat == Some(lat.micro) && p.lng == Some(lng.micro) && p.lastLocationUpdate == Some(now)
    ensures p.isAvailable == old(p.isAvailable) && p.totalJobsCompleted == old(p.totalJobsCompleted)
    ensures p.verification == old(p.verification) && p.rating == old(p.rating)
  {
    var c := CheckLocation(lat, lng);
    if c.Err? {
      return Some(c.error);
    }
    p.UpdateLocation(c.value.lat, c.value.lng, now);
    r := None;
  }

  /** `toggle_availability`: negates the flag and nothing else, so two toggles restore it. */
  method ToggleAvailability(p: ServiceProvider)
    modifies p
    ensures p.isAvailable == !old(p.isAvailable)
    ensures p.lat == old(p.lat) && p.lng == old(p.lng) && p.verification == old(p.verification)
    ensures p.rating == old(p.rating) && p.totalJobsCompleted == old(p.totalJobsCompleted)
    ensures p.lastLocationUpdate == old(p.lastLocationUpdate)
  {
    p.isAvailable := !p.isAvailable;
  }
}

=== FILE: providers.dfy ===
/**
 * Service providers and their assignments (service_providers/models.py).
 * Both are updated in place, so both are classes; the selection rules read
 * value snapshots of them (`ProviderRow`, `AssignmentRow`). Times are
 * seconds on one clock, passed in as `now`.
 */
module Providers {
  import opened Common
  import opened Geo
  import Bookings

  datatype Specialization = General | CarSpecialist | BikeSpecialist | Electrician | Painter

  /** The stored value of each specialization choice. */
  function SpecializationCode(s: Specialization): string
  {
    match s
    case General => "general"
    case CarSpecialist => "car_specialist"
    case BikeSpecialist => "bike_specialist"
    case Electrician => "electrician"
    case Painter => "painter"
  }

  /** A submitted choice: one of the five stored values, or nothing. */
  function ParseSpecialization(code: string): (r: Option<Specialization>)
    ensures r.Some? ==> SpecializationCode(r.value) == code
    ensures r.None? ==> forall s: Specialization :: SpecializationCode(s) != code
  {
    if code == "general" then Some(General)
    else if code == "car_specialist" then Some(CarSpecialist)
    else if code == "bike_specialist" then Some(BikeSpecialist)
    else if code == "electrician" then Some(Electrician)
    else if code == "painter" then Some(Painter)
    else None
  }

  /** Every specialization reads back as itself. */
  lemma SpecializationRoundTrip(s: Specialization)
    ensures ParseSpecialization(SpecializationCode(s)) == Some(s)
  {
  }

  datatype VerificationStatus = PendingVerification | Verified | RejectedVerification | Suspended

  /** The rating column: two decimal places, validated to 0.00..5.00; kept in hundredths. */
  type Rating = r: int | 0 <= r <= 500

  class ServiceProvider {
    const id: nat
    const user: nat
    const employeeId: string
    const fullName: string
    const phoneNumber: string
    const specialization: Specialization
    const experienceYears: nat
    var isAvailable: bool
    var verification: VerificationStatus
    var rating: Rating
    var totalJobsCompleted: nat
    var lat: Option<int>
    var lng: Option<int>
    var lastLocationUpdate: Option<int>

    /** `ServiceProvider.objects.create`: the model defaults for everything not given. */
    constructor (id: nat, user: nat, employeeId: string, fullName: string, phoneNumber: string,
                 specialization: Specialization, experienceYears: nat)
      ensures this.id == id && this.user == user && this.employeeId == employeeId
      ensures this.fullName == fullName && this.phoneNumber == phoneNumber
      ensures this.specialization == specialization && this.experienceYears == experienceYears
      ensures isAvailable && verification == PendingVerification && rating == 0 && totalJobsCompleted == 0
      ensures lat.None? && lng.None? && lastLocationUpdate.None?
    {
      this.id := id;
      this.user := user;
      this.employeeId := employeeId;
      this.fullName := fullName;
      this.phoneNumber := phoneNumber;
      this.specialization := specialization;
      this.experienceYears := experienceYears;
      isAvailable := true;
      verification := PendingVerification;
      rating := 0;
      totalJobsCompleted := 0;
      lat := None;
      lng := None;
      lastLocationUpdate := None;
    }

    /** `update_location`: both coordinates and the update time, nothing else. */
    method UpdateLocation(newLat: int, newLng: int, now: int)
      modifies this
      ensures lat == Some(newLat) && lng == Some(newLng) && lastLocationUpdate == Some(now)
      ensures isAvailable == old(isAvailable) && verification == old(verification)
      ensures rating == old(rating) && totalJobsCompleted == old(totalJobsCompleted)
    {
      lat := Some(newLat);
      lng := Some(newLng);
      lastLocationUpdate := Some(now);
    }

    function Row(): ProviderRow
      reads this
    {
      ProviderRow(id, isAvailable, verification, rating, lat, lng)
    }

    /** Every column but the job counter is as it was. */
    twostate predicate ProfileKept()
      reads this
    {
      && isAvailable == old(isAvailable) && verification == old(verification) && rating == old(rating)
      && lat == old(lat) && lng == old(lng) && lastLocationUpdate == old(lastLocationUpdate)
    }
  }

  /** What the selection rules read of a provider. */
  datatype ProviderRow = ProviderRow(
    id: nat,
    isAvailable: bool,
    verification: VerificationStatus,
    rating: Rating,
    lat: Option<int>,
    lng: Option<int>)

  /**
   * The filter every selection rule starts from: available, verified and
   * with both coordinates stored.
   */
  predicate Eligible(p: ProviderRow)
  {
    p.isAvailable && p.verification == Verified && p.lat.Some? && p.lng.Some?
  }

  function Position(p: ProviderRow): Point
    requires p.lat.Some? && p.lng.Some?
  {
    Point(p.lat.value, p.lng.value)
  }

  function ProviderRows(ps: seq<ServiceProvider>): (r: seq<ProviderRow>)
    reads ps
    ensures |r| == |ps| && forall i | 0 <= i < |ps| :: r[i] == ps[i].Row()
  {
    seq(|ps|, i reads ps requires 0 <= i < |ps| => ps[i].Row())
  }

  datatype AssignmentStatus = Pending | Assigned | Accepted | Rejected | EnRoute | InProgress | Completed | Cancelled

  class ServiceAssignment {
    const id: nat
    const booking: Bookings.Booking
    const provider: ServiceProvider
    var status: AssignmentStatus
    const assignedAt: int
    var acceptedAt: Option<int>
    var rejectedAt: Option<int>
    var startedAt: Option<int>
    var completedAt: Option<int>
    var estimatedArrival: Option<int>
    var rejectionReason: string

    /** `ServiceAssignment.objects.create` with a status and an optional arrival estimate. */
    constructor (id: nat, booking: Bookings.Booking, provider: ServiceProvider, status: AssignmentStatus,
                 now: int, estimatedArrival: Option<int>)
      ensures this.id == id && this.booking == booking && this.provider == provider
      ensures this.status == status && assignedAt == now && this.estimatedArrival == estimatedArrival
      ensures acceptedAt.None? && rejectedAt.None? && startedAt.None? && completedAt.None?
      ensures rejectionReason == ""
    {
      this.id := id;
      this.booking := booking;
      this.provider := provider;
      this.status := status;
      assignedAt := now;
      acceptedAt := None;
      rejectedAt := None;
      startedAt := None;
      completedAt := None;
      this.estimatedArrival := estimatedArrival;
      rejectionReason := "";
    }

    /**
     * Every status that has a time column has it set. The transitions
     * below keep this from any prior status, since none of them checks it.
     */
    predicate Stamped()
      reads this
    {
      && (status == Accepted ==> acceptedAt.Some?)
      && (status == Rejected ==> rejectedAt.Some?)
      && (status == InProgress ==> startedAt.Some?)
      && (status == Completed ==> completedAt.Some?)
    }

    /** `accept`: from any status. */
    method Accept(now: int)
      modifies this
      ensures status == Accepted && acceptedAt == Some(now)
      ensures Stamped()
      ensures rejectedAt == old(rejectedAt) && startedAt == old(startedAt) && completedAt == old(completedAt)
      ensures estimatedArrival == old(estimatedArrival) && rejectionReason == old(rejectionReason)
    {
      status := Accepted;
      acceptedAt := Some(now);
    }

    /** `reject`: from any status, keeping the given reason. */
    method Reject(reason: string, now: int)
      modifies this
      ensures status == Rejected && rejectedAt == Some(now) && rejectionReason == reason
      ensures Stamped()
      ensures acceptedAt == old(acceptedAt) && startedAt == old(startedAt) && completedAt == old(completedAt)
      ensures estimatedArrival == old(estimatedArrival)
    {
      status := Rejected;
      rejectedAt := Some(now);
      rejectionReason := reason;
    }

    /** `start_service`: from any status. */
    method StartService(now: int)
      modifies this
      ensures status == InProgress && startedAt == Some(now)
      ensures Stamped()
      ensures acceptedAt == old(acceptedAt) && rejectedAt == old(rejectedAt) && completedAt == old(completedAt)
      ensures estimatedArrival == old(estimatedArrival) && rejectionReason == old(rejectionReason)
    {
      status := InProgress;
      startedAt := Some(now);
    }

    /**
     * `complete_service`: from any status; the booking becomes completed
     * and the provider's job counter goes up by exactly one.
     */
    method CompleteService(now: int)
      modifies this, booking, provider
      ensures status == Completed && completedAt == Some(now)
      ensures Stamped()
      ensures acceptedAt == old(acceptedAt) && rejectedAt == old(rejectedAt) && startedAt == old(startedAt)
      ensures estimatedArrival == old(estimatedArrival) && rejectionReason == old(rejectionReason)
      ensures booking.status == Bookings.Completed && booking.ColumnsKept()
      ensures provider.totalJobsCompleted == old(provider.totalJobsCompleted) + 1
      ensures provider.ProfileKept()
    {
      status := Completed;
      completedAt := Some(now);
      booking.status := Bookings.Completed;
      provider.totalJobsCompleted := provider.totalJobsCompleted + 1;
    }

    /** Every column but the status is as it was. */
    twostate predicate ColumnsKept()
      reads this
    {
      && acceptedAt == old(acceptedAt) && rejectedAt == old(rejectedAt) && startedAt == old(startedAt)
      && completedAt == old(completedAt) && estimatedArrival == old(estimatedArrival)
      && rejectionReason == old(rejectionReason)
    }

    function Row(): AssignmentRow
      reads this
    {
      AssignmentRow(id, provider.id, status)
    }
  }

  /** What the workload count reads of an assignment. */
  datatype AssignmentRow = AssignmentRow(id: nat, provider: nat, status: AssignmentStatus)
}

=== FILE: scoring.dfy ===
/**
 * The weighted-score provider choice (service_providers/utils.py): distance,
 * rating and current workload combined into one score, the best in-range
 * provider chosen, and an assignment created for it. Distance is the
 * abstract `DistanceFn`, called as (provider, booking) as the source does;
 * the score is computed over `real`.
 */
module Scoring {
  import opened Common
  import opened Geo
  import Bookings
  import opened Providers

  /** Providers farther than this are skipped; exactly this far is kept. */
  const MaxKm: real := 50.0

  /** Statuses that count towards a provider's workload; en route does not. */
  predicate Busy(s: AssignmentStatus)
  {
    s == Assigned || s == Accepted || s == InProgress
  }

  predicate Counts(a: AssignmentRow, provider: nat)
  {
    a.provider == provider && Busy(a.status)
  }

  /** The number of the provider's assignments in a busy status. */
  function Workload(assignments: seq<AssignmentRow>, provider: nat): (w: nat)
    ensures w <= |assignments|
    ensures w == 0 <==> forall i | 0 <= i < |assignments| :: !Counts(assignments[i], provider)
    decreases |assignments|
  {
    if |assignments| == 0 then 0
    else
      var n := |assignments| - 1;
      var prev := Workload(assignments[..n], provider);
      assert forall i | 0 <= i < n :: assignments[..n][i] == assignments[i];
      prev + if Counts(assignments[n], provider) then 1 else 0
  }

  /** A new assignment adds one to its provider's workload exactly when its status is busy. */
  lemma WorkloadAppend(assignments: seq<AssignmentRow>, a: AssignmentRow, provider: nat)
    ensures Workload(assignments + [a], provider)
         == Workload(assignments, provider) + if Counts(a, provider) then 1 else 0
  {
    assert (assignments + [a])[..|assignments|] == assignments;
  }

  /** Moving an assignment from accepted to en route lowers its provider's workload by one. */
  lemma EnRouteLeavesWorkload(assignments: seq<AssignmentRow>, k: nat)
    requires k < |assignments| && assignments[k].status == Accepted
    ensures var moved := assignments[k := assignments[k].(status := EnRoute)];
      Workload(moved, assignments[k].provider) + 1 == Workload(assignments, assignments[k].provider)
  {
    WorkloadPointUpdate(assignments, k, assignments[k].(status := EnRoute), assignments[k].provider);
  }

  lemma {:induction false} WorkloadPointUpdate(assignments: seq<AssignmentRow>, k: nat, a: AssignmentRow, provider: nat)
    requires k < |assignments|
    ensures Workload(assignments[k := a], provider) + (if Counts(assignments[k], provider) then 1 else 0)
         == Workload(assignments, provider) + (if Counts(a, provider) then 1 else 0)
    decreases |assignments|
  {
    var n := |assignments| - 1;
    var updated := assignments[k := a];
    if k == n {
      assert updated[..n] == assignments[..n];
    } else {
      WorkloadPointUpdate(assignments[..n], k, a, provider);
      assert updated[..n] == assignments[..n][k := a];
      assert updated[n] == assignments[n];
    }
  }

  /** The weighted score: half for nearness, three tenths for rating, a fifth for a light workload. */
  function Score(d: Km, rating: Rating, w: nat): (s: real)
    ensures 0.0 < s <= 1.0
  {
    var distanceScore := 1.0 / (d + 1.0);
    var ratingScore := (rating as real / 100.0) / 5.0;
    var workloadScore := 1.0 / (w as real + 1.0);
    assert 0.0 < distanceScore <= 1.0 && 0.0 <= ratingScore <= 1.0 && 0.0 < workloadScore <= 1.0;
    distanceScore * 0.5 + ratingScore * 0.3 + workloadScore * 0.2
  }

  /** Nearer, better rated and less busy each never lower the score. */
  lemma ScoreMonotone(d1: Km, d2: Km, r1: Rating, r2: Rating, w1: nat, w2: nat)
    requires d1 <= d2 && r2 <= r1 && w1 <= w2
    ensures Score(d2, r2, w2) <= Score(d1, r1, w1)
  {
    assert 1.0 / (d2 + 1.0) <= 1.0 / (d1 + 1.0);
    assert 1.0 / (w2 as real + 1.0) <= 1.0 / (w1 as real + 1.0);
  }

  /** A provider the scoring loop scores: eligible and at most 50 km away. */
  predicate InReach(dist: DistanceFn, b: Point, p: ProviderRow)
  {
    Eligible(p) && dist(Position(p), b) <= MaxKm
  }

  /** The score of an eligible provider for a booking at `b`. */
  function ScoreOf(dist: DistanceFn, b: Point, p: ProviderRow, assignments: seq<AssignmentRow>): real
    requires Eligible(p)
  {
    Score(dist(Position(p), b), p.rating, Workload(assignments, p.id))
  }

  /** Each provider's score, or nothing when it is skipped. */
  function Scores(dist: DistanceFn, b: Point, ps: seq<ProviderRow>, assignments: seq<AssignmentRow>): (r: seq<Option<real>>)
    ensures |r| == |ps|
    ensures forall j | 0 <= j < |ps| ::
      r[j] == if InReach(dist, b, ps[j]) then Some(ScoreOf(dist, b, ps[j], assignments)) else None
  {
    seq(|ps|, j requires 0 <= j < |ps| =>
      if InReach(dist, b, ps[j]) then Some(ScoreOf(dist, b, ps[j], assignments)) else None)
  }

  /**
   * Index of the first greatest present value, or nothing when no value is
   * present: the running maximum with a strict `>`.
   */
  function FirstArgMax(xs: seq<Option<real>>): (r: Option<nat>)
    ensures r.None? <==> forall j | 0 <= j < |xs| :: xs[j].None?
    ensures r.Some? ==> r.value < |xs| && xs[r.value].Some?
    ensures r.Some? ==> forall j | 0 <= j < |xs| && xs[j].Some? :: xs[j].value <= xs[r.value].value
    ensures r.Some? ==> forall j | 0 <= j < r.value && xs[j].Some? :: xs[j].value < xs[r.value].value
    decreases |xs|
  {
    if |xs| == 0 then None
    else
      var n := |xs| - 1;
      var prev := FirstArgMax(xs[..n]);
      assert forall j | 0 <= j < n :: xs[..n][j] == xs[j];
      if xs[n].None? then prev
      else if prev.None? || xs[n].value > xs[prev.value].value then Some(n)
      else prev
  }

  /** One more value: the running maximum moves to it only when it is strictly greater. */
  lemma FirstArgMaxStep(xs: seq<Option<real>>, i: nat)
    requires i < |xs|
    ensures var prev := FirstArgMax(xs[..i]);
      FirstArgMax(xs[..i + 1])
        == if xs[i].None? then prev
           else if prev.None? || xs[i].value > xs[prev.value].value then Some(i)
           else prev
  {
    assert xs[..i + 1][..i] == xs[..i];
  }

  /** The provider `find_best_provider` picks, by index, for a booking at the given coordinates. */
  function Best(dist: DistanceFn, bLat: Option<int>, bLng: Option<int>, ps: seq<ProviderRow>,
                assignments: seq<AssignmentRow>): (r: Option<nat>)
    ensures r.None? <==> !Truthy(bLat) || !Truthy(bLng)
                         || forall j | 0 <= j < |ps| :: !InReach(dist, Point(bLat.value, bLng.value), ps[j])
    ensures r.Some? ==> r.value < |ps| && InReach(dist, Point(bLat.value, bLng.value), ps[r.value])
    ensures r.Some? ==> forall j | 0 <= j < |ps| && InReach(dist, Point(bLat.value, bLng.value), ps[j]) ::
      ScoreOf(dist, Point(bLat.value, bLng.value), ps[j], assignments)
        <= ScoreOf(dist, Point(bLat.value, bLng.value), ps[r.value], assignments)
    ensures r.Some? ==> forall j | 0 <= j < r.value && InReach(dist, Point(bLat.value, bLng.value), ps[j]) ::
      ScoreOf(dist, Point(bLat.value, bLng.value), ps[j], assignments)
        < ScoreOf(dist, Point(bLat.value, bLng.value), ps[r.value], assignments)
  {
    if !Truthy(bLat) || !Truthy(bLng) then None
    else
      var xs := Scores(dist, Point(bLat.value, bLng.value), ps, assignments);
      var r := FirstArgMax(xs);
      if r.None? then
        assert forall j | 0 <= j < |ps| :: xs[j].None?;
        None
      else r
  }

  /**
   * `find_best_provider`, as the source's loop: the best score starts at -1
   * and is replaced only by a strictly greater one. Since every score is
   * positive, the first in-range provider is always taken.
   */
  method FindBestProvider(dist: DistanceFn, booking: Bookings.Booking, providers: seq<ServiceProvider>,
                          assignments: seq<AssignmentRow>)
    returns (r: Option<ServiceProvider>)
    ensures var k := Best(dist, booking.lat, booking.lng, ProviderRows(providers), assignments);
      && (r.None? <==> k.None?)
      && (r.Some? ==> r.value == providers[k.value])
  {
    if !Truthy(booking.lat) || !Truthy(booking.lng) {
      return None;
    }
    var rows := ProviderRows(providers);
    var b := Point(booking.lat.value, booking.lng.value);
    ghost var xs := Scores(dist, b, rows, assignments);
    var best: Option<nat> := None;
    var bestScore: real := -1.0;
    var i := 0;
    while i < |rows|
      invariant i <= |rows|
      invariant best == FirstArgMax(xs[..i])
      invariant best.None? ==> bestScore == -1.0
      invariant best.Some? ==> best.value < i && bestScore == xs[best.value].value
    {
      FirstArgMaxStep(xs, i);
      var p := rows[i];
      assert xs[i] == if InReach(dist, b, p) then Some(ScoreOf(dist, b, p, assignments)) else None;
      if Eligible(p) {
        var distance := dist(Position(p), b);
        if distance <= MaxKm {
          var total := ScoreOf(dist, b, p, assignments);
          if total > bestScore {
            bestScore := total;
            best := Some(i);
          }
        }
      }
      i := i + 1;
    }
    assert xs[..i] == xs;
    if best.None? {
      return None;
    }
    r := Some(providers[best.value]);
  }

  /** `auto_assign_provider`: an assigned assignment for the best provider, if there is one. */
  method AutoAssignProvider(dist: DistanceFn, booking: Bookings.Booking, providers: seq<ServiceProvider>,
                            assignments: seq<AssignmentRow>, newId: nat, now: int)
    returns (r: Option<ServiceAssignment>)
    ensures var k := Best(dist, booking.lat, booking.lng, ProviderRows(providers), assignments);
      && (r.None? <==> k.None?)
      && (r.Some? ==> && fresh(r.value) && r.value.id == newId && r.value.booking == booking
                      && r.value.provider == providers[k.value] && r.value.status == Assigned
                      && r.value.assignedAt == now && r.value.estimatedArrival.None?)
  {
    var best := FindBestProvider(dist, booking, providers, assignments);
    if best.None? {
      return None;
    }
    var a := new ServiceAssignment(newId, booking, best.value, Assigned, now, None);
    r := Some(a);
  }
}

=== FILE: sorting.dfy ===
/**
 * Python's `list.sort(key=...)` on tuple keys: a stable sort by a
 * lexicographic key of two reals. Written as an insertion sort; the lemmas
 * establish that the result is a permutation, ordered, stable, and that its
 * head is the first element with the least key.
 */
module Sorting {

  type Key = (real, real)

  /** Strict lexicographic order on two-real keys, Python's tuple `<`. */
  predicate Below(a: Key, b: Key)
  {
    a.0 < b.0 || (a.0 == b.0 && a.1 < b.1)
  }

  predicate Sorted<T>(s: seq<T>, key: T -> Key)
  {
    forall i, j | 0 <= i < j < |s| :: !Below(key(s[j]), key(s[i]))
  }

  /** Places `x` before the first element whose key is not below its own. */
  function Insert<T(==)>(x: T, s: seq<T>, key: T -> Key): (r: seq<T>)
    ensures multiset(r) == multiset(s) + multiset{x}
    ensures |r| == |s| + 1
  {
    if |s| == 0 then [x]
    else if Below(key(s[0]), key(x)) then
      assert s == [s[0]] + s[1..];
      [s[0]] + Insert(x, s[1..], key)
    else
      [x] + s
  }

  lemma {:induction false} InsertSorted<T>(x: T, s: seq<T>, key: T -> Key)
    requires Sorted(s, key)
    ensures Sorted(Insert(x, s, key), key)
  {
    if |s| > 0 {
      var r := Insert(x, s, key);
      if Below(key(s[0]), key(x)) {
        var t := Insert(x, s[1..], key);
        InsertSorted(x, s[1..], key);
        assert r == [s[0]] + t;
        forall j | 0 <= j < |t| ensures !Below(key(t[j]), key(s[0])) {
          assert t[j] in multiset(t);
          if t[j] != x {
            assert t[j] in multiset(s[1..]);
            assert t[j] in s[1..];
          }
        }
      }
    }
  }

  function SortBy<T(==)>(s: seq<T>, key: T -> Key): (r: seq<T>)
    ensures multiset(r) == multiset(s)
    ensures |r| == |s|
    ensures Sorted(r, key)
  {
    if |s| == 0 then []
    else
      assert s == [s[0]] + s[1..];
      InsertSorted(s[0], SortBy(s[1..], key), key);
      Insert(s[0], SortBy(s[1..], key), key)
  }

  /** Index of the first element whose key is least. */
  function FirstMin<T>(s: seq<T>, key: T -> Key): (i: nat)
    requires |s| > 0
    ensures i < |s|
    ensures forall j | 0 <= j < |s| :: !Below(key(s[j]), key(s[i]))
    ensures forall j | 0 <= j < i :: Below(key(s[i]), key(s[j]))
  {
    if |s| == 1 then 0
    else
      var m := FirstMin(s[1..], key) + 1;
      if Below(key(s[m]), key(s[0])) then m else 0
  }

  /** The head of the sorted list is the first element with the least key. */
  lemma {:induction false} SortByHead<T>(s: seq<T>, key: T -> Key)
    requires |s| > 0
    ensures SortBy(s, key)[0] == s[FirstMin(s, key)]
  {
    if |s| > 1 {
      SortByHead(s[1..], key);
    }
  }

  /** The elements of `s` whose key equals `k`, in their order in `s`. */
  function WithKey<T>(s: seq<T>, key: T -> Key, k: Key): seq<T>
  {
    if |s| == 0 then []
    else (if key(s[0]) == k then [s[0]] else []) + WithKey(s[1..], key, k)
  }

  lemma WithKeyCons<T>(a: T, t: seq<T>, key: T -> Key, k: Key)
    ensures WithKey([a] + t, key, k) == (if key(a) == k then [a] else []) + WithKey(t, key, k)
  {
    assert ([a] + t)[0] == a;
    assert ([a] + t)[1..] == t;
  }

  /** `x` and the elements of `s` with key `k`, `x` first when it has that key. */
  function PrefixedWithKey<T>(x: T, s: seq<T>, key: T -> Key, k: Key): seq<T>
  {
    (if key(x) == k then [x] else []) + WithKey(s, key, k)
  }

  lemma {:induction false} InsertWithKey<T>(x: T, s: seq<T>, key: T -> Key, k: Key)
    ensures WithKey(Insert(x, s, key), key, k) == PrefixedWithKey(x, s, key, k)
  {
    if |s| == 0 || !Below(key(s[0]), key(x)) {
      assert Insert(x, s, key) == [x] + s;
      WithKeyCons(x, s, key, k);
    } else {
      InsertWithKey(x, s[1..], key, k);
      InsertBehindWithKey(x, s, key, k);
    }
  }

  /** One step of `InsertWithKey`: `x` goes behind the head of `s`. */
  lemma InsertBehindWithKey<T>(x: T, s: seq<T>, key: T -> Key, k: Key)
    requires |s| > 0 && Below(key(s[0]), key(x))
    requires WithKey(Insert(x, s[1..], key), key, k) == PrefixedWithKey(x, s[1..], key, k)
    ensures WithKey(Insert(x, s, key), key, k) == PrefixedWithKey(x, s, key, k)
  {
    var t := Insert(x, s[1..], key);
    assert Insert(x, s, key) == [s[0]] + t;
    WithKeyCons(s[0], t, key, k);
    assert s == [s[0]] + s[1..];
    WithKeyCons(s[0], s[1..], key, k);
    if key(x) == k {
      assert key(s[0]) != k;
    }
  }

  /** Stability: elements with equal keys keep their relative order. */
  lemma {:induction false} SortByStable<T>(s: seq<T>, key: T -> Key, k: Key)
    ensures WithKey(SortBy(s, key), key, k) == WithKey(s, key, k)
  {
    if |s| > 0 {
      SortByStable(s[1..], key, k);
      InsertWithKey(s[0], SortBy(s[1..], key), key, k);
    }
  }
}
